=== FILE: README.md ===
# House-sale listings: a Dafny model

This project models the core of a house-sale listing application. It has
two sides.

The server side is a NestJS service (`HouseSalesService`). It creates,
publishes, updates, deletes, looks up and searches listings, counts views
and contacts, and toggles favourites. Listing request bodies are checked
against the class-validator rules of `CreateHouseSaleDto`.

The browser side is a set of React pages and components:

- the API client (`HouseSalesAPI`);
- the sell page with its multi-step `HouseSaleForm`;
- the "my saved listings" page;
- the home page's card list (`AnimatedCards`) and picture carousel (`ImageCarousel`);
- the two contact pages and the customer-contact dashboard;
- the quick property form (`PropertyForm`) and the posts page;
- the post form;
- the three image pickers (`ImageUploader`, `SimpleImageUploader` and the upload box of the sell form);
- the image storage service in front of Supabase Storage.

Every operation is a pure function, or a method with loop invariants, from
a state and its inputs to the next state and the observable outcome. The
outcomes are replies, alerts, dispatched window events and writes to
`localStorage` or to storage. The following become parameters:

- the database's answers, `fetch`, the clock and `Math.random`;
- `confirm`, `FileReader` and the Supabase client;
- whether `localStorage` accepts a write.

Modules follow the program:

| module | file | models |
|---|---|---|
| `Options`, `Json`, `Seqs`, `Strings`, `TextMatch`, `JsNumbers` | options, json, seqs, strings, text_match, js_numbers | shared vocabulary: JSON values with JavaScript truthiness, `filter`/`slice`/`Set`, `trim`, `split`/`join`, `includes`, the regular expressions the card parser uses, `parseFloat` |
| `ListingStore` | listing_store.dfy | the listing and favourite tables |
| `HouseSaleDto` | house_sale_dto.dfy | `CreateHouseSaleDto` and `UpdateHouseSaleDto` validation |
| `ListingLifecycle` | lifecycle.dfy | create, publish, update, remove, findOne, contactSeller, toggleFavorite |
| `ListingQueries` | listing_queries.dfy | findAll, findByUserId, findSavedByUserId, findSimilar |
| `HouseSalesApi` | api_client.dfy | the browser's API client |
| `Cards` | cards.dfy | the card the pages build from listing data, and the request body |
| `SellHouse`, `HouseSaleForm` | sell_house.dfy, house_sale_form.dfy | the sell page and its form |
| `SavedListings` | saved_listings.dfy | the saved-listings page |
| `AnimatedCards`, `ImageCarousel` | animated_cards.dfy, image_carousel.dfy | the home page's cards and carousel |
| `ContactPages`, `CustomerContacts` | contact_pages.dfy, customer_contacts.dfy | the contact pages and the dashboard that lists what they store |
| `PropertyForm`, `PostsPage`, `PostForm` | property_form.dfy, posts_page.dfy, post_form.dfy | the quick property form, the posts page, the post form |
| `Uploads`, `ImageStorage`, `ImageUploader`, `SimpleImageUploader` | uploads.dfy, image_storage.dfy, image_uploader.dfy, simple_image_uploader.dfy | file selection, the storage service, the two uploader components |

## Model

| member | source | states |
|---|---|---|
| HouseSaleDto.ValidCreateConstraints | backend/src/house-sales/dto/create-house-sale.dto.ts:6-204 | An accepted create body has these fields: the six required strings; bedrooms and bathrooms as numbers in 1..20; floors in 1..10 and parking spaces in 0..10 when present; an email accepted by the email rule when present; string arrays for images and badges; a string status. |
| HouseSaleDto.RoomCountOutOfRangeRejected | backend/src/house-sales/dto/create-house-sale.dto.ts:64-74 | A bedroom or bathroom count below 1 or above 20 makes the create body invalid. |
| HouseSaleDto.MissingRequiredStringRejected | backend/src/house-sales/dto/create-house-sale.dto.ts:6-8 | A body lacking any of title, price, location, houseType, sellerName or sellerPhone as a string is refused. |
| HouseSaleDto.AnyStatusAccepted | backend/src/house-sales/dto/create-house-sale.dto.ts:201-204 | Status is only typed as a string: replacing it by any string keeps an accepted body accepted. |
| HouseSaleDto.CreateIsUpdate | backend/src/house-sales/dto/update-house-sale.dto.ts:4 | The partial update class accepts every body the create class accepts. |
| HouseSaleDto.UpdateAcceptsStatusAndNulls | backend/src/house-sales/dto/update-house-sale.dto.ts:4 | An update may carry any status string or a null title, though a create with a null title is refused. |
| ListingLifecycle.Create | backend/src/house-sales/house-sales.service.ts:10-43 | A new row with the caller as owner, the body's properties and a fresh id is appended. Status defaults to "saved". `publishedAt` is set exactly when the status is "published". Counters start at zero. The message names which of the two happened. |
| ListingLifecycle.CreateKeepsInvariants | backend/src/house-sales/house-sales.service.ts:10-43 | Create keeps row ids distinct and keeps "publishedAt is set iff the row is published". |
| ListingLifecycle.Publish | backend/src/house-sales/house-sales.service.ts:45-89 | Unknown id gives NotFound and a foreign row gives Forbidden, both with the table unchanged. The owner's call always succeeds. An already published row comes back as it is. Otherwise that row is stored published, with the call's time as its publication time, and is the row the reply carries. No other row and no favourite changes. |
| ListingLifecycle.PublishKeepsInvariants | backend/src/house-sales/house-sales.service.ts:45-89 | Publish keeps ids distinct and "publishedAt iff published". |
| ListingLifecycle.PublishIdempotent | backend/src/house-sales/house-sales.service.ts:58-64 | A second publish changes nothing and answers "already published". |
| ListingLifecycle.Update | backend/src/house-sales/house-sales.service.ts:257-292 | NotFound and Forbidden as for publish; the owner's call always succeeds. The reply's row has the patch's properties over the row's, the row's other properties and its old `publishedAt`. The stored row carries every patched property and its old `publishedAt`, and is the reply's row. Every other row is unchanged. |
| ListingLifecycle.UpdateBreaksPublishedAt | backend/src/house-sales/house-sales.service.ts:273 | A saved row patched with status "published" is stored published without a publication time: a table that kept "publishedAt iff published" no longer does. |
| ListingLifecycle.UpdateKeepingStatus | backend/src/house-sales/house-sales.service.ts:257-292 | The corrected update gives the same outcomes as update, so the owner's call always succeeds. The stored row keeps its status and `publishedAt`, carries every other patched property, and is the reply's row. Other rows and favourites are unchanged. |
| ListingLifecycle.UpdateKeepingStatusKeepsInvariants | backend/src/house-sales/house-sales.service.ts:257-292 | The corrected update keeps ids distinct and "publishedAt iff published". |
| ListingLifecycle.Remove | backend/src/house-sales/house-sales.service.ts:294-315 | NotFound and Forbidden as for publish. The owner's call always succeeds, and the table then holds exactly the other rows. The model leaves the favourite table as it was; see "Left out". |
| ListingLifecycle.RemoveKeepsInvariants | backend/src/house-sales/house-sales.service.ts:294-315 | Remove keeps ids distinct and "publishedAt iff published". |
| ListingLifecycle.FindOne | backend/src/house-sales/house-sales.service.ts:223-255 | NotFound exactly for an unknown id, and a known id always succeeds. The reply is the row as read before the increment, the row's view counter goes up by one and nothing else changes. |
| ListingLifecycle.ContactSeller | backend/src/house-sales/house-sales.service.ts:317-362 | NotFound exactly for an unknown id, and a known id always succeeds. The reply is the seller's phone and email, the contact counter goes up by one and nothing else changes. |
| ListingLifecycle.ToggleFavorite | backend/src/house-sales/house-sales.service.ts:364-414 | NotFound exactly for an unknown listing, and a known listing always succeeds. The answer is true iff the pair was absent before and iff it is present after. No other favourite and no listing changes. |
| ListingLifecycle.ToggleTwiceRestores | backend/src/house-sales/house-sales.service.ts:364-414 | Two toggles restore the table. |
| ListingQueries.NewestFirst | backend/src/house-sales/house-sales.service.ts:146-148 | The result is a permutation of the rows, sorted by `createdAt` descending. |
| ListingQueries.PageOf | backend/src/house-sales/house-sales.service.ts:101-103 | The page number is the given one when it is truthy, else 1. |
| ListingQueries.LimitOf | backend/src/house-sales/house-sales.service.ts:101-103 | The page size is the given one when it is truthy, else 10. |
| ListingQueries.FindAll | backend/src/house-sales/house-sales.service.ts:91-172 | The data is the window at `(page-1)*limit` of all matching rows, newest first. The total counts every matching row. The page count is the ceiling of total over limit. |
| ListingQueries.FindAllPageRows | backend/src/house-sales/house-sales.service.ts:105-139 | Every row on a page is published and passes every given filter, and the page is newest first. |
| ListingQueries.EveryMatchOnItsPage | backend/src/house-sales/house-sales.service.ts:150-170 | Paging loses nothing: the match of rank (page-1)·limit + i is at place i of that page, and the page is counted in totalPages. Every rank has exactly one such page and place. |
| ListingQueries.ZeroFiltersIgnored | backend/src/house-sales/house-sales.service.ts:107-139 | Filters of "" or 0 select the same rows as absent filters. |
| ListingQueries.FindByUserId | backend/src/house-sales/house-sales.service.ts:174-195 | Exactly the user's rows, of any status, newest first. |
| ListingQueries.FindSavedByUserId | backend/src/house-sales/house-sales.service.ts:197-221 | A reordering of exactly the user's rows whose status is "saved", each as often as in the table, newest first. |
| ListingQueries.SavedThenPublished | backend/src/house-sales/house-sales.service.ts:10-89 | A listing created without a status is on its owner's saved list and not public. After publish it is public and off the saved list. |
| JsNumbers.ParseFloat | backend/src/house-sales/house-sales.service.ts:426 | `parseFloat` is NaN exactly when, after white space and one sign, the text starts with neither a digit, nor a point and a digit, nor "Infinity". It is infinite exactly on "Infinity", with the sign's direction. A finite value is never negative without a minus and never positive with one. |
| JsNumbers.ParseFloatSkipsWhiteSpace | backend/src/house-sales/house-sales.service.ts:426 | Leading white space and line terminators do not change the value read. |
| JsNumbers.ParseFloatSigns | backend/src/house-sales/house-sales.service.ts:426 | A leading minus negates the value the rest reads as; a leading plus changes nothing. |
| JsNumbers.ParseFloatOfDigits | backend/src/house-sales/house-sales.service.ts:426 | A text of digits only reads as exactly its value. |
| JsNumbers.ParseFloatOfDecimal | backend/src/house-sales/house-sales.service.ts:426 | `whole.frac` reads as the whole part plus the fraction. |
| JsNumbers.ParseFloatWithExponent | backend/src/house-sales/house-sales.service.ts:426 | `digits e digits` reads as the first digits times ten to the power of the second. |
| JsNumbers.ParseFloatBareExponent | backend/src/house-sales/house-sales.service.ts:426 | An `e` without digits after it is not read. |
| JsNumbers.LeadingPointExample | backend/src/house-sales/house-sales.service.ts:426 | ".5" reads as one half. |
| JsNumbers.InfinityExample | backend/src/house-sales/house-sales.service.ts:426 | "-Infinity" reads as negative infinity. |
| JsNumbers.CurrencySignExample | backend/src/house-sales/house-sales.service.ts:426 | A price written with a currency sign first reads as NaN. |
| ListingQueries.SourcePrice | backend/src/house-sales/house-sales.service.ts:426 | The price exists exactly when the column is a string, and is then `parseFloat` of the text with every comma removed. Otherwise `replace` throws. |
| ListingQueries.FindSimilar | backend/src/house-sales/house-sales.service.ts:416-476 | NotFound exactly for an unknown id, and a server error exactly when its price is not a string. Otherwise at most six rows come back, newest first. Each is another row sharing the province or the house type or priced within 30%, and none comes back more often than it is in the table. When fewer than six come back they are all such rows. When six come back, no similar row left out is newer than the sixth. |
| ListingQueries.FindSimilarRepeatsNothing | backend/src/house-sales/house-sales.service.ts:429-460 | On a table of distinct ids no suggestion is repeated. |
| ListingQueries.PriceBandExample | backend/src/house-sales/house-sales.service.ts:427-455 | For a 1,000,000 source, 1,250,000 is similar and 1,400,000 is not. |
| ListingQueries.FindSimilarIncludesSaved | backend/src/house-sales/house-sales.service.ts:434-457 | Suggestions do not filter on status: another user's saved row is suggested, whatever the source's price text. |
| HouseSalesApi.AuthHeaders | frontend/src/lib/api/house-sales.ts:108-115 | Both JSON headers are always sent. An Authorization header is present iff a non-empty token is stored, and it then carries "Bearer " and the token. |
| HouseSalesApi.ErrorBodyMessage | frontend/src/lib/api/house-sales.ts:138-139 | A failure is reported by the server's truthy message when there is one. A body that parses to `null` gives the `TypeError` of reading `message` from null. Any other body gives the status line. |
| HouseSalesApi.CreateHouseSale | frontend/src/lib/api/house-sales.ts:117-147 | No token: reject before any request. A 401 and only a 401 clears the tokens, as an expired session. Other failures reject with the server's message, the null-body `TypeError` or the status line. Success resolves to the parsed body. |
| HouseSalesApi.Call | frontend/src/lib/api/house-sales.ts:179-347 | The other calls reject a non-OK status with the status line and resolve an OK one to the body. |
| HouseSalesApi.QueryParams | frontend/src/lib/api/house-sales.ts:151-159 | One pair per filter entry that is neither undefined nor null, in order. |
| HouseSalesApi.NoParamsIffNoneDefined | frontend/src/lib/api/house-sales.ts:151-159 | There are no pairs iff no entry is defined. |
| HouseSalesApi.ListingsUrlQuestionMark | frontend/src/lib/api/house-sales.ts:161 | The URL carries "?" and the query exactly when some filter is defined. |
| HouseSalesApi.AuthFailuresAreSessionProblems | frontend/src/lib/api/house-sales.ts:121-136 | Both authentication rejections carry a wording the sell page recognises. |
| HouseSalesApi.HttpErrorIsNoSessionProblem | frontend/src/lib/api/house-sales.ts:139 | A status-line rejection never carries that wording. |
| Cards.ProjectCard | frontend/src/app/sell-house/page.tsx:20-39 | The card shows the listing's data. Each optional property falls back: description, placeholder cover, default badges, one floor for a missing or zero count, no parking, "not specified" areas. A non-zero floor count is shown as it is. The id is the time and the counters are zero. |
| Cards.CardAreasNeverEmpty | frontend/src/app/sell-house/page.tsx:23-36 | A card never has an empty area text or an empty cover. This follows directly from the `||` fallbacks. |
| Cards.ToWire | frontend/src/app/sell-house/page.tsx:71 | The serialised body carries every required property with its value, and status and floors exactly when present. |
| SellHouse.Submit | frontend/src/app/sell-house/page.tsx:15-72 | The success view shows the data. Publishing puts the card first in the cache and dispatches one event when storage accepts it. Saving never touches the cache. The request asks for the status of the action. |
| SellHouse.React | frontend/src/app/sell-house/page.tsx:72-97 | The user is prompted to log in iff the rejection carries a session wording. The other outcomes are sorted into synced, warned and logged. |
| SellHouse.NoTokenPromptsLogin | frontend/src/app/sell-house/page.tsx:80-95 | Without a token no request is sent and the login prompt appears. |
| SellHouse.ExpiredSessionPromptsLogin | frontend/src/app/sell-house/page.tsx:80-95 | A 401 clears the tokens and prompts for a login. |
| SellHouse.RequestedStatusIsKept | frontend/src/app/sell-house/page.tsx:71 | A row created from the page's request is published, and has a publication time, iff the user chose to publish. |
| SellHouse.NoBedroomPublishedOnlyLocally | frontend/src/app/sell-house/page.tsx:41-97 | Data with no bedroom is shown as published and cached, while the server refuses it. Any refusal whose message carries no session wording is only logged. |
| SellHouse.BedroomRefusalIsLogged | frontend/src/app/sell-house/page.tsx:84-95 | The 400 the server sends for zero bedrooms carries the failed check as its message, and that message has no session wording. |
| SavedListings.Fetch | frontend/src/app/my-saved-listings/page.tsx:17-28 | Only a successful reply replaces the list. Loading ends either way. |
| SavedListings.HandlePublish | frontend/src/app/my-saved-listings/page.tsx:30-88 | On success the listing leaves the page, its card is cached when it was on the page and storage accepts it, and the success alert shows. A rejected call or a null reply alerts and changes no list. Any other reply without success changes nothing and shows no alert. The spinner always clears. |
| SavedListings.HandleDelete | frontend/src/app/my-saved-listings/page.tsx:90-103 | Confirmed and settled: the listing leaves the page. A refused call alerts and keeps it. Declined: nothing happens. |
| SavedListings.RepublishAddsNoCard | frontend/src/app/my-saved-listings/page.tsx:38-80 | A second successful publish of the same id caches no further card. |
| SavedListings.PublishAndDeleteAgreeOnList | frontend/src/app/my-saved-listings/page.tsx:80-96 | Publishing and deleting take a listing off the page identically. |
| SavedListings.PublishedCardShowsListing | frontend/src/app/my-saved-listings/page.tsx:38-80 | The card cached for a published listing is that listing's card, and the page shrinks. |
| HouseSaleForm.FormatPrice | frontend/src/components/HouseSaleForm.tsx:181-197 | The formatted price holds exactly the typed digits, in order, with commas in between. |
| HouseSaleForm.FormatPriceIdempotent | frontend/src/components/HouseSaleForm.tsx:181-197 | Formatting a formatted price changes nothing. |
| HouseSaleForm.FormattedPriceReadBack | frontend/src/components/HouseSaleForm.tsx:188-191 | The server's price reading of a formatted price, commas removed, is the typed amount. |
| HouseSaleForm.ThaiText | frontend/src/components/HouseSaleForm.tsx:200-259 | The wording is empty iff the field is empty, "0", unreadable or zero. Otherwise it ends in "บาท". |
| HouseSaleForm.ThaiTextOfTypedPrice | frontend/src/components/HouseSaleForm.tsx:200-259 | A typed amount below a thousand reads "n บาท", and whole millions read "M ล้านบาท". |
| HouseSaleForm.AmountWordsKeepLeadingUnit | frontend/src/components/HouseSaleForm.tsx:206-222 | Above a million only the hundred-thousands digit of the remainder is spoken. |
| HouseSaleForm.Press | frontend/src/components/HouseSaleForm.tsx:261-266 | A press moves one counter by its step, floored at 0. The other counters stay. |
| HouseSaleForm.CountersLeaveAcceptedRange | frontend/src/components/HouseSaleForm.tsx:261-266 | Three minus presses take the default bedrooms to 0, outside the server's range. |
| HouseSaleForm.BoundedPress | backend/src/house-sales/dto/create-house-sale.dto.ts:64-125 | The corrected press keeps each counter within the server's range. |
| HouseSaleForm.BoundedPressStaysInBounds | backend/src/house-sales/dto/create-house-sale.dto.ts:64-125 | Counters in range stay in range, and move by the press whenever that stays in range. |
| HouseSaleForm.Toggle | frontend/src/components/HouseSaleForm.tsx:268-275 | A selected id is removed and everything else kept; an unselected one is appended. |
| HouseSaleForm.ToggleTwiceRestores | frontend/src/components/HouseSaleForm.tsx:268-275 | Toggling an unselected badge twice restores the selection. |
| HouseSaleForm.ToggleKeepsDistinct | frontend/src/components/HouseSaleForm.tsx:268-275 | The selection never holds an id twice. |
| HouseSaleForm.PressBadge | frontend/src/components/HouseSaleForm.tsx:499-500 | A badge button never selects more than three. A selected badge is removed, and an unselected one is added while fewer than three are selected. With three selected, an unselected badge leaves the selection as it was. |
| HouseSaleForm.SubmittedBadges | frontend/src/components/HouseSaleForm.tsx:308-322 | The sent badges are repeat-free and are exactly the selected labels and the automatic ones. |
| HouseSaleForm.SelectedLabelsLead | frontend/src/components/HouseSaleForm.tsx:317-322 | The sent badges begin with the selected labels in picking order. |
| HouseSaleForm.SentProperties | frontend/src/components/HouseSaleForm.tsx:321-334 | The form's other properties are sent unchanged, except that `selectedBadges` is dropped and the six check boxes are sent as booleans. |
| HouseSaleForm.Submit | frontend/src/components/HouseSaleForm.tsx:298-337 | Nothing is sent iff title, price, location or seller phone is empty. Otherwise the data carries the merged badges, a placeholder when there is no image, the action's status, no id and no selected-badge ids. Title, description, price, location, house type, counts, areas and seller name and phone are the form's, and the other properties are `SentProperties`. |
| HouseSaleForm.ZeroBedroomFormPublishedOnlyLocally | frontend/src/components/HouseSaleForm.tsx:261-337 | A form pressed down to zero bedrooms is accepted and published on the page, while its request fails the server's checks. |
| HouseSaleForm.UploadImages | frontend/src/components/HouseSaleForm.tsx:1106-1201 | Nothing happens while uploading or with a blank title. Otherwise the pictures made from the free slots are appended, never beyond twenty. |
| HouseSaleForm.UploadSkipsRejectedFiles | frontend/src/components/HouseSaleForm.tsx:1141-1150 | A selection of non-images or oversized files adds nothing. |
| HouseSaleForm.NextThenPrev | frontend/src/components/HouseSaleForm.tsx:339-353 | Steps stay in 1..4, and next then back returns to the same step. |
| AnimatedCards.ParseCard | frontend/src/components/AnimatedCards.tsx:54-142 | The price is the first number before "ลบ" or "ลา", or "0", followed by "00,000". Each count and area is the number found before its keyword, or its default (3, 2, 1, 2, 120 m², 35 wah²). Place, title, description and badges are those of `Place`, `Description` and `ParsedBadges`. The statistics lie in their ranges, and the id is the index plus one. |
| AnimatedCards.FoundBadges | frontend/src/components/AnimatedCards.tsx:105-109 | A badge is found iff the text contains its keyword; the found badges keep the order in which the parser tests them. |
| AnimatedCards.KeywordBadges | frontend/src/components/AnimatedCards.tsx:105-110 | A badge is shown iff its keyword occurs in the text, with the labels of `Label` for the words of `Keyword`, in the parser's order and never twice. There are none iff no keyword occurs, and never the quality badge. |
| AnimatedCards.KeywordBadgeTable | frontend/src/components/AnimatedCards.tsx:105-109 | "ขายด่วน", "รีโนเวทใหม่" for "รีโนเวท", "พร้อมอยู่", "โปรโมชั่น" for "ฟรี" and "ใกล้รถไฟฟ้า" each appear iff their keyword occurs. |
| AnimatedCards.ParsedBadges | frontend/src/components/AnimatedCards.tsx:105-111 | There is always a badge, and the quality badge appears iff no keyword matched. |
| AnimatedCards.Description | frontend/src/components/AnimatedCards.tsx:102 | The description is the text's first line cut at 150 characters, followed by "...". It is a prefix of the text that stops at 150 characters, the first newline or the end. |
| AnimatedCards.BedroomCountRead | frontend/src/components/AnimatedCards.tsx:60-61 | A text that opens with "n ห้องนอน" gives n bedrooms. |
| AnimatedCards.PostCard | frontend/src/components/AnimatedCards.tsx:145-160 | A post's card carries its images, with the first one, or the placeholder, as cover. |
| AnimatedCards.PostCardIdsDistinct | frontend/src/components/AnimatedCards.tsx:118 | Cards of different posts have different ids. |
| AnimatedCards.TotalPages | frontend/src/components/AnimatedCards.tsx:265 | The page count is the least number of three-card pages holding every card. |
| AnimatedCards.EveryCardHasAPage | frontend/src/components/AnimatedCards.tsx:338-342 | Card k is on page k div 3 + 1 at place k mod 3. |
| AnimatedCards.GoToPage | frontend/src/components/AnimatedCards.tsx:344-360 | A page outside 1..total is ignored, so the current page stays valid. |
| AnimatedCards.MergeNew | frontend/src/components/AnimatedCards.tsx:295-304 | New cards come first, followed by exactly the earlier cards whose id none of them has. |
| AnimatedCards.MergeNewIdempotent | frontend/src/components/AnimatedCards.tsx:295-304 | Receiving the same new cards again changes nothing. |
| AnimatedCards.DeleteCard | frontend/src/components/AnimatedCards.tsx:393-442 | Signed out: an alert. Declined: nothing. Otherwise the id leaves both the list and the cache, one event fires, and the server is asked iff the id is a string of more than ten characters. |
| AnimatedCards.DeleteCardIdempotent | frontend/src/components/AnimatedCards.tsx:410-418 | Deleting twice leaves the lists as one deletion does. |
| AnimatedCards.LocalCardDeletionStaysLocal | frontend/src/components/AnimatedCards.tsx:420-428 | A card the browser built never triggers a server delete. |
| AnimatedCards.ImageStepsInverse | frontend/src/components/AnimatedCards.tsx:800-826 | The next and previous image buttons undo each other. |
| AnimatedCards.FullCycle | frontend/src/components/AnimatedCards.tsx:816-826 | Stepping forward through all images returns to the first. |
| AnimatedCards.SwipeImage | frontend/src/components/AnimatedCards.tsx:833-866 | A missing or zero touch position changes nothing, and the index stays in range. |
| AnimatedCards.SwipeSteps | frontend/src/components/AnimatedCards.tsx:843-862 | A swipe of at most 50 pixels does not move; a longer one moves exactly one image. |
| ImageCarousel.GoToNext | frontend/src/components/ImageCarousel.tsx:121-123 | The next slide is (i + 1) mod n. Nothing else changes. |
| ImageCarousel.GoToPrevious | frontend/src/components/ImageCarousel.tsx:117-119 | The previous slide is (i + n - 1) mod n. Nothing else changes. |
| ImageCarousel.Tick | frontend/src/components/ImageCarousel.tsx:106-115 | Autoplay advances only while playing and when there are slides. |
| ImageCarousel.PauseStopsAutoplay | frontend/src/components/ImageCarousel.tsx:106-131 | A paused carousel stays put, and resuming advances from the same slide. |
| ImageCarousel.TouchMove | frontend/src/components/ImageCarousel.tsx:139-154 | The gesture end follows the finger. Beyond 20 pixels exactly the arrow of the direction lights. |
| ImageCarousel.MouseMove | frontend/src/components/ImageCarousel.tsx:183-186 | A drag only follows the mouse once a gesture has started. |
| ImageCarousel.Swiped | frontend/src/components/ImageCarousel.tsx:161-170 | Beyond 50 pixels one slide forward or back. Otherwise, or with one slide, no move. |
| ImageCarousel.EndGesture | frontend/src/components/ImageCarousel.tsx:156-175 | As written: nothing unless both ends are truthy; otherwise swipe and forget the gesture. |
| ImageCarousel.EdgeReleaseIgnored | frontend/src/components/ImageCarousel.tsx:156-158 | A long swipe ending at pixel 0 leaves the slide and keeps the gesture armed. |
| ImageCarousel.EndGestureChecked | frontend/src/components/ImageCarousel.tsx:156-175 | The corrected release tests for a missing end rather than a zero one, and always forgets the gesture. |
| ImageCarousel.EveryLongSwipeMoves | frontend/src/components/ImageCarousel.tsx:156-205 | With the corrected release every swipe beyond 50 pixels moves one slide, and away from pixel 0 it agrees with the release as written. |
| ImageCarousel.MouseDragIsASwipe | frontend/src/components/ImageCarousel.tsx:178-205 | A mouse drag ends like the touch swipe between the same points. |
| ImageCarousel.HandlersKeepValid | frontend/src/components/ImageCarousel.tsx:117-253 | Every handler keeps the slide in range and at most one arrow lit. |
| ContactPages.DefaultForm | frontend/src/app/public-contact/page.tsx:26-38 | The empty form has exactly the page's fields, all blank except contact method "phone". |
| ContactPages.InputChange | frontend/src/app/public-contact/page.tsx:43-54 | Typing sets that field. On the public page a province change blanks the district. Nothing else changes. |
| ContactPages.GeneralInputTouchesOneField | frontend/src/app/contact/page.tsx:39-49 | On the general page typing changes only the typed field. |
| ContactPages.ProvinceBeforeDistrict | frontend/src/app/public-contact/page.tsx:43-54 | A district chosen before the province is lost. Chosen after, both are kept. |
| ContactPages.FindProvince | frontend/src/app/public-contact/page.tsx:59 | The result is the first row with that name, or none iff no row has it. |
| ContactPages.AvailableDistricts | frontend/src/app/public-contact/page.tsx:57-62 | No province, or an unknown one, offers no district. Otherwise the offered districts are that province's. |
| ContactPages.OfferedDistrictsBelongToProvince | frontend/src/app/public-contact/page.tsx:57-62 | Offered districts always belong to a row named as the chosen province. |
| ContactPages.NewContact | frontend/src/app/public-contact/page.tsx:74-79 | The stored record has status "new", the form's fields, the time stamp and the time as its id. |
| ContactPages.Submit | frontend/src/app/public-contact/page.tsx:64-113 | Missing name or phone gives only an alert. Otherwise the record goes first in storage, the form resets, one event fires and the thank-you view shows. |
| ContactPages.ResubmitOnlyAlerts | frontend/src/app/contact/page.tsx:51-99 | The reset form cannot be sent again: the second press only alerts. |
| ContactPages.SubmissionReachesDashboard | frontend/src/app/contact/page.tsx:61-77 | After a submission the dashboard's reload shows the new contact first. The total and the "new" count each grow by one. |
| CustomerContacts.Load | frontend/src/components/dashboard/CustomerContacts.tsx:49-52 | The list is what storage holds. |
| CustomerContacts.UpdateContactStatus | frontend/src/components/dashboard/CustomerContacts.tsx:54-60 | Contacts with the id get the status, every other contact is unchanged, and storage holds the result. |
| CustomerContacts.UpdateContactStatusIdempotent | frontend/src/components/dashboard/CustomerContacts.tsx:54-60 | Setting the same status twice is setting it once. |
| CustomerContacts.UpdateSurvivesReload | frontend/src/components/dashboard/CustomerContacts.tsx:49-60 | A reload after an update shows the update. |
| CustomerContacts.DeleteContact | frontend/src/components/dashboard/CustomerContacts.tsx:62-68 | Confirmed: exactly the contacts with the id leave, in their order, storage follows and the length drops by their number. Declined: nothing changes. |
| CustomerContacts.Visible | frontend/src/components/dashboard/CustomerContacts.tsx:108-110 | "All" shows every contact. A status shows exactly the contacts of that status, in list order, as many as the count. |
| CustomerContacts.StatsOf | frontend/src/components/dashboard/CustomerContacts.tsx:112-117 | Each count is the size of its filtered view. |
| CustomerContacts.StatsAddUp | frontend/src/components/dashboard/CustomerContacts.tsx:112-117 | With known statuses the three counts add up to the total. |
| CustomerContacts.NextStatus | frontend/src/components/dashboard/CustomerContacts.tsx:252-276 | A button exists iff the status is known. It moves "new" to "contacted", "contacted" to "closed" and "closed" back to "new". |
| CustomerContacts.PressButton | frontend/src/components/dashboard/CustomerContacts.tsx:252-276 | Pressing a card's button updates that contact to its next status. |
| CustomerContacts.ButtonsCycle | frontend/src/components/dashboard/CustomerContacts.tsx:252-276 | Three presses return a contact to its status. |
| CustomerContacts.MarkContactedMovesOneCount | frontend/src/components/dashboard/CustomerContacts.tsx:54-60 | Marking a unique new contact as contacted moves one count from "new" to "contacted". |
| PropertyForm.InputChange | frontend/src/components/PropertyForm.tsx:81-88 | Typing sets that text field and nothing else. |
| PropertyForm.NumberChange | frontend/src/components/PropertyForm.tsx:90-95 | A counter takes the value floored at 1. The other counter and the rest stay. |
| PropertyForm.StepsStayAboveZero | frontend/src/components/PropertyForm.tsx:90-95 | "-" at one stays, and "+" then "-" gives the form back. |
| PropertyForm.AddBadge | frontend/src/components/PropertyForm.tsx:97-105 | A non-blank, new badge is appended when there are fewer than five; otherwise nothing changes. |
| PropertyForm.RemoveBadge | frontend/src/components/PropertyForm.tsx:107-112 | One badge leaves, and no new badge appears. |
| PropertyForm.AddImage | frontend/src/components/PropertyForm.tsx:114-122 | A non-blank, new URL is appended below twenty images; otherwise nothing changes. |
| PropertyForm.RemoveImage | frontend/src/components/PropertyForm.tsx:124-129 | One image leaves, and no new image appears. |
| PropertyForm.EditsKeepConsistent | frontend/src/components/PropertyForm.tsx:81-129 | Every edit keeps the lists bounded, repeat-free and blank-free, and the counters at least 1. |
| PropertyForm.AddThenRemoveBadge | frontend/src/components/PropertyForm.tsx:97-112 | Adding a badge and removing it gives the form back. |
| PropertyForm.Submit | frontend/src/components/PropertyForm.tsx:131-163 | Missing fields give only the alert. Otherwise the form's data is sent, with the placeholder when it has no image, and the data resets. |
| PropertyForm.PostedDataConsistent | frontend/src/components/PropertyForm.tsx:131-163 | Sent data of a consistent form is consistent and complete. |
| PropertyForm.Preview | frontend/src/components/PropertyForm.tsx:165-183 | The preview shows each filled field. Empty ones show "ชื่อบ้าน", "คำอธิบาย", "0", "ที่อยู่" and "0 ตร.ม.", the cover falls back to the placeholder and no badges to "ใหม่". The id is the time and the counters are zero. |
| PostsPage.Roll | frontend/src/components/PostsPage.tsx:56-57 | A random draw gives a whole number from 1 to n. |
| PostsPage.RollCoversRange | frontend/src/components/PostsPage.tsx:56-57 | Every number from 1 to n can come out. |
| PostsPage.CardOf | frontend/src/components/PostsPage.tsx:50-72 | The card shows the sent data, a cover, badges, and counters within 1..100 and 1..50. |
| PostsPage.HandleFormSubmit | frontend/src/components/PostsPage.tsx:48-79 | The new card goes first, the earlier cards follow, the form closes and the alert shows. |
| PostsPage.SubmitForm | frontend/src/components/PostsPage.tsx:48-79 | Only data the form lets out adds a card, and then the form resets. |
| PostsPage.PostedCardMatchesPreview | frontend/src/components/PropertyForm.tsx:165-183 | The posted card shows what the preview showed. |
| PostForm.HandleImageUpload | frontend/src/components/PostForm.tsx:34-107 | The pictures made from the free places are appended in order, never beyond ten. The alerts are the too-many one and one per turned-away file. |
| PostForm.UploadFillsFreePlaces | frontend/src/components/PostForm.tsx:38-46 | Good files fill the form up to ten and no further. |
| PostForm.RemoveImage | frontend/src/components/PostForm.tsx:109-114 | One picture leaves and the rest keep their order. |
| PostForm.Submit | frontend/src/components/PostForm.tsx:116-130 | A blank title is refused first, then a blank text. Otherwise the post goes out unchanged. |
| PostForm.PicturesDoNotAffectSubmit | frontend/src/components/PostForm.tsx:109-130 | Adding or removing pictures never changes whether a post can be sent. This holds because the submit check never looks at the pictures. |
| Uploads.Rejections | frontend/src/components/PostForm.tsx:53-63 | One alert per turned-away file. |
| Uploads.OverfullListStillTakesFiles | frontend/src/components/ImageUploader.tsx:36-37 | A list already over its maximum still lets files through. |
| Uploads.FreeSlots | frontend/src/components/ImageUploader.tsx:36-37 | The corrected slot rule takes nothing once the list is full. |
| Uploads.FreeSlotsNeverOverfill | frontend/src/components/ImageUploader.tsx:36-37 | The corrected rule never overfills, and below the maximum it agrees with the rule as written. |
| Uploads.CollectImages | frontend/src/components/PostForm.tsx:48-103 | The picker's loop produces exactly the URLs of the files that pass the checks and convert, in order, with running ordinals. |
| Uploads.RejectedFilesLeaveNoTrace | frontend/src/components/PostForm.tsx:53-69 | Skipped files do not shift the ordinals of the others. |
| Uploads.EveryAcceptedFileYieldsAnImage | frontend/src/components/PostForm.tsx:53-103 | Without conversion failures each acceptable file yields one image. |
| ImageStorage.CleanFolderName | frontend/src/lib/supabase-storage.ts:74-79 | A cleaned name has only [a-z0-9_-], no double "_" and no "_" at either end. |
| ImageStorage.CleanFolderNameIdempotent | frontend/src/lib/supabase-storage.ts:74-79 | Cleaning twice is cleaning once. |
| ImageStorage.UploadPath | frontend/src/lib/supabase-storage.ts:71-80 | The path is the cleaned folder, then the time, the ordinal and the extension. |
| ImageStorage.Fallback | frontend/src/lib/supabase-storage.ts:117-149 | A readable file becomes a data URL; an unreadable one becomes the read error. |
| ImageStorage.UploadHouseImage | frontend/src/lib/supabase-storage.ts:35-111 | Non-image and oversized files fail before storage. An object is stored iff the file is acceptable and storage is configured, available and accepts it; its public URL comes back. Otherwise the fallback answers. |
| ImageStorage.UploadMultipleHouseImages | frontend/src/lib/supabase-storage.ts:156-185 | Every file yields a URL or an error, in order. The batch succeeds iff every file was delivered. |
| ImageStorage.DeleteHouseImage | frontend/src/lib/supabase-storage.ts:191-227 | A data URL counts as deleted, and so does any URL when there is no client. A URL without the bucket fails. Otherwise exactly the object path is removed. |
| ImageStorage.ObjectPathOfPublicUrl | frontend/src/lib/supabase-storage.ts:204-211 | The path read from a public URL is the stored path. |
| ImageStorage.UploadThenDelete | frontend/src/lib/supabase-storage.ts:35-227 | Deleting an uploaded image removes the object it created, and a data URL leaves storage alone. |
| ImageStorage.DeleteHouseFolder | frontend/src/lib/supabase-storage.ts:233-275 | Without a client it succeeds. A failed listing fails and an empty one succeeds with nothing removed. Otherwise every listed file under the cleaned folder is removed, and the answer is storage's. |
| ImageStorage.FolderDeletionReachesUploads | frontend/src/lib/supabase-storage.ts:74-80 | A file uploaded under a folder name is among the paths its folder deletion removes. |
| ImageUploader.Select | frontend/src/components/ImageUploader.tsx:33-44 | The free slots are passed on, with the alert iff more files were picked than fit. |
| ImageUploader.Finished | frontend/src/components/ImageUploader.tsx:74-95 | A delivered file's entry is at 100. A failed one stops at 10 with the answer's error. |
| ImageUploader.UploadFiles | frontend/src/components/ImageUploader.tsx:46-108 | As written: every file's entry finishes, numbered after the parent's images, and the parent ends with its images plus only the last URL. |
| ImageUploader.StaleListLosesUploads | frontend/src/components/ImageUploader.tsx:82-83 | With two or more deliveries the parent as written holds fewer pictures than were delivered. |
| ImageUploader.TwoFallbackUploadsKeepOne | frontend/src/components/ImageUploader.tsx:82-83 | Two fallback uploads leave only the second picture. |
| ImageUploader.ParentAgreesOnOneUpload | frontend/src/components/ImageUploader.tsx:82-83 | With a single delivery the written and the intended parent agree. |
| ImageUploader.UploadFilesIntended | frontend/src/components/ImageUploader.tsx:46-108 | The corrected upload appends every delivered URL in order. |
| ImageUploader.IntendedUploadKeepsEveryUrl | frontend/src/components/ImageUploader.tsx:33-108 | The corrected upload keeps the old pictures first, adds one per delivered file and never exceeds the maximum. |
| ImageUploader.ClearEntry | frontend/src/components/ImageUploader.tsx:127-129 | Exactly that entry leaves the uploading list. |
| ImageUploader.RemoveImage | frontend/src/components/ImageUploader.tsx:110-125 | Storage is asked to delete iff the URL mentions "supabase", and the picture leaves the parent's list. |
| ImageUploader.StoredPictureLeavesStorage | frontend/src/components/ImageUploader.tsx:110-125 | Removing a stored picture deletes exactly its object. |
| SimpleImageUploader.HandleFileSelect | frontend/src/components/SimpleImageUploader.tsx:22-66 | Readable pictures from the free places are appended in order, within the maximum. The alerts are the too-many one and one per turned-away file. |
| SimpleImageUploader.RemoveImage | frontend/src/components/SimpleImageUploader.tsx:77-80 | One picture leaves and the rest keep their order. |
| SimpleImageUploader.SameRuleAsPostForm | frontend/src/components/SimpleImageUploader.tsx:36-66 | With a maximum of ten it adds exactly what the post form adds. |
| SimpleImageUploader.RemoveUndoesSinglePick | frontend/src/components/SimpleImageUploader.tsx:22-80 | Picking one picture and removing it restores the list. |

## Left out

- Network, database and storage I/O. `fetch`, Prisma, the Supabase client, `FileReader` and `localStorage` are parameters giving their answers. Concurrency between requests, and the interleaving of React state updates, are not modelled.
- Clocks and timers are not modelled:
  - `Date.now()`, `new Date()` and ISO strings are parameters;
  - the 500 ms background send of the sell page, the one-second entry removal of the uploader and the four-second autoplay interval are steps the caller applies.
  - The contact pages' thank-you view lasts a fixed time; that timeout is left out.
- Randomness and floating point: the posts page's `Math.random()` counts are parameters in [0, 1). The random and fractional `rating` values and `toLocaleString` formatting are left out.
- `generateFolderName` of the house form (time, random id): it only names the upload folder, which storage cleans again.
- HouseSaleForm handleInputChange and availableDistricts: the province/district rule is the one modelled for the public contact page. The form's other text fields are kept untyped.
- HouseSaleForm.UploadImages: does not model the box's alerts (blank title, too many files, one per rejected file). Those are modelled for the post form and the simple uploader.
- The per-file conversion-error alert of the post form and the simple uploader: a failed conversion is modelled as a skipped file.
- ImageUploader.UploadFiles: the catch branch is left out, because `uploadHouseImage` answers every failure with a result and never throws. The intermediate progress of 10 before the answer is also left out, because it is overwritten.
- ImageUploader.RemoveImage: requires an index within the list; the handler is only reachable from a rendered picture.
- uploadHouseImage refers to an undeclared `houseId` on its two fallback paths. The resulting error is caught and answered by the same fallback, so the model does not distinguish those paths.
- `createBucketIfNotExists` and the logging (`console.*`).
- Files are identified by position in the picked list, not by object identity.
- Provinces are a parameter table (the data file is not part of this model).
- The mock card data and `posts.json` are inputs.
- Pointer positions are whole pixels.
- The card list's `refreshCards` listener re-reads storage and the post feed. It is not modelled beyond `MergeNew`.
- AnimatedCards.SwipeImage: keeps the as-written truthiness test; the corrected test is proved for the carousel.
- ListingLifecycle.Create: the database never writes `priceNumeric` on create (the schema is not part of this model), so similarity by price only sees rows that already carry one.
- The backend's global validation pipe and controller wiring are not part of this model. The server is taken to reject a body that fails the create checks.
- ListingLifecycle.Remove: the model leaves the favourite table as it was. The service only deletes the listing. Whether the database then deletes that listing's favourites or refuses the deletion is set by the Prisma schema, which is not part of this model. So "favourites are untouched" is a modelling assumption, not a promise of the program.
- JsNumbers.ParseFloat: values are exact reals. Rounding to the nearest double and the overflow of a huge exponent to Infinity are not modelled.
- HouseSaleDto.ValidCreateConstraints: JSON numbers are integers here (`JNum(n: int)`). `@IsNumber()` also accepts fractions such as 1.5 bedrooms, and those bodies are not modelled.
- ListingQueries.FindAll: the province and house-type filters (`ContainsInsensitive`) fold ASCII letters only. Prisma's `mode: 'insensitive'` follows the database's collation for other letters, which is not modelled. Thai has no letter case.
- ListingQueries.PageOf and ListingQueries.LimitOf: page and limit are natural numbers in the model. `findAll` passes any number on to Prisma. A negative limit becomes a negative `take`, which Prisma counts back from the end. A negative page becomes a negative `skip`. Neither case is modelled.
- HouseSalesApi.ErrorBodyMessage: the null-body message is worded as V8 words it. Other engines word that `TypeError` differently; their wording is not modelled.
- AnimatedCards.Description: characters are Unicode code points. JavaScript's `substring` counts UTF-16 code units, so a text with characters outside the Basic Multilingual Plane (emoji) before the cut is cut at a different place, possibly inside a surrogate pair. The promise holds as stated only for texts whose first 150 characters are all inside that plane.
- HouseSaleForm.ThaiText and HouseSaleForm.ThaiTextOfTypedPrice: amounts are exact unbounded integers. In the browser, `parseInt` gives a double, which rounds amounts above 2^53, and `toString` switches to exponent form from 1e21. So the readings promised here hold only for typed amounts up to 2^53; the wording of larger amounts is not promised.
- ListingQueries.EveryMatchOnItsPage: the lemma is about one fixed order. The model breaks ties of equal `createdAt` by insertion order, and every page is cut from that same order. The database gives no such promise across separate queries. Matches that share a `createdAt` may therefore swap places between two page requests, and one of them may be shown twice while the other is shown on no page. The lemma holds as stated only when the matching rows' `createdAt` values are distinct.

## Findings

| source | as written | input that shows it | evidently intended | confidence | as-written member | corrected member |
|---|---|---|---|---|---|---|
| backend/src/house-sales/house-sales.service.ts:273 | `update` spreads the patch into the row. The update DTO lets `status` through, but `publishedAt` is only set by `publish`. | A saved row patched with `{status: "published"}` becomes published with `publishedAt` null. | Status changes only through publish, keeping "publishedAt iff published". | medium; not executed | ListingLifecycle.UpdateBreaksPublishedAt | ListingLifecycle.UpdateKeepingStatusKeepsInvariants |
| frontend/src/components/HouseSaleForm.tsx:261-266 | Counters are floored at 0 (`Math.max(0, v)`), while the server needs bedrooms and bathrooms of at least 1. | Press bedrooms "-" three times from 3, then publish: the page shows success and the server refuses the body. | Counters clamped to the server's ranges. | medium; not executed | HouseSaleForm.CountersLeaveAcceptedRange | HouseSaleForm.BoundedPressStaysInBounds |
| frontend/src/components/ImageUploader.tsx:82-83 | Each delivered file calls `onImagesChange([...images, url])` with the `images` captured when the batch started. | Two files that both fall back to data URLs: the parent ends with only the second URL. | Every delivered URL appended. | high; not executed | ImageUploader.TwoFallbackUploadsKeepOne | ImageUploader.IntendedUploadKeepsEveryUrl |
| frontend/src/components/ImageUploader.tsx:36-37 | `slice(0, max - images.length)` with a negative count slices from the end. | 22 images, maximum 20, 5 files picked: 3 files still go through. | No slot once the list is full. | low; not executed | Uploads.OverfullListStillTakesFiles | Uploads.FreeSlotsNeverOverfill |
| frontend/src/components/ImageCarousel.tsx:156-158 | `if (!touchStart \|\| !touchEnd) return` treats pixel 0 as missing. | A swipe from x=100 to x=0 leaves the slide and keeps the gesture armed. | Test for null, not for falsy. | medium; not executed | ImageCarousel.EdgeReleaseIgnored | ImageCarousel.EveryLongSwipeMoves |

=== FILE: animated_cards.dfy ===
/**
  The home page's card list (`AnimatedCards`): the free-text parser that
  turns a post into a card, paging three cards at a time, the merge of
  freshly added cards, deletion from the list and from the browser's card
  cache, and the image index of the detail view.

  The post text's date (`Date.now() - index` days), the float rating and
  the ISO date strings are outside the model; the card's `date` is given.
*/
module AnimatedCards {
  import opened Options
  import opened Strings
  import opened Seqs
  import opened Cards
  import opened TextMatch

  // ---------------------------------------------------------------------------
  // parsePropertyData

  const PriceKeys := ["ลบ", "ลา"]
  const BedroomKeys := ["ห้องนอน"]
  const BathroomKeys := ["ห้องน้ำ"]
  const ParkingKeys := ["คัน", "ที่จอด"]
  const FloorKeys := ["ชั้น"]
  const UsableAreaKeys := ["ตร.ม", "ตรม"]
  const LandAreaKeys := ["ตร.ว", "ตรว"]

  const QualityBadge := "คุณภาพ"
  const TownhomeCategory := "ทาวน์โฮม"
  const PriceSuffix := "00,000"
  const DescriptionLength := 150

  /** `match ? parseInt(match[1]) : fallback` for an integer pattern. */
  function ParsedInt(text: string, keys: seq<string>, fallback: nat): (n: nat)
    ensures FirstMatch(text, keys, false).None? ==> n == fallback
    ensures FirstMatch(text, keys, false).Some? ==> n == DigitsValue(FirstMatch(text, keys, false).value)
  {
    match FirstMatch(text, keys, false)
    case None => fallback
    case Some(digits) => DigitsValue(digits)
  }

  /** `match ? match[1] + unit : fallback` for an area pattern. */
  function ParsedArea(text: string, keys: seq<string>, unit: string, fallback: string): (a: string)
    ensures FirstMatch(text, keys, true).None? ==> a == fallback
    ensures FirstMatch(text, keys, true).Some? ==> a == FirstMatch(text, keys, true).value + unit
  {
    match FirstMatch(text, keys, true)
    case None => fallback
    case Some(number) => number + unit
  }

  /** The location and title chosen by the first project name the text mentions. */
  function Place(text: string): (lt: (string, string))
    ensures Contains(text, "นวลจันทร์") ==> lt == ("นวลจันทร์", "ทาวน์โฮม 2 ชั้น ทำเลนวลจันทร์")
    ensures !Contains(text, "นวลจันทร์") && Contains(text, "ปิ่นเกล้า") ==>
      lt == ("ปิ่นเกล้า-จรัญ", "ทาวน์โฮมหลังริม ปิ่นเกล้า-จรัญ")
    ensures !Contains(text, "นวลจันทร์") && !Contains(text, "ปิ่นเกล้า") && Contains(text, "ลำลูกกา") ==>
      lt == ("ลำลูกกา ปทุมธานี", "ทาวน์เฮ้าส์ พฤกษา 17 ลำลูกกา")
    ensures !Contains(text, "นวลจันทร์") && !Contains(text, "ปิ่นเกล้า") && !Contains(text, "ลำลูกกา") ==>
      lt == ("กรุงเทพฯ", "บ้านคุณภาพ ทำเลดี")
  {
    if Contains(text, "นวลจันทร์") then ("นวลจันทร์", "ทาวน์โฮม 2 ชั้น ทำเลนวลจันทร์")
    else if Contains(text, "ปิ่นเกล้า") then ("ปิ่นเกล้า-จรัญ", "ทาวน์โฮมหลังริม ปิ่นเกล้า-จรัญ")
    else if Contains(text, "ลำลูกกา") then ("ลำลูกกา ปทุมธานี", "ทาวน์เฮ้าส์ พฤกษา 17 ลำลูกกา")
    else ("กรุงเทพฯ", "บ้านคุณภาพ ทำเลดี")
  }

  /** The badges the parser awards for a keyword, in the order it tests for them. */
  datatype KeywordBadge = UrgentSale | Renovated | ReadyToMove | Promotion | NearTransit

  function Rank(k: KeywordBadge): nat {
    match k
    case UrgentSale => 0
    case Renovated => 1
    case ReadyToMove => 2
    case Promotion => 3
    case NearTransit => 4
  }

  /** The word the text must contain for the badge. */
  function Keyword(k: KeywordBadge): string {
    match k
    case UrgentSale => "ขายด่วน"
    case Renovated => "รีโนเวท"
    case ReadyToMove => "พร้อมอยู่"
    case Promotion => "ฟรี"
    case NearTransit => "ใกล้รถไฟฟ้า"
  }

  /** The text the card shows for the badge. */
  function Label(k: KeywordBadge): string {
    match k
    case UrgentSale => "ขายด่วน"
    case Renovated => "รีโนเวทใหม่"
    case ReadyToMove => "พร้อมอยู่"
    case Promotion => "โปรโมชั่น"
    case NearTransit => "ใกล้รถไฟฟ้า"
  }

  /** No two badges share a label. */
  lemma LabelInjective(a: KeywordBadge, b: KeywordBadge)
    ensures Label(a) == Label(b) ==> a == b
  {
  }

  lemma LabelNotQuality(k: KeywordBadge)
    ensures Label(k) != QualityBadge
  {
  }

  /** No two badges share a place in the order. */
  lemma RanksDiffer()
    ensures forall a, b :: Rank(a) == Rank(b) ==> a == b
  {
  }

  /** The badge the parser tests for in place `n` of its order. */
  function OfRank(n: nat): (k: KeywordBadge)
    requires n < 5
    ensures Rank(k) == n
  {
    if n == 0 then UrgentSale
    else if n == 1 then Renovated
    else if n == 2 then ReadyToMove
    else if n == 3 then Promotion
    else NearTransit
  }

  predicate Ranked(ks: seq<KeywordBadge>) {
    forall i, j :: 0 <= i < j < |ks| ==> Rank(ks[i]) < Rank(ks[j])
  }

  /** The badges from place `n` of the order on that are `present`, in order. */
  function FoundFrom(present: KeywordBadge -> bool, n: nat): (ks: seq<KeywordBadge>)
    requires n <= 5
    ensures forall k :: k in ks <==> n <= Rank(k) && present(k)
    ensures |ks| <= 5 - n
    ensures Ranked(ks)
    decreases 5 - n
  {
    if n == 5 then []
    else
      var k := OfRank(n);
      var rest := FoundFrom(present, n + 1);
      RanksDiffer();
      if present(k) then
        assert forall i :: 0 <= i < |rest| ==> rest[i] in rest;
        [k] + rest
      else rest
  }

  /** The badges whose keyword the text contains, in the parser's order. */
  function FoundBadges(text: string): (ks: seq<KeywordBadge>)
    ensures |ks| <= 5
    ensures forall k :: k in ks <==> Contains(text, Keyword(k))
    ensures Ranked(ks)
  {
    FoundFrom(k => Contains(text, Keyword(k)), 0)
  }

  function Labels(ks: seq<KeywordBadge>): (b: seq<string>)
    ensures |b| == |ks| && forall i :: 0 <= i < |ks| ==> b[i] == Label(ks[i])
  {
    if |ks| == 0 then [] else [Label(ks[0])] + Labels(ks[1..])
  }

  /** A badge's label is shown iff the badge is in the list, and the quality badge never is. */
  lemma {:induction false} LabelsShown(ks: seq<KeywordBadge>)
    ensures forall k :: Label(k) in Labels(ks) <==> k in ks
    ensures QualityBadge !in Labels(ks)
  {
    if |ks| > 0 {
      LabelsShown(ks[1..]);
      LabelNotQuality(ks[0]);
      assert Labels(ks) == [Label(ks[0])] + Labels(ks[1..]);
      forall k ensures Label(k) in Labels(ks) <==> k in ks {
        LabelInjective(k, ks[0]);
        assert k in ks <==> k == ks[0] || k in ks[1..];
      }
    }
  }

  /**
    The badges whose keyword occurs in the text, in the source's order:
    "ขายด่วน", "รีโนเวทใหม่" for "รีโนเวท", "พร้อมอยู่", "โปรโมชั่น" for
    "ฟรี", and "ใกล้รถไฟฟ้า".
  */
  function KeywordBadges(text: string): (b: seq<string>)
    ensures |b| <= 5 && QualityBadge !in b
    ensures |b| == 0 <==> forall k :: !Contains(text, Keyword(k))
    ensures forall k :: Label(k) in b <==> Contains(text, Keyword(k))
    ensures var ks := FoundBadges(text); |b| == |ks| && forall i :: 0 <= i < |b| ==> b[i] == Label(ks[i])
  {
    var ks := FoundBadges(text);
    LabelsShown(ks);
    assert |ks| == 0 <== forall k :: !Contains(text, Keyword(k)) by {
      if |ks| > 0 { assert ks[0] in ks; }
    }
    Labels(ks)
  }

  /** The bullet points of the keyword table, one badge at a time. */
  lemma KeywordBadgeTable(text: string)
    ensures "ขายด่วน" in KeywordBadges(text) <==> Contains(text, "ขายด่วน")
    ensures "รีโนเวทใหม่" in KeywordBadges(text) <==> Contains(text, "รีโนเวท")
    ensures "พร้อมอยู่" in KeywordBadges(text) <==> Contains(text, "พร้อมอยู่")
    ensures "โปรโมชั่น" in KeywordBadges(text) <==> Contains(text, "ฟรี")
    ensures "ใกล้รถไฟฟ้า" in KeywordBadges(text) <==> Contains(text, "ใกล้รถไฟฟ้า")
  {
  }

  /** Keyword badges, or the single quality badge when none applies. */
  function ParsedBadges(text: string): (b: seq<string>)
    ensures |b| > 0
    ensures QualityBadge in b <==> |KeywordBadges(text)| == 0
  {
    var k := KeywordBadges(text);
    if |k| == 0 then [QualityBadge] else k
  }

  /** `text.split("\n")[0].substring(0, 150) + "..."` (counted in characters). */
  function Description(text: string): (d: string)
    ensures |d| <= DescriptionLength + 3
    ensures |d| >= 3 && d[|d| - 3..] == "..."
    ensures '\n' !in d
    ensures |d| - 3 <= |text| && d[..|d| - 3] == text[..|d| - 3]
    ensures |d| - 3 == DescriptionLength || |d| - 3 == |text| || text[|d| - 3] == '\n'
  {
    var line := Split(text, '\n')[0];
    SplitFirstPart(text, '\n');
    var cut := if |line| <= DescriptionLength then line else line[..DescriptionLength];
    assert forall c :: c in cut ==> c in line;
    cut + "..."
  }

  /**
    `parsePropertyData(text, index)`: every number the text does not state
    takes its default, the price text ends in "00,000", the statistics are
    derived from the index alone.
  */
  function ParseCard(text: string, index: nat, date: string): (c: Card)
    ensures c.id == NumId(index + 1)
    ensures 500 <= c.stats.views <= 3499 && 50 <= c.stats.likes <= 249
    ensures |c.badges| > 0 && |c.description| <= DescriptionLength + 3
    ensures |c.price| >= |PriceSuffix| && c.price[|c.price| - |PriceSuffix|..] == PriceSuffix
    ensures FirstMatch(text, PriceKeys, true).None? ==> c.price == "0" + PriceSuffix
    ensures FirstMatch(text, PriceKeys, true).Some? ==> c.price == FirstMatch(text, PriceKeys, true).value + PriceSuffix
    ensures c.bedrooms == ParsedInt(text, BedroomKeys, 3) && c.bathrooms == ParsedInt(text, BathroomKeys, 2)
    ensures c.parkingSpaces == ParsedInt(text, ParkingKeys, 1) && c.floors == ParsedInt(text, FloorKeys, 2)
    ensures c.usableArea == ParsedArea(text, UsableAreaKeys, SquareMetres, "120" + SquareMetres)
    ensures c.landArea == ParsedArea(text, LandAreaKeys, SquareWah, "35" + SquareWah)
    ensures (c.location, c.title) == Place(text)
    ensures c.description == Description(text) && c.badges == ParsedBadges(text)
    ensures FirstMatch(text, BedroomKeys, false).None? ==> c.bedrooms == 3
    ensures FirstMatch(text, BathroomKeys, false).None? ==> c.bathrooms == 2
    ensures FirstMatch(text, ParkingKeys, false).None? ==> c.parkingSpaces == 1
    ensures FirstMatch(text, FloorKeys, false).None? ==> c.floors == 2
    ensures FirstMatch(text, UsableAreaKeys, true).None? ==> c.usableArea == "120" + SquareMetres
    ensures FirstMatch(text, LandAreaKeys, true).None? ==> c.landArea == "35" + SquareWah
    ensures c.fullText == text && c.image == "" && c.imageUrls == [] && c.category == TownhomeCategory
  {
    var price := match FirstMatch(text, PriceKeys, true) case None => "0" case Some(p) => p;
    var place := Place(text);
    Card(
      NumId(index + 1),
      place.1,
      Description(text),
      "",
      ParsedBadges(text),
      Stats(500 + (index * 123) % 3000, 50 + (index * 67) % 200),
      date,
      TownhomeCategory,
      price + PriceSuffix,
      place.0,
      ParsedInt(text, BedroomKeys, 3),
      ParsedInt(text, BathroomKeys, 2),
      ParsedInt(text, FloorKeys, 2),
      ParsedInt(text, ParkingKeys, 1),
      ParsedArea(text, UsableAreaKeys, SquareMetres, "120" + SquareMetres),
      ParsedArea(text, LandAreaKeys, SquareWah, "35" + SquareWah),
      text,
      [])
  }

  /** A text that opens with a bedroom count gives the card that count. */
  lemma BedroomCountRead(n: nat, rest: string, index: nat, date: string)
    ensures ParseCard(NatToString(n) + "ห้องนอน" + rest, index, date).bedrooms == n
  {
    var text := NatToString(n) + "ห้องนอน" + rest;
    NumberBeforeKeywordFound(NatToString(n), "ห้องนอน", rest, false);
    assert FirstMatch(text, BedroomKeys, false) == FirstMatch(text, ["ห้องนอน"], false);
  }

  /** A post from `posts.json`: its text and image URLs. */
  datatype Post = Post(text: string, imageUrls: seq<string>)

  /** `loadPostsData`'s card for the post at `index`: the parsed card with the post's images. */
  function PostCard(p: Post, index: nat, date: string): (c: Card)
    ensures c.imageUrls == p.imageUrls
    ensures c.image == FirstImageOr(Some(p.imageUrls), PlaceholderImage) && c.image != ""
    ensures c.id == NumId(index + 1) && c.fullText == p.text
  {
    ParseCard(p.text, index, date).(image := FirstImageOr(Some(p.imageUrls), PlaceholderImage), imageUrls := p.imageUrls)
  }

  /** Cards parsed from consecutive posts have distinct ids. */
  lemma PostCardIdsDistinct(posts: seq<Post>, date: string, i: nat, j: nat)
    requires i < j < |posts|
    ensures PostCard(posts[i], i, date).id != PostCard(posts[j], j, date).id
  {
  }

  // ---------------------------------------------------------------------------
  // paging

  const CardsPerPage := 3

  /** `Math.ceil(cards.length / 3)` */
  function TotalPages(n: nat): (t: nat)
    ensures t * CardsPerPage >= n && (t == 0 || (t - 1) * CardsPerPage < n)
  {
    (n + CardsPerPage - 1) / CardsPerPage
  }

  /** `getCurrentPageCards`: `cards.slice((page - 1) * 3, (page - 1) * 3 + 3)`. */
  function PageCards(cards: seq<Card>, page: int): (r: seq<Card>)
    ensures page >= 1 ==> |r| <= CardsPerPage
    ensures 1 <= page && (page - 1) * CardsPerPage + CardsPerPage <= |cards| ==>
      r == cards[(page - 1) * CardsPerPage..(page - 1) * CardsPerPage + CardsPerPage]
  {
    var start := (page - 1) * CardsPerPage;
    if start >= 0 && start + CardsPerPage <= |cards| then
      JsSliceInRange(cards, start, start + CardsPerPage);
      JsSlice(cards, start, start + CardsPerPage)
    else JsSlice(cards, start, start + CardsPerPage)
  }

  /** Card `k` is shown on page `k / 3 + 1`, at place `k % 3`. */
  lemma EveryCardHasAPage(cards: seq<Card>, k: nat)
    requires k < |cards|
    ensures 1 <= k / CardsPerPage + 1 <= TotalPages(|cards|)
    ensures var p := PageCards(cards, k / CardsPerPage + 1);
      k % CardsPerPage < |p| && p[k % CardsPerPage] == cards[k]
  {
    var start := (k / CardsPerPage) * CardsPerPage;
    assert start + k % CardsPerPage == k;
    var end := if start + CardsPerPage <= |cards| then start + CardsPerPage else |cards|;
    JsSliceInRange(cards, start, end);
    assert JsSlice(cards, start, start + CardsPerPage) == cards[start..end];
  }

  /** `goToPage`: a page outside `1..totalPages` is ignored. */
  function GoToPage(current: int, page: int, count: nat): (r: int)
    ensures 1 <= page <= TotalPages(count) ==> r == page
    ensures !(1 <= page <= TotalPages(count)) ==> r == current
    ensures 1 <= current <= TotalPages(count) ==> 1 <= r <= TotalPages(count)
  {
    if 1 <= page <= TotalPages(count) then page else current
  }

  /** Stepping forward from the last page, or back from the first, stays put. */
  lemma NoStepPastTheEnds(count: nat)
    requires count > 0
    ensures GoToPage(TotalPages(count), TotalPages(count) + 1, count) == TotalPages(count)
    ensures GoToPage(1, 0, count) == 1
  {
  }

  // ---------------------------------------------------------------------------
  // merging new cards

  predicate HasCardId(cards: seq<Card>, id: CardId) {
    exists i :: 0 <= i < |cards| && cards[i].id == id
  }

  /** The test that keeps a card no new card replaces. */
  function Unreplaced(newCards: seq<Card>): Card -> bool {
    (c: Card) => !HasCardId(newCards, c.id)
  }

  /** The earlier cards that no new card replaces. */
  function NotReplaced(prev: seq<Card>, newCards: seq<Card>): (r: seq<Card>)
    ensures forall c :: c in r <==> c in prev && !HasCardId(newCards, c.id)
  {
    Filter(prev, Unreplaced(newCards))
  }

  /** The `newCards` effect: new cards first, then the earlier cards whose id is not among them. */
  function MergeNew(prev: seq<Card>, newCards: seq<Card>): (r: seq<Card>)
    ensures |newCards| == 0 ==> r == prev
    ensures |newCards| > 0 ==> |r| >= |newCards| && r[..|newCards|] == newCards
    ensures |newCards| > 0 ==> forall c :: c in r <==> c in newCards || (c in prev && !HasCardId(newCards, c.id))
  {
    if |newCards| > 0 then
      var r := newCards + NotReplaced(prev, newCards);
      assert r[..|newCards|] == newCards;
      r
    else prev
  }

  /** Receiving the same new cards again changes nothing. */
  lemma MergeNewIdempotent(prev: seq<Card>, newCards: seq<Card>)
    ensures MergeNew(MergeNew(prev, newCards), newCards) == MergeNew(prev, newCards)
  {
    if |newCards| > 0 {
      var keep := Unreplaced(newCards);
      assert forall i :: 0 <= i < |newCards| ==> !keep(newCards[i]) by {
        forall i | 0 <= i < |newCards|
          ensures !keep(newCards[i])
        {
          assert HasCardId(newCards, newCards[i].id);
        }
      }
      var f := Filter(prev, keep);
      assert MergeNew(prev, newCards) == newCards + f;
      FilterNone(newCards, keep);
      FilterConcat(newCards, f, keep);
      FilterIdempotent(prev, keep);
      assert Filter(newCards + f, keep) == f;
      assert MergeNew(newCards + f, newCards) == newCards + Filter(newCards + f, keep);
    }
  }

  // ---------------------------------------------------------------------------
  // deleting a card

  /** The card list shown, the cached user cards, and the events dispatched. */
  datatype Home = Home(cards: seq<Card>, cache: seq<Card>, events: nat)

  /** The outcome of `handleDeleteCard`: the list, the server delete issued (if any), the alert. */
  datatype Deletion = Deletion(home: Home, serverDelete: Option<string>, alert: Option<string>)

  const LoginFirstAlert := "กรุณาเข้าสู่ระบบก่อนลบประกาศ"
  const CardDeletedAlert := "ลบประกาศสำเร็จ"
  const CardDeleteFailedAlert := "เกิดข้อผิดพลาดในการลบประกาศ"

  /** The test that keeps a card with another id. */
  function OtherId(id: CardId): Card -> bool {
    (c: Card) => c.id != id
  }

  function WithoutCard(cards: seq<Card>, id: CardId): (r: seq<Card>)
    ensures !HasCardId(r, id)
    ensures forall c :: c in r <==> c in cards && c.id != id
  {
    var r := Filter(cards, OtherId(id));
    assert forall i :: 0 <= i < |r| ==> r[i] in r;
    r
  }

  /** Only a string id longer than ten characters is a server row. */
  predicate IsServerId(id: CardId) {
    id.StrId? && |id.s| > 10
  }

  /**
    `handleDeleteCard`: refused without a signed-in user; nothing happens
    without confirmation; a cache that cannot be read or written aborts
    with an alert; otherwise every card with the id leaves both the cache
    and the list, the server is asked to delete only a server id, and its
    answer is ignored.
  */
  function DeleteCard(h: Home, id: CardId, signedIn: bool, confirmed: bool, storageOk: bool): (d: Deletion)
    ensures !signedIn ==> d == Deletion(h, None, Some(LoginFirstAlert))
    ensures signedIn && !confirmed ==> d == Deletion(h, None, None)
    ensures signedIn && confirmed && !storageOk ==> d == Deletion(h, None, Some(CardDeleteFailedAlert))
    ensures signedIn && confirmed && storageOk ==>
      && d.home.cache == WithoutCard(h.cache, id) && d.home.cards == WithoutCard(h.cards, id)
      && d.home.events == h.events + 1 && d.alert == Some(CardDeletedAlert)
      && (d.serverDelete.Some? <==> IsServerId(id))
      && (d.serverDelete.Some? ==> d.serverDelete.value == id.s)
  {
    if !signedIn then Deletion(h, None, Some(LoginFirstAlert))
    else if !confirmed then Deletion(h, None, None)
    else if !storageOk then Deletion(h, None, Some(CardDeleteFailedAlert))
    else
      Deletion(Home(WithoutCard(h.cards, id), WithoutCard(h.cache, id), h.events + 1),
               if IsServerId(id) then Some(id.s) else None,
               Some(CardDeletedAlert))
  }

  /** Deleting a card twice leaves the lists as one deletion does. */
  lemma DeleteCardIdempotent(h: Home, id: CardId)
    ensures var once := DeleteCard(h, id, true, true, true).home;
      var twice := DeleteCard(once, id, true, true, true).home;
      twice.cards == once.cards && twice.cache == once.cache
  {
    FilterIdempotent(h.cards, OtherId(id));
    FilterIdempotent(h.cache, OtherId(id));
  }

  /**
    A card the browser built for a listing carries a time-stamp number as
    its id, so deleting it from the home page never deletes the listing on
    the server.
  */
  lemma LocalCardDeletionStaysLocal(h: Home, d: HouseSaleData, now: int, date: string, badges: seq<string>, storageOk: bool)
    ensures DeleteCard(h, ProjectCard(d, now, date, badges).id, true, true, storageOk).serverDelete.None?
  {
  }

  // ---------------------------------------------------------------------------
  // the image index of the detail view

  /** The number of images the detail view cycles through: the URLs, or the one cover image. */
  function ImageCount(c: Card): (n: nat)
    ensures n >= 1
  {
    if |c.imageUrls| > 0 then |c.imageUrls| else 1
  }

  function NextImage(i: int, total: nat): (r: int)
    requires total >= 1
    ensures 0 <= i < total ==> 0 <= r < total
    ensures 0 <= i < total - 1 ==> r == i + 1
  {
    if i == total - 1 then 0 else i + 1
  }

  function PreviousImage(i: int, total: nat): (r: int)
    requires total >= 1
    ensures 0 <= i < total ==> 0 <= r < total
    ensures 0 < i < total ==> r == i - 1
  {
    if i == 0 then total - 1 else i - 1
  }

  /** Forward and back undo each other on every valid index. */
  lemma ImageStepsInverse(i: int, total: nat)
    requires total >= 1 && 0 <= i < total
    ensures PreviousImage(NextImage(i, total), total) == i
    ensures NextImage(PreviousImage(i, total), total) == i
  {
  }

  /** `total` forward steps come back to the start. */
  function NextImageTimes(i: int, total: nat, k: nat): (r: int)
    requires total >= 1
    ensures 0 <= i < total ==> 0 <= r < total
  {
    if k == 0 then i else NextImage(NextImageTimes(i, total, k - 1), total)
  }

  /** Short of the last image, `k` forward steps move `k` images on. */
  lemma {:induction false} ForwardSteps(i: int, total: nat, k: nat)
    requires total >= 1 && 0 <= i && i + k < total
    ensures NextImageTimes(i, total, k) == i + k
  {
    if k > 0 {
      ForwardSteps(i, total, k - 1);
    }
  }

  /** Stepping forward through every image comes back to the first. */
  lemma FullCycle(total: nat)
    requires total >= 1
    ensures NextImageTimes(0, total, total) == 0
  {
    ForwardSteps(0, total, total - 1);
  }

  /**
    The swipe on the detail view: nothing unless both touch positions are
    truthy (a position of 0 counts as missing); a distance beyond 50
    pixels steps forward, below -50 steps back.
  */
  function SwipeImage(i: int, total: nat, start: Option<int>, end: Option<int>): (r: int)
    requires total >= 1
    ensures start.None? || end.None? || start == Some(0) || end == Some(0) ==> r == i
    ensures 0 <= i < total ==> 0 <= r < total
  {
    if start.None? || end.None? || start.value == 0 || end.value == 0 then i
    else
      var distance := start.value - end.value;
      if distance > 50 then NextImage(i, total)
      else if distance < -50 then PreviousImage(i, total)
      else i
  }

  /** A short swipe does not move; a long one moves exactly one image. */
  lemma SwipeSteps(i: int, total: nat, start: int, end: int)
    requires total >= 1 && start != 0 && end != 0
    ensures -50 <= start - end <= 50 ==> SwipeImage(i, total, Some(start), Some(end)) == i
    ensures start - end > 50 ==> SwipeImage(i, total, Some(start), Some(end)) == NextImage(i, total)
    ensures start - end < -50 ==> SwipeImage(i, total, Some(start), Some(end)) == PreviousImage(i, total)
  {
  }
}

=== FILE: api_client.dfy ===
/**
  The browser's client for the listing API (`HouseSalesAPI`): the request
  headers, the query string of the listing search, and how each call turns
  an HTTP response into a resolved value or a rejection with a message.

  `fetch` is not modelled; its outcome is a parameter, `HttpReply`. The
  stored access token is a parameter, and whether the call clears the
  stored tokens is part of the result.
*/
module HouseSalesApi {
  import opened Options
  import opened Json
  import opened Strings
  import opened Seqs

  /** What `fetch` and `response.json()` produced. */
  datatype HttpReply =
    | NetworkFailure(message: string)           // fetch rejected
    | Response(status: int, body: Body)

  datatype Body = Parsed(json: Json) | Unparseable(message: string)

  /** The promise returned by an API call. */
  datatype ApiResult = Resolved(value: Json) | Rejected(message: string)

  /** `response.ok` */
  predicate IsOk(status: int) {
    200 <= status <= 299
  }

  /** The two phrases the sell page recognises an authentication failure by. */
  const SessionMarker := "เซสชันหมดอายุ"
  const TokenMarker := "access token"

  const NoTokenMessage := "ไม่พบ " + TokenMarker + " กรุณาเข้าสู่ระบบใหม่"
  const SessionExpiredMessage := SessionMarker + " กรุณาเข้าสู่ระบบใหม่"

  /** `HTTP error! status: ${status}` */
  function HttpErrorMessage(status: int): (m: string)
    ensures IsPrefix("HTTP error! status: ", m)
  {
    "HTTP error! status: " + IntToString(status)
  }

  /** `String(v)`: how a JSON value becomes an error message. */
  function JsString(v: Json): (s: string)
    decreases v
  {
    match v
    case JNull => "null"
    case JStr(s) => s
    case JNum(n) => IntToString(n)
    case JBool(b) => if b then "true" else "false"
    case JArr(items) =>
      // Array.prototype.join(","): null elements print as "".
      Join(seq(|items|, i requires 0 <= i < |items| => if items[i] == JNull then "" else JsString(items[i])), ',')
    case JObj(_) => "[object Object]"
  }

  // ---------------------------------------------------------------------------
  // Headers

  /** `!token` is false: a non-empty token is stored. */
  predicate HasToken(token: Option<string>) {
    token.Some? && token.value != ""
  }

  /** `getAuthHeaders()` as a list of (name, value) pairs. */
  function AuthHeaders(token: Option<string>): (h: seq<(string, string)>)
    ensures |h| >= 2 && h[..2] == [("Content-Type", "application/json"), ("Accept", "application/json")]
    ensures (exists i :: 0 <= i < |h| && h[i].0 == "Authorization") <==> HasToken(token)
    ensures forall i :: 0 <= i < |h| && h[i].0 == "Authorization" ==> h[i].1 == "Bearer " + token.value
  {
    assert |"Content-Type"| != |"Authorization"| && |"Accept"| != |"Authorization"|;
    var h := [("Content-Type", "application/json"), ("Accept", "application/json")]
      + (if HasToken(token) then [("Authorization", "Bearer " + token.value)] else []);
    assert HasToken(token) ==> h[2].0 == "Authorization";
    h
  }

  // ---------------------------------------------------------------------------
  // createHouseSale

  /** The outcome of `createHouseSale`, with its effects on the browser. */
  datatype CreateCall = CreateCall(result: ApiResult, requestSent: bool, tokensCleared: bool)

  /**
    The `TypeError` a browser raises for `null.message` (this is the wording
    of V8, the engine of Chrome and Node; other engines word it differently).
  */
  const NullBodyMessage := "Cannot read properties of null (reading 'message')"

  /**
    `errorData.message || \`HTTP error! status: ${status}\``. A body that
    parses to `null` makes reading `message` throw, and the call rejects
    with that `TypeError`'s message; any other body without a truthy
    `message` gives the status line.
  */
  function ErrorBodyMessage(status: int, body: Body): (m: string)
    ensures body.Parsed? && body.json.JObj? && TruthyAt(body.json.fields, "message") ==> m == JsString(body.json.fields["message"])
    ensures body.Parsed? && body.json.JNull? ==> m == NullBodyMessage
    ensures !(body.Parsed? && body.json.JObj? && TruthyAt(body.json.fields, "message")) && !(body.Parsed? && body.json.JNull?) ==>
      m == HttpErrorMessage(status)
  {
    if body.Parsed? && body.json.JNull? then NullBodyMessage
    else if body.Parsed? && body.json.JObj? && TruthyAt(body.json.fields, "message") then JsString(body.json.fields["message"])
    else HttpErrorMessage(status)
  }

  /**
    `createHouseSale(data)`: without a token it rejects before any request;
    a 401 clears the stored tokens and rejects as an expired session; any
    other failure rejects with the server's message, or the status line.
  */
  function CreateHouseSale(token: Option<string>, reply: HttpReply): (c: CreateCall)
    ensures !HasToken(token) ==> c == CreateCall(Rejected(NoTokenMessage), false, false)
    ensures HasToken(token) ==> c.requestSent
    ensures c.tokensCleared <==> HasToken(token) && reply.Response? && reply.status == 401
    ensures c.tokensCleared ==> c.result == Rejected(SessionExpiredMessage)
    ensures HasToken(token) && reply.Response? && !IsOk(reply.status) && reply.status != 401 ==>
              c.result == Rejected(ErrorBodyMessage(reply.status, reply.body))
    ensures HasToken(token) && reply.Response? && IsOk(reply.status) ==>
              c.result == if reply.body.Parsed? then Resolved(reply.body.json) else Rejected(reply.body.message)
    ensures HasToken(token) && reply.NetworkFailure? ==> c.result == Rejected(reply.message)
  {
    if !HasToken(token) then CreateCall(Rejected(NoTokenMessage), false, false)
    else
      match reply
      case NetworkFailure(m) => CreateCall(Rejected(m), true, false)
      case Response(status, body) =>
        if !IsOk(status) then
          if status == 401 then CreateCall(Rejected(SessionExpiredMessage), true, true)
          else CreateCall(Rejected(ErrorBodyMessage(status, body)), true, false)
        else
          match body
          case Parsed(j) => CreateCall(Resolved(j), true, false)
          case Unparseable(m) => CreateCall(Rejected(m), true, false)
  }

  // ---------------------------------------------------------------------------
  // The other calls

  /**
    Every other call: a non-OK response rejects with the status line, an
    OK response resolves to the parsed body unchanged.
  */
  function Call(reply: HttpReply): (r: ApiResult)
    ensures reply.Response? && !IsOk(reply.status) ==> r == Rejected(HttpErrorMessage(reply.status))
    ensures reply.Response? && IsOk(reply.status) && reply.body.Parsed? ==> r == Resolved(reply.body.json)
    ensures reply.Response? && IsOk(reply.status) && reply.body.Unparseable? ==> r == Rejected(reply.body.message)
    ensures reply.NetworkFailure? ==> r == Rejected(reply.message)
  {
    match reply
    case NetworkFailure(m) => Rejected(m)
    case Response(status, body) =>
      if !IsOk(status) then Rejected(HttpErrorMessage(status))
      else if body.Parsed? then Resolved(body.json) else Rejected(body.message)
  }

  // ---------------------------------------------------------------------------
  // getHouseSales query string

  /**
    One `Object.entries(filters)` entry: `None` is `undefined`, `Some(JNull)`
    is `null`.
  */
  type Entry = (string, Option<Json>)

  predicate Defined(e: Entry) {
    e.1.Some? && e.1.value != JNull
  }

  /** The entries whose value is neither `undefined` nor `null`, in order. */
  function DefinedEntries(entries: seq<Entry>): (d: seq<Entry>)
    ensures forall e :: e in d <==> e in entries && Defined(e)
    ensures forall i :: 0 <= i < |d| ==> Defined(d[i])
    ensures |d| <= |entries|
  {
    var d := Filter(entries, Defined);
    assert forall i :: 0 <= i < |d| ==> d[i] in d;
    d
  }

  /** The `key=value` pairs appended to the `URLSearchParams`, in order. */
  function QueryParams(entries: seq<Entry>): (ps: seq<(string, string)>)
    ensures var d := DefinedEntries(entries);
            && |ps| == |d|
            && forall i :: 0 <= i < |ps| ==> ps[i] == (d[i].0, JsString(d[i].1.value))
  {
    var d := DefinedEntries(entries);
    seq(|d|, i requires 0 <= i < |d| => (d[i].0, JsString(d[i].1.value)))
  }

  /** There are no pairs exactly when no entry is defined. */
  lemma NoParamsIffNoneDefined(entries: seq<Entry>)
    ensures |QueryParams(entries)| == 0 <==> forall i :: 0 <= i < |entries| ==> !Defined(entries[i])
  {
    var d := DefinedEntries(entries);
    if |d| == 0 {
      forall i | 0 <= i < |entries|
        ensures !Defined(entries[i])
      {
        assert entries[i] in entries;
      }
    } else {
      assert d[0] in d;
    }
  }

  /**
    `queryParams.toString()`: the pairs joined by "&", each written
    `encode(key)=encode(value)`; `encode` is the form-urlencoding.
  */
  function QueryString(ps: seq<(string, string)>, encode: string -> string): (q: string)
    ensures |ps| == 0 <==> q == ""
  {
    if |ps| == 0 then ""
    else
      var first := encode(ps[0].0) + "=" + encode(ps[0].1);
      assert first[|encode(ps[0].0)|] == '=';
      if |ps| == 1 then first else first + "&" + QueryString(ps[1..], encode)
  }

  /** The URL of `getHouseSales(filters)`: a "?" only when some filter is defined. */
  function ListingsUrl(base: string, entries: seq<Entry>, encode: string -> string): (url: string)
    ensures |QueryParams(entries)| > 0 ==> url == base + "/house-sales?" + QueryString(QueryParams(entries), encode)
    ensures |QueryParams(entries)| == 0 ==> url == base + "/house-sales"
  {
    var q := QueryString(QueryParams(entries), encode);
    base + "/house-sales" + (if q != "" then "?" + q else "")
  }

  /** The "?" appears exactly when some filter entry is defined. */
  lemma ListingsUrlQuestionMark(base: string, entries: seq<Entry>, encode: string -> string)
    ensures var url := ListingsUrl(base, entries, encode);
            (exists i :: 0 <= i < |entries| && Defined(entries[i])) ==>
              url == base + "/house-sales?" + QueryString(QueryParams(entries), encode)
    ensures (forall i :: 0 <= i < |entries| ==> !Defined(entries[i])) ==> ListingsUrl(base, entries, encode) == base + "/house-sales"
  {
    NoParamsIffNoneDefined(entries);
  }

  // ---------------------------------------------------------------------------
  // The session markers the sell page looks for

  /** `message.includes('เซสชันหมดอายุ') || message.includes('access token')` */
  predicate IsSessionProblem(message: string) {
    Contains(message, SessionMarker) || Contains(message, TokenMarker)
  }

  /** Both authentication failures of `createHouseSale` carry a session marker. */
  lemma AuthFailuresAreSessionProblems()
    ensures IsSessionProblem(NoTokenMessage)
    ensures IsSessionProblem(SessionExpiredMessage)
  {
    assert OccursAt(TokenMarker, TokenMarker, 0);
    ContainsInConcat("ไม่พบ ", TokenMarker, " กรุณาเข้าสู่ระบบใหม่", TokenMarker);
    assert OccursAt(SessionMarker, SessionMarker, 0);
    assert SessionExpiredMessage == "" + SessionMarker + " กรุณาเข้าสู่ระบบใหม่";
    ContainsInConcat("", SessionMarker, " กรุณาเข้าสู่ระบบใหม่", SessionMarker);
  }

  /** A status-line message carries no session marker. */
  lemma HttpErrorIsNoSessionProblem(status: int)
    ensures !IsSessionProblem(HttpErrorMessage(status))
  {
    var m := HttpErrorMessage(status);
    var prefix := "HTTP error! status: ";
    var tail := IntToString(status);
    assert m == prefix + tail;
    assert forall i :: 0 <= i < |tail| ==> IsDigit(tail[i]) || tail[i] == '-' by {
      if status < 0 {
        assert tail == "-" + NatToString(-status);
      }
    }
    assert forall j :: |prefix| <= j < |m| ==> m[j] == tail[j - |prefix|];
    assert forall j :: 0 <= j < |prefix| ==> m[j] == prefix[j];
    FirstCharAbsent(m, SessionMarker);
    SecondCharMismatch(m, TokenMarker);
  }

  lemma FirstCharAbsent(s: string, sub: string)
    requires |sub| > 0 && forall i :: 0 <= i < |s| ==> s[i] != sub[0]
    ensures !Contains(s, sub)
  {
    forall i | 0 <= i <= |s|
      ensures !OccursAt(s, sub, i)
    {
      if i + |sub| <= |s| {
        assert s[i..i + |sub|][0] == s[i];
      }
    }
  }

  lemma SecondCharMismatch(s: string, sub: string)
    requires |sub| > 1
    requires forall i :: 0 <= i < |s| && s[i] == sub[0] ==> i + 1 < |s| && s[i + 1] != sub[1]
    ensures !Contains(s, sub)
  {
    forall i | 0 <= i <= |s|
      ensures !OccursAt(s, sub, i)
    {
      if i + |sub| <= |s| {
        assert s[i..i + |sub|][0] == s[i];
        assert s[i..i + |sub|][1] == s[i + 1];
      }
    }
  }
}

=== FILE: cards.dfy ===
/**
  The listing data the browser handles (`HouseSaleData`), the card the home
  page shows (`CardData`), the projection of one into the other that the
  sell page and the saved-listings page share, and the JSON body sent to
  the server.

  The card list cached in `localStorage` under `userHouseCards` is a
  `seq<Card>`; `rating` (a float constant 5.0) and the ISO date string are
  not part of the model's card beyond the `date` text passed in.
*/
module Cards {
  import opened Options
  import opened Json

  /** A card id: `Date.now()` for locally built cards, a string for server rows. */
  datatype CardId = NumId(n: int) | StrId(s: string)

  datatype Stats = Stats(views: int, likes: int)

  datatype Card = Card(
    id: CardId,
    title: string,
    description: string,
    image: string,
    badges: seq<string>,
    stats: Stats,
    date: string,
    category: string,
    price: string,
    location: string,
    bedrooms: int,
    bathrooms: int,
    floors: int,
    parkingSpaces: int,
    usableArea: string,
    landArea: string,
    fullText: string,
    imageUrls: seq<string>)

  /**
    `HouseSaleData` as the browser holds it. `None` is an absent property;
    the properties the cards and the server checks do not read are kept
    untyped in `others`.
  */
  datatype HouseSaleData = HouseSaleData(
    id: Option<string>,
    status: Option<string>,
    title: string,
    description: Option<string>,
    price: string,
    location: string,
    houseType: string,
    bedrooms: int,
    bathrooms: int,
    floors: Option<int>,
    parkingSpaces: Option<int>,
    usableArea: Option<string>,
    landArea: Option<string>,
    sellerName: string,
    sellerPhone: string,
    images: Option<seq<string>>,
    badges: Option<seq<string>>,
    others: map<string, Json>)

  const PlaceholderImage := "https://images.unsplash.com/photo-1564013799919-ab600027ffc6?w=800&h=600&fit=crop"
  const DefaultDescription := "บ้านคุณภาพดี พร้อมอยู่"
  const Unspecified := "ไม่ระบุ"
  const SquareMetres := " ตร.ม."
  const SquareWah := " ตร.ว."

  /** A present, non-empty string (`x` is truthy). */
  predicate Filled(x: Option<string>) {
    x.Some? && x.value != ""
  }

  /** `data.images?.[0] || placeholder` */
  function FirstImageOr(images: Option<seq<string>>, fallback: string): (r: string)
    ensures images.Some? && |images.value| > 0 && images.value[0] != "" ==> r == images.value[0]
    ensures !(images.Some? && |images.value| > 0 && images.value[0] != "") ==> r == fallback
  {
    if images.Some? && |images.value| > 0 && images.value[0] != "" then images.value[0] else fallback
  }

  /**
    The card built from listing data: the id is the current time, the
    statistics start at zero, and every optional property falls back to its
    default (`defaultBadges` differs between the two pages that build cards).
    An array is truthy even when empty, so present badges or images are
    taken as they are.
  */
  function ProjectCard(d: HouseSaleData, now: int, date: string, defaultBadges: seq<string>): (c: Card)
    ensures c.id == NumId(now) && c.stats == Stats(0, 0) && c.date == date
    ensures c.title == d.title && c.category == d.houseType && c.price == d.price && c.location == d.location
    ensures c.bedrooms == d.bedrooms && c.bathrooms == d.bathrooms
    ensures c.description == if Filled(d.description) then d.description.value else DefaultDescription
    ensures c.fullText == if Filled(d.description) then d.description.value else ""
    ensures c.image == FirstImageOr(d.images, PlaceholderImage)
    ensures c.badges == if d.badges.Some? then d.badges.value else defaultBadges
    ensures c.imageUrls == if d.images.Some? then d.images.value else []
    ensures d.floors.Some? && d.floors.value != 0 ==> c.floors == d.floors.value
    ensures d.floors.None? || d.floors == Some(0) ==> c.floors == 1
    ensures c.parkingSpaces == if d.parkingSpaces.Some? then d.parkingSpaces.value else 0
    ensures c.usableArea == if Filled(d.usableArea) then d.usableArea.value + SquareMetres else Unspecified
    ensures c.landArea == if Filled(d.landArea) then d.landArea.value + SquareWah else Unspecified
  {
    Card(
      NumId(now),
      d.title,
      if Filled(d.description) then d.description.value else DefaultDescription,
      FirstImageOr(d.images, PlaceholderImage),
      if d.badges.Some? then d.badges.value else defaultBadges,
      Stats(0, 0),
      date,
      d.houseType,
      d.price,
      d.location,
      d.bedrooms,
      d.bathrooms,
      if d.floors.Some? && d.floors.value != 0 then d.floors.value else 1,
      if d.parkingSpaces.Some? && d.parkingSpaces.value != 0 then d.parkingSpaces.value else 0,
      if Filled(d.usableArea) then d.usableArea.value + SquareMetres else Unspecified,
      if Filled(d.landArea) then d.landArea.value + SquareWah else Unspecified,
      if Filled(d.description) then d.description.value else "",
      if d.images.Some? then d.images.value else [])
  }

  /** A card never shows an empty area: it carries a unit or says "not specified". */
  lemma CardAreasNeverEmpty(d: HouseSaleData, now: int, date: string, defaultBadges: seq<string>)
    ensures ProjectCard(d, now, date, defaultBadges).usableArea != ""
    ensures ProjectCard(d, now, date, defaultBadges).landArea != ""
    ensures ProjectCard(d, now, date, defaultBadges).image != ""
  {
  }

  const RequiredKeys := {"title", "price", "location", "houseType", "bedrooms", "bathrooms", "sellerName", "sellerPhone"}

  /** Put a property into a body only when it is present. */
  function WithOptional<T>(body: map<string, Json>, key: string, x: Option<T>, conv: T -> Json): (r: map<string, Json>)
    ensures x.Some? ==> r == body[key := conv(x.value)]
    ensures x.None? ==> r == body
  {
    if x.Some? then body[key := conv(x.value)] else body
  }

  function Str(s: string): Json { JStr(s) }
  function Num(n: int): Json { JNum(n) }
  function Strs(xs: seq<string>): Json { StringArray(xs) }

  /** The optional properties of the data that are present. */
  function PresentOptionals(d: HouseSaleData): (m: map<string, Json>)
    ensures "status" in m <==> d.status.Some?
    ensures d.status.Some? ==> m["status"] == JStr(d.status.value)
    ensures "floors" in m <==> d.floors.Some?
    ensures d.floors.Some? ==> m["floors"] == JNum(d.floors.value)
  {
    var b := WithOptional(map[], "id", d.id, Str);
    var b := WithOptional(b, "description", d.description, Str);
    var b := WithOptional(b, "parkingSpaces", d.parkingSpaces, Num);
    var b := WithOptional(b, "usableArea", d.usableArea, Str);
    var b := WithOptional(b, "landArea", d.landArea, Str);
    var b := WithOptional(b, "images", d.images, Strs);
    var b := WithOptional(b, "badges", d.badges, Strs);
    var b := WithOptional(b, "floors", d.floors, Num);
    WithOptional(b, "status", d.status, Str)
  }

  /**
    `JSON.stringify(data)` as the server reads it: every present property,
    absent ones left out.
  */
  function ToWire(d: HouseSaleData): (body: map<string, Json>)
    ensures RequiredKeys <= body.Keys
    ensures body["title"] == JStr(d.title) && body["price"] == JStr(d.price) && body["location"] == JStr(d.location)
    ensures body["houseType"] == JStr(d.houseType) && body["sellerName"] == JStr(d.sellerName) && body["sellerPhone"] == JStr(d.sellerPhone)
    ensures body["bedrooms"] == JNum(d.bedrooms) && body["bathrooms"] == JNum(d.bathrooms)
    ensures "status" in body <==> d.status.Some? || "status" in d.others
    ensures d.status.Some? ==> body["status"] == JStr(d.status.value)
    ensures "floors" in body <==> d.floors.Some? || "floors" in d.others
    ensures d.floors.Some? ==> body["floors"] == JNum(d.floors.value)
  {
    d.others + PresentOptionals(d) + map[
      "title" := JStr(d.title), "price" := JStr(d.price), "location" := JStr(d.location),
      "houseType" := JStr(d.houseType), "bedrooms" := JNum(d.bedrooms), "bathrooms" := JNum(d.bathrooms),
      "sellerName" := JStr(d.sellerName), "sellerPhone" := JStr(d.sellerPhone)]
  }
}

=== FILE: contact_pages.dfy ===
/**
  The two enquiry pages (`/contact` and `/public-contact`): a form of
  plain string fields, a check that a name and a phone number were given,
  and a submission that puts a new enquiry of status "new" at the head of
  the browser's `customerContacts` list and empties the form.

  The public page also asks for a province and a district: picking a
  province clears the district, and the district list is that province's
  districts from a data table, which is a parameter here. The clock
  (`Date.now()` and its ISO rendering) is a parameter too.
*/
module ContactPages {
  import opened Options
  import opened Strings
  import opened Seqs
  import opened CustomerContacts

  /** Which of the two pages: the public one has the province and district fields. */
  datatype Variant = General | Public

  /** The `formData` object: field name to the text typed into it. */
  type Form = map<string, string>

  const NameField := "name"
  const PhoneField := "phone"
  const ProvinceField := "province"
  const DistrictField := "district"
  const ContactMethodField := "contactMethod"

  /** The alert shown when the name or the phone number is missing. */
  const MissingNameOrPhone := "กรุณากรอกชื่อและเบอร์โทรศัพท์"
  /** The window event that tells an open dashboard to reload. */
  const ContactAddedEvent := "customerContactAdded"

  /** The fields of a page's form, in declaration order. */
  function FieldNames(v: Variant): (names: seq<string>)
    ensures NameField in names && PhoneField in names && ContactMethodField in names
    ensures ProvinceField in names <==> v.Public?
    ensures DistrictField in names <==> v.Public?
  {
    var common := [NameField, PhoneField, "email", "propertyType", "budget"];
    var rest := ["message", ContactMethodField, "lineId", "preferredPhone"];
    match v
    case General => common + rest
    case Public => common + [ProvinceField, DistrictField] + rest
  }

  /** The empty form: every field blank except the contact method, which is "phone". */
  function DefaultForm(v: Variant): (f: Form)
    ensures forall k :: k in f <==> k in FieldNames(v)
    ensures f[ContactMethodField] == "phone"
    ensures forall k :: k in f && k != ContactMethodField ==> f[k] == ""
  {
    map k | k in FieldNames(v) :: if k == ContactMethodField then "phone" else ""
  }

  // ---------------------------------------------------------------------------
  // handleInputChange

  /**
    Typing `value` into the field `name`: that field takes the value, and
    on the public page a new province clears the district; every other
    field keeps its text.
  */
  function InputChange(v: Variant, form: Form, name: string, value: string): (r: Form)
    ensures r.Keys == form.Keys + {name} + (if v.Public? && name == ProvinceField then {DistrictField} else {})
    ensures r[name] == value
    ensures v.Public? && name == ProvinceField ==> r[DistrictField] == ""
    ensures forall k :: k in form && k != name && !(v.Public? && name == ProvinceField && k == DistrictField) ==> r[k] == form[k]
  {
    var typed := form[name := value];
    if v.Public? && name == ProvinceField then typed[DistrictField := ""] else typed
  }

  /** On the general page no field but the one typed into ever changes. */
  lemma GeneralInputTouchesOneField(form: Form, name: string, value: string)
    ensures var r := InputChange(General, form, name, value);
      forall k :: k in form && k != name ==> k in r && r[k] == form[k]
  {
  }

  /**
    On the public page, choosing a district and then a province leaves no
    district chosen; choosing the province first keeps the district.
  */
  lemma ProvinceBeforeDistrict(form: Form, province: string, district: string)
    ensures InputChange(Public, InputChange(Public, form, DistrictField, district), ProvinceField, province)[DistrictField] == ""
    ensures InputChange(Public, InputChange(Public, form, ProvinceField, province), DistrictField, district)[DistrictField] == district
    ensures InputChange(Public, InputChange(Public, form, ProvinceField, province), DistrictField, district)[ProvinceField] == province
  {
  }

  // ---------------------------------------------------------------------------
  // availableDistricts

  /** A row of the province table: the province's name and its districts. */
  datatype Province = Province(name: string, districts: seq<string>)

  /** `provinces.find(p => p.name === name)`, as the index of the first match. */
  function FindProvince(provinces: seq<Province>, name: string): (r: Option<nat>)
    ensures r.Some? ==> r.value < |provinces| && provinces[r.value].name == name
    ensures r.Some? ==> forall j :: 0 <= j < r.value ==> provinces[j].name != name
    ensures r.None? <==> forall j :: 0 <= j < |provinces| ==> provinces[j].name != name
  {
    if |provinces| == 0 then None
    else if provinces[0].name == name then Some(0)
    else match FindProvince(provinces[1..], name)
      case None => None
      case Some(i) => Some(i + 1)
  }

  /**
    The districts offered for the chosen province: none while no province
    is chosen or when the table has no province of that name, otherwise
    the districts of the first province of that name.
  */
  function AvailableDistricts(provinces: seq<Province>, form: Form): (r: seq<string>)
    ensures !Filled(form, ProvinceField) ==> r == []
    ensures Filled(form, ProvinceField) && FindProvince(provinces, form[ProvinceField]).Some? ==>
      r == provinces[FindProvince(provinces, form[ProvinceField]).value].districts
    ensures ProvinceField in form && (forall j :: 0 <= j < |provinces| ==> provinces[j].name != form[ProvinceField]) ==> r == []
  {
    if ProvinceField !in form || form[ProvinceField] == "" then []
    else match FindProvince(provinces, form[ProvinceField])
      case None => []
      case Some(i) => provinces[i].districts
  }

  /** A district list offered for a province is the list of a row with that name. */
  lemma OfferedDistrictsBelongToProvince(provinces: seq<Province>, form: Form)
    requires AvailableDistricts(provinces, form) != []
    ensures ProvinceField in form && form[ProvinceField] != ""
    ensures exists j :: (0 <= j < |provinces| && provinces[j].name == form[ProvinceField]
      && provinces[j].districts == AvailableDistricts(provinces, form))
  {
    var i := FindProvince(provinces, form[ProvinceField]).value;
    assert provinces[i].name == form[ProvinceField];
  }

  // ---------------------------------------------------------------------------
  // handleSubmit

  /**
    The page: the form, whether the thank-you screen shows, the stored
    contact list, the events dispatched and the alerts shown.
  */
  datatype Page = Page(form: Form, submitted: bool, stored: seq<Contact>, events: seq<string>, alerts: seq<string>)

  /** A field counts as filled when it holds a non-empty string (`!formData.name` is false). */
  predicate Filled(form: Form, field: string) {
    field in form && form[field] != ""
  }

  predicate CanSubmit(form: Form) {
    Filled(form, NameField) && Filled(form, PhoneField)
  }

  /** The record stored for a submission at `now` milliseconds, stamped `iso`. */
  function NewContact(form: Form, now: nat, iso: string): (c: Contact)
    ensures c.status == New && c.fields == form && c.timestamp == iso
    ensures c.id == NatToString(now)
  {
    Contact(NatToString(now), form, iso, New)
  }

  /**
    `handleSubmit`: without a name or a phone number the page only shows
    the alert. Otherwise the new contact goes in front of the stored
    list, the dashboard is told, the thank-you screen shows and the form
    is emptied.
  */
  function Submit(v: Variant, p: Page, now: nat, iso: string): (r: Page)
    ensures !CanSubmit(p.form) ==> r == p.(alerts := p.alerts + [MissingNameOrPhone])
    ensures CanSubmit(p.form) ==> r.stored == [NewContact(p.form, now, iso)] + p.stored
    ensures CanSubmit(p.form) ==> r.form == DefaultForm(v) && r.submitted
    ensures CanSubmit(p.form) ==> r.events == p.events + [ContactAddedEvent] && r.alerts == p.alerts
  {
    if !CanSubmit(p.form) then p.(alerts := p.alerts + [MissingNameOrPhone])
    else
      Page(DefaultForm(v), true, [NewContact(p.form, now, iso)] + p.stored, p.events + [ContactAddedEvent], p.alerts)
  }

  /** The emptied form cannot be sent again: a second press only shows the alert. */
  lemma ResubmitOnlyAlerts(v: Variant, p: Page, now: nat, iso: string, later: nat, iso2: string)
    requires CanSubmit(p.form)
    ensures var once := Submit(v, p, now, iso);
      Submit(v, once, later, iso2) == once.(alerts := once.alerts + [MissingNameOrPhone])
  {
    assert !Filled(DefaultForm(v), NameField);
  }

  /**
    A sent enquiry is what the dashboard shows first under "new" after it
    reloads, and it raises the total and the "new" count by one while the
    other counts stay.
  */
  lemma SubmissionReachesDashboard(v: Variant, p: Page, now: nat, iso: string, d: Dashboard)
    requires CanSubmit(p.form)
    ensures var r := Submit(v, p, now, iso);
      var shown := Load(d.(stored := r.stored)).contacts;
      && Visible(shown, Only(New)) == [NewContact(p.form, now, iso)] + Visible(p.stored, Only(New))
      && StatsOf(shown).total == StatsOf(p.stored).total + 1
      && StatsOf(shown).newCount == StatsOf(p.stored).newCount + 1
      && StatsOf(shown).contacted == StatsOf(p.stored).contacted
      && StatsOf(shown).closed == StatsOf(p.stored).closed
  {
    var c := NewContact(p.form, now, iso);
    var shown := [c] + p.stored;
    FilterConcat([c], p.stored, Shows(Only(New)));
    assert shown[1..] == p.stored;
    assert Count(shown, HasStatus(Contacted)) == Count(p.stored, HasStatus(Contacted));
    assert Count(shown, HasStatus(Closed)) == Count(p.stored, HasStatus(Closed));
  }
}

=== FILE: customer_contacts.dfy ===
/**
  The customer-contact dashboard (`CustomerContacts`): the enquiries the
  contact pages leave in the browser's `customerContacts` list, shown with
  a status filter and counts, and moved through the statuses new,
  contacted and closed by one button per card.

  The list in `localStorage` is a `seq<Contact>`; every change rewrites it
  whole from the dashboard's state. The user's answer to `confirm` is a
  parameter.
*/
module CustomerContacts {
  import opened Options
  import opened Seqs

  /** One stored enquiry: its id, the form's fields, the time stamp and the status. */
  datatype Contact = Contact(id: string, fields: map<string, string>, timestamp: string, status: string)

  const New := "new"
  const Contacted := "contacted"
  const Closed := "closed"

  /** The dashboard's list and the list in storage. */
  datatype Dashboard = Dashboard(contacts: seq<Contact>, stored: seq<Contact>)

  /** `loadContacts`: the list is read back from storage. */
  function Load(d: Dashboard): (r: Dashboard)
    ensures r.contacts == d.stored && r.stored == d.stored
  {
    d.(contacts := d.stored)
  }

  // ---------------------------------------------------------------------------
  // updateContactStatus

  function WithStatus(c: Contact, id: string, status: string): Contact {
    if c.id == id then c.(status := status) else c
  }

  /**
    `updateContactStatus(id, status)`: the contacts with that id get the
    new status, every other contact stays, and storage holds the result.
  */
  function UpdateContactStatus(d: Dashboard, id: string, status: string): (r: Dashboard)
    ensures r.stored == r.contacts && |r.contacts| == |d.contacts|
    ensures forall i :: 0 <= i < |d.contacts| && d.contacts[i].id == id ==> r.contacts[i].status == status
    ensures forall i :: 0 <= i < |d.contacts| ==> r.contacts[i].(status := d.contacts[i].status) == d.contacts[i]
    ensures forall i :: 0 <= i < |d.contacts| && d.contacts[i].id != id ==> r.contacts[i] == d.contacts[i]
  {
    var cs := seq(|d.contacts|, i requires 0 <= i < |d.contacts| => WithStatus(d.contacts[i], id, status));
    Dashboard(cs, cs)
  }

  /** Setting the same status twice is setting it once. */
  lemma UpdateContactStatusIdempotent(d: Dashboard, id: string, status: string)
    ensures UpdateContactStatus(UpdateContactStatus(d, id, status), id, status) == UpdateContactStatus(d, id, status)
  {
  }

  /** What the dashboard writes is what it reads back on the next load. */
  lemma UpdateSurvivesReload(d: Dashboard, id: string, status: string)
    ensures Load(UpdateContactStatus(d, id, status)) == UpdateContactStatus(d, id, status)
  {
  }

  // ---------------------------------------------------------------------------
  // deleteContact

  function OtherContact(id: string): Contact -> bool {
    (c: Contact) => c.id != id
  }

  function HasContactId(id: string): Contact -> bool {
    (c: Contact) => c.id == id
  }

  /**
    `deleteContact(id)`: after confirmation exactly the contacts with that
    id leave the list, which is stored; without it nothing changes.
  */
  function DeleteContact(d: Dashboard, id: string, confirmed: bool): (r: Dashboard)
    ensures !confirmed ==> r == d
    ensures confirmed ==> r.stored == r.contacts
    ensures confirmed ==> forall c :: c in r.contacts <==> c in d.contacts && c.id != id
    ensures confirmed ==> r.contacts == Filter(d.contacts, OtherContact(id))
    ensures confirmed ==> |r.contacts| == |d.contacts| - Count(d.contacts, HasContactId(id))
  {
    if !confirmed then d
    else
      var cs := Filter(d.contacts, OtherContact(id));
      CountIsFilterLength(d.contacts, OtherContact(id));
      CountComplement(d.contacts, HasContactId(id), OtherContact(id));
      Dashboard(cs, cs)
  }

  /** A test and its negation count every element once. */
  lemma {:induction false} CountComplement<T>(s: seq<T>, p: T -> bool, q: T -> bool)
    requires forall x :: q(x) == !p(x)
    ensures Count(s, p) + Count(s, q) == |s|
  {
    if |s| > 0 {
      CountComplement(s[1..], p, q);
    }
  }

  // ---------------------------------------------------------------------------
  // The filter and the counts

  datatype StatusFilter = All | Only(status: string)

  function Shows(f: StatusFilter): Contact -> bool {
    (c: Contact) => f.All? || c.status == f.status
  }

  /** `filteredContacts`: everything for "all", otherwise the contacts of that status, in order. */
  function Visible(contacts: seq<Contact>, f: StatusFilter): (r: seq<Contact>)
    ensures f.All? ==> r == contacts
    ensures f.Only? ==> forall c :: c in r <==> c in contacts && c.status == f.status
    ensures f.Only? ==> |r| == Count(contacts, HasStatus(f.status))
    ensures f.Only? ==> r == Filter(contacts, HasStatus(f.status))
  {
    if f.All? then
      FilterAll(contacts, Shows(f));
      Filter(contacts, Shows(f))
    else
      CountIsFilterLength(contacts, HasStatus(f.status));
      FilterExtensional(contacts, Shows(f), HasStatus(f.status));
      Filter(contacts, Shows(f))
  }

  function HasStatus(status: string): Contact -> bool {
    (c: Contact) => c.status == status
  }

  datatype Stats = Stats(total: nat, newCount: nat, contacted: nat, closed: nat)

  /** `stats`: the list's length and how many contacts are in each status. */
  function StatsOf(contacts: seq<Contact>): (s: Stats)
    ensures s.total == |contacts|
    ensures s.newCount == |Visible(contacts, Only(New))|
    ensures s.contacted == |Visible(contacts, Only(Contacted))|
    ensures s.closed == |Visible(contacts, Only(Closed))|
  {
    Stats(|contacts|, Count(contacts, HasStatus(New)), Count(contacts, HasStatus(Contacted)), Count(contacts, HasStatus(Closed)))
  }

  predicate KnownStatus(s: string) {
    s == New || s == Contacted || s == Closed
  }

  /** When every status is one of the three, the three counts add up to the total. */
  lemma StatsAddUp(contacts: seq<Contact>)
    requires forall i :: 0 <= i < |contacts| ==> KnownStatus(contacts[i].status)
    ensures var s := StatsOf(contacts); s.newCount + s.contacted + s.closed == s.total
  {
    CountPartition(contacts, HasStatus(New), HasStatus(Contacted), HasStatus(Closed));
  }

  // ---------------------------------------------------------------------------
  // The action buttons

  /** The status the card's button moves a contact to; a contact of any other status has no button. */
  function NextStatus(s: string): (r: Option<string>)
    ensures r.Some? <==> KnownStatus(s)
    ensures r.Some? ==> KnownStatus(r.value) && r.value != s
    ensures s == "new" ==> r == Some("contacted")
    ensures s == "contacted" ==> r == Some("closed")
    ensures s == "closed" ==> r == Some("new")
  {
    if s == New then Some(Contacted)
    else if s == Contacted then Some(Closed)
    else if s == Closed then Some(New)
    else None
  }

  /** Pressing a contact's button: its status moves one place round the cycle. */
  function PressButton(d: Dashboard, c: Contact): (r: Dashboard)
    ensures NextStatus(c.status).None? ==> r == d
    ensures NextStatus(c.status).Some? ==> r == UpdateContactStatus(d, c.id, NextStatus(c.status).value)
  {
    match NextStatus(c.status)
    case None => d
    case Some(s) => UpdateContactStatus(d, c.id, s)
  }

  /** Three presses take a contact round the cycle new, contacted, closed and back. */
  lemma ButtonsCycle(s: string)
    requires KnownStatus(s)
    ensures NextStatus(NextStatus(NextStatus(s).value).value).value == s
  {
  }

  /**
    Moving a contact of a unique id out of "new" into "contacted" moves
    one count from one status to the other; the total stays.
  */
  lemma {:induction false} MarkContactedMovesOneCount(contacts: seq<Contact>, i: nat)
    requires i < |contacts| && contacts[i].status == New
    requires forall j :: 0 <= j < |contacts| && j != i ==> contacts[j].id != contacts[i].id
    ensures var after := UpdateContactStatus(Dashboard(contacts, contacts), contacts[i].id, Contacted).contacts;
      && StatsOf(after).total == StatsOf(contacts).total
      && StatsOf(after).newCount + 1 == StatsOf(contacts).newCount
      && StatsOf(after).contacted == StatsOf(contacts).contacted + 1
      && StatsOf(after).closed == StatsOf(contacts).closed
  {
    var after := UpdateContactStatus(Dashboard(contacts, contacts), contacts[i].id, Contacted).contacts;
    assert after == contacts[i := contacts[i].(status := Contacted)];
    CountUpdate(contacts, i, contacts[i].(status := Contacted), HasStatus(New));
    CountUpdate(contacts, i, contacts[i].(status := Contacted), HasStatus(Contacted));
    CountUpdate(contacts, i, contacts[i].(status := Contacted), HasStatus(Closed));
  }

  /** Replacing one element changes a count by what the two elements contribute. */
  lemma {:induction false} CountUpdate<T>(s: seq<T>, i: nat, x: T, p: T -> bool)
    requires i < |s|
    ensures Count(s[i := x], p) + (if p(s[i]) then 1 else 0) == Count(s, p) + (if p(x) then 1 else 0)
  {
    if i > 0 {
      assert s[i := x][1..] == s[1..][i - 1 := x];
      CountUpdate(s[1..], i - 1, x, p);
    } else {
      assert s[i := x][1..] == s[1..];
    }
  }
}

=== FILE: house_sale_dto.dfy ===
/**
  The request-body validation of a house-sale listing: the class-validator
  decorators on `CreateHouseSaleDto`, and `UpdateHouseSaleDto`, its
  `PartialType`, in which every property becomes optional.

  A body is a JSON object. `@IsOptional()` skips every other check of a
  property whose value is `null` or `undefined` (absent); a property
  without it must be present and pass its checks. Properties that the class
  does not declare are not looked at. Email syntax is the validator
  library's own business and is a parameter, `isEmail`.
*/
module HouseSaleDto {
  import opened Json

  /** The check a property's decorators impose on a present value. */
  datatype Check =
    | IsString
    | IsBoolean
    | IsNumberIn(min: int, max: int)   // @IsNumber() @Min(min) @Max(max)
    | IsEmail
    | IsStringArray                     // @IsArray() @IsString({ each: true })

  /** `@IsString()` properties without `@IsOptional()`. */
  const RequiredStrings: set<string> :=
    {"title", "price", "location", "houseType", "sellerName", "sellerPhone"}

  /** `@IsOptional() @IsString()` properties. */
  const OptionalStrings: set<string> :=
    {"description", "downPayment", "province", "district", "subDistrict", "postalCode",
     "usableArea", "landArea", "titleDeedNumber", "ownership", "legalIssuesDetail",
     "sellerType", "saleReason", "status"}

  /** `@IsOptional() @IsBoolean()` properties. */
  const Booleans: set<string> :=
    {"negotiable", "installmentAvailable", "titleDeed", "legalIssues", "hasSwimmingPool",
     "hasGarden", "hasSecurity", "hasElevator", "hasAirConditioner", "hasBuiltInFurniture",
     "urgentSale"}

  predicate Passes(v: Json, check: Check, isEmail: string -> bool) {
    match check
    case IsString => v.JStr?
    case IsBoolean => v.JBool?
    case IsNumberIn(lo, hi) => v.JNum? && lo <= v.n <= hi
    case IsEmail => v.JStr? && isEmail(v.s)
    case IsStringArray => v.JArr? && forall i :: 0 <= i < |v.items| ==> v.items[i].JStr?
  }

  /** One property against its check; an optional property may be null or absent. */
  predicate Holds(body: map<string, Json>, field: string, check: Check, isEmail: string -> bool, optional: bool) {
    if Present(body, field) then Passes(body[field], check, isEmail)
    else optional
  }

  /**
    The body passes every decorator of the class; with `partial` every
    property is optional, as in `PartialType(CreateHouseSaleDto)`.
  */
  predicate Valid(body: map<string, Json>, isEmail: string -> bool, partial: bool) {
    && (forall f | f in RequiredStrings :: Holds(body, f, IsString, isEmail, partial))
    && (forall f | f in OptionalStrings :: Holds(body, f, IsString, isEmail, true))
    && (forall f | f in Booleans :: Holds(body, f, IsBoolean, isEmail, true))
    && Holds(body, "bedrooms", IsNumberIn(1, 20), isEmail, partial)
    && Holds(body, "bathrooms", IsNumberIn(1, 20), isEmail, partial)
    && Holds(body, "floors", IsNumberIn(1, 10), isEmail, true)
    && Holds(body, "parkingSpaces", IsNumberIn(0, 10), isEmail, true)
    && Holds(body, "sellerEmail", IsEmail, isEmail, true)
    && Holds(body, "images", IsStringArray, isEmail, true)
    && Holds(body, "badges", IsStringArray, isEmail, true)
  }

  /** The body is accepted as a `CreateHouseSaleDto`. */
  predicate ValidCreate(body: map<string, Json>, isEmail: string -> bool) {
    Valid(body, isEmail, false)
  }

  /** The body is accepted as an `UpdateHouseSaleDto`. */
  predicate ValidUpdate(body: map<string, Json>, isEmail: string -> bool) {
    Valid(body, isEmail, true)
  }

  // ---------------------------------------------------------------------------
  // What an accepted create body guarantees

  predicate StringField(body: map<string, Json>, f: string) {
    f in body && body[f].JStr?
  }

  predicate NumberIn(body: map<string, Json>, f: string, lo: int, hi: int) {
    f in body && body[f].JNum? && lo <= body[f].n <= hi
  }

  predicate OptionalNumberIn(body: map<string, Json>, f: string, lo: int, hi: int) {
    Present(body, f) ==> body[f].JNum? && lo <= body[f].n <= hi
  }

  predicate OptionalStringArray(body: map<string, Json>, f: string) {
    Present(body, f) ==> body[f].JArr? && forall i :: 0 <= i < |body[f].items| ==> body[f].items[i].JStr?
  }

  /** The field-level constraints an accepted create body satisfies. */
  predicate CreateConstraints(body: map<string, Json>, isEmail: string -> bool) {
    && StringField(body, "title") && StringField(body, "price") && StringField(body, "location")
    && StringField(body, "houseType") && StringField(body, "sellerName") && StringField(body, "sellerPhone")
    && NumberIn(body, "bedrooms", 1, 20) && NumberIn(body, "bathrooms", 1, 20)
    && OptionalNumberIn(body, "floors", 1, 10)
    && OptionalNumberIn(body, "parkingSpaces", 0, 10)
    && (Present(body, "sellerEmail") ==> body["sellerEmail"].JStr? && isEmail(body["sellerEmail"].s))
    && OptionalStringArray(body, "images") && OptionalStringArray(body, "badges")
    && (Present(body, "status") ==> body["status"].JStr?)
  }

  lemma ValidCreateConstraints(body: map<string, Json>, isEmail: string -> bool)
    requires ValidCreate(body, isEmail)
    ensures CreateConstraints(body, isEmail)
  {
    assert Holds(body, "title", IsString, isEmail, false);
    assert Holds(body, "price", IsString, isEmail, false);
    assert Holds(body, "location", IsString, isEmail, false);
    assert Holds(body, "houseType", IsString, isEmail, false);
    assert Holds(body, "sellerName", IsString, isEmail, false);
    assert Holds(body, "sellerPhone", IsString, isEmail, false);
    assert Holds(body, "status", IsString, isEmail, true);
  }

  /** A bedroom or bathroom count outside [1, 20] is refused. */
  lemma RoomCountOutOfRangeRejected(body: map<string, Json>, isEmail: string -> bool, f: string, n: int)
    requires f == "bedrooms" || f == "bathrooms"
    requires f in body && body[f] == JNum(n) && (n < 1 || n > 20)
    ensures !ValidCreate(body, isEmail)
  {
    if ValidCreate(body, isEmail) {
      ValidCreateConstraints(body, isEmail);
    }
  }

  /** A body without one of the six required strings is refused. */
  lemma MissingRequiredStringRejected(body: map<string, Json>, isEmail: string -> bool, f: string)
    requires f in ["title", "price", "location", "houseType", "sellerName", "sellerPhone"]
    requires !StringField(body, f)
    ensures !ValidCreate(body, isEmail)
  {
    if ValidCreate(body, isEmail) {
      ValidCreateConstraints(body, isEmail);
    }
  }

  /** `status` is only required to be a string: any string is accepted. */
  lemma AnyStatusAccepted(body: map<string, Json>, isEmail: string -> bool, status: string)
    requires ValidCreate(body, isEmail)
    ensures ValidCreate(body["status" := JStr(status)], isEmail)
  {
  }

  /** Every accepted create body is an accepted update body. */
  lemma CreateIsUpdate(body: map<string, Json>, isEmail: string -> bool)
    requires ValidCreate(body, isEmail)
    ensures ValidUpdate(body, isEmail)
  {
  }

  /**
    An update body may set `status` to any string and may null out a field
    that the create body requires.
  */
  lemma UpdateAcceptsStatusAndNulls(isEmail: string -> bool, status: string)
    ensures ValidUpdate(map["status" := JStr(status)], isEmail)
    ensures ValidUpdate(map["title" := JNull], isEmail)
    ensures !ValidCreate(map["title" := JNull], isEmail)
  {
  }
}

=== FILE: house_sale_form.dfy ===
/**
  The multi-step listing form of the sell page: the price field with its
  thousands separators, the Thai wording of an amount shown under it, the
  room counters, the badge picker, the upload box, the step navigation and
  the submit handler that turns the form into the `HouseSaleData` the sell
  page receives.
*/
module HouseSaleForm {
  import opened Options
  import opened Json
  import opened Strings
  import opened Seqs
  import opened Cards
  import opened Uploads
  import SellHouse
  import HouseSaleDto
  import ListingQueries
  import JsNumbers

  // ---------------------------------------------------------------------------
  // handlePriceChange

  /**
    `digits.replace(/\B(?=(\d{3})+(?!\d))/g, ',')`: a comma before every
    group of three digits counted from the right, never at the start.
  */
  function GroupDigits(d: string): (r: string)
    ensures |d| == 0 ==> r == ""
    ensures |d| > 0 ==> |r| == |d| + (|d| - 1) / 3 && r[0] == d[0]
    decreases |d|
  {
    if |d| <= 3 then d else GroupDigits(d[..|d| - 3]) + "," + d[|d| - 3..]
  }

  /** Position `i` of a grouped price holds a comma exactly when it is 4, 8, 12, ... from the end. */
  predicate CommaPlacedAt(r: string, i: nat)
    requires i < |r|
  {
    r[i] == ',' <==> i > 0 && (|r| - i) % 4 == 0
  }

  lemma ModFourShift(x: int)
    ensures (x + 4) % 4 == x % 4
  {
  }

  /** The commas sit exactly at the positions 4, 8, 12, ... counted from the end. */
  lemma {:induction false} GroupDigitsCommas(d: string)
    requires AllDigits(d)
    ensures forall i :: 0 <= i < |GroupDigits(d)| ==> CommaPlacedAt(GroupDigits(d), i)
  {
    var r := GroupDigits(d);
    if |d| <= 3 {
      forall i | 0 <= i < |r| ensures CommaPlacedAt(r, i) {
        assert IsDigit(d[i]);
      }
    } else {
      var p := d[..|d| - 3];
      var t := d[|d| - 3..];
      var g := GroupDigits(p);
      LastThreeDigits(d);
      GroupDigitsCommas(p);
      assert r == g + "," + t;
      forall i | 0 <= i < |r| ensures CommaPlacedAt(r, i) {
        if i < |g| {
          CommaInHead(g, t, i);
        } else if i == |g| {
          CommaAtJoin(g, t);
        } else {
          CommaInTail(g, t, i);
        }
      }
    }
  }

  lemma CommaInHead(g: string, t: string, i: nat)
    requires i < |g| && |t| == 3 && CommaPlacedAt(g, i)
    ensures CommaPlacedAt(g + "," + t, i)
  {
    var r := g + "," + t;
    assert r[i] == g[i];
    ModFourShift(|g| - i);
  }

  lemma CommaAtJoin(g: string, t: string)
    requires |g| > 0 && |t| == 3
    ensures CommaPlacedAt(g + "," + t, |g|)
  {
  }

  lemma CommaInTail(g: string, t: string, i: nat)
    requires |g| < i < |g| + 4 && |t| == 3 && AllDigits(t)
    ensures CommaPlacedAt(g + "," + t, i)
  {
    var r := g + "," + t;
    assert r[i] == t[i - |g| - 1];
    assert IsDigit(t[i - |g| - 1]);
  }

  lemma DigitsNoComma(d: string)
    requires AllDigits(d)
    ensures ',' !in d
  {
    forall i | 0 <= i < |d| ensures d[i] != ',' { assert IsDigit(d[i]); }
  }

  /** The last three digits of a longer run, as a run of digits. */
  lemma LastThreeDigits(d: string)
    requires AllDigits(d) && |d| > 3
    ensures AllDigits(d[..|d| - 3]) && AllDigits(d[|d| - 3..]) && d[..|d| - 3] + d[|d| - 3..] == d
  {
    var t := d[|d| - 3..];
    forall i | 0 <= i < |t| ensures IsDigit(t[i]) { assert t[i] == d[|d| - 3 + i]; }
  }

  /** Grouping adds commas and nothing else: removing them gives the digits back. */
  lemma {:induction false} GroupDigitsWithoutCommas(d: string)
    requires AllDigits(d)
    ensures Without(GroupDigits(d), ',') == d
  {
    if |d| <= 3 {
      DigitsNoComma(d);
      WithoutAbsent(d, ',');
    } else {
      LastThreeDigits(d);
      var p := d[..|d| - 3];
      var t := d[|d| - 3..];
      var g := GroupDigits(p);
      GroupDigitsWithoutCommas(p);
      DigitsNoComma(t);
      assert GroupDigits(d) == g + "," + t;
      WithoutConcat(g + ",", t, ',');
      WithoutConcat(g, ",", ',');
      WithoutAbsent(t, ',');
      assert Without(",", ',') == "";
      assert Without(g + ",", ',') == p + "";
      assert p + "" + t == d;
    }
  }

  /** The digits of a grouped run are the run. */
  lemma {:induction false} GroupDigitsDigits(d: string)
    requires AllDigits(d)
    ensures DigitsOf(GroupDigits(d)) == d
  {
    if |d| <= 3 {
      DigitsOfAllDigits(d);
    } else {
      LastThreeDigits(d);
      var p := d[..|d| - 3];
      var t := d[|d| - 3..];
      var g := GroupDigits(p);
      GroupDigitsDigits(p);
      DigitsOfConcat(g + ",", t);
      DigitsOfConcat(g, ",");
      DigitsOfAllDigits(t);
      assert DigitsOf(",") == "";
    }
  }

  /** `handlePriceChange`: keep the digits, then group them. */
  function FormatPrice(value: string): (r: string)
    ensures Without(r, ',') == DigitsOf(value)
    ensures DigitsOf(r) == DigitsOf(value)
  {
    GroupDigitsWithoutCommas(DigitsOf(value));
    GroupDigitsDigits(DigitsOf(value));
    GroupDigits(DigitsOf(value))
  }

  /** Typing over a formatted price and formatting again changes nothing. */
  lemma FormatPriceIdempotent(value: string)
    ensures FormatPrice(FormatPrice(value)) == FormatPrice(value)
  {
  }

  /** The server reads a formatted price, commas removed, as the number that was typed. */
  lemma FormattedPriceReadBack(value: string)
    requires DigitsOf(value) != ""
    ensures JsNumbers.ParseFloat(Without(FormatPrice(value), ',')) == JsNumbers.Finite(DigitsValue(DigitsOf(value)) as real)
  {
    JsNumbers.ParseFloatOfDigits(DigitsOf(value));
  }

  // ---------------------------------------------------------------------------
  // numberToThaiText

  predicate IsHexDigit(c: char) {
    IsDigit(c) || 'a' <= c <= 'f' || 'A' <= c <= 'F'
  }

  function HexVal(c: char): nat
    requires IsHexDigit(c)
  {
    if IsDigit(c) then DigitVal(c)
    else if 'a' <= c <= 'f' then c as int - 'a' as int + 10
    else c as int - 'A' as int + 10
  }

  /** The longest prefix of hexadecimal digits. */
  function LeadingHexDigits(s: string): (h: string)
    ensures |h| <= |s| && forall i :: 0 <= i < |h| ==> IsHexDigit(h[i])
  {
    if |s| == 0 || !IsHexDigit(s[0]) then "" else [s[0]] + LeadingHexDigits(s[1..])
  }

  function HexValue(h: string): nat
    requires forall i :: 0 <= i < |h| ==> IsHexDigit(h[i])
  {
    if |h| == 0 then 0 else 16 * HexValue(h[..|h| - 1]) + HexVal(h[|h| - 1])
  }

  /**
    `parseInt(s)` without a radix: leading white space, an optional sign,
    then hexadecimal digits after `0x`/`0X` or decimal digits; `None` (NaN)
    when no digit follows.
  */
  function ParseInt(s: string): (r: Option<int>)
    ensures r.Some? && r.value != 0 ==> |s| > 0
  {
    var t := TrimStart(s);
    var negative := |t| > 0 && t[0] == '-';
    var u := if |t| > 0 && (t[0] == '-' || t[0] == '+') then t[1..] else t;
    if |u| >= 2 && u[0] == '0' && (u[1] == 'x' || u[1] == 'X') then
      var h := LeadingHexDigits(u[2..]);
      var v: int := HexValue(h);
      if |h| == 0 then None else Some(if negative then -v else v)
    else
      var d := LeadingDigits(u);
      var v: int := DigitsValue(d);
      if |d| == 0 then None else Some(if negative then -v else v)
  }

  /** A plain numeral is read as its value. */
  lemma ParseIntOfNumeral(n: nat)
    ensures ParseInt(NatToString(n)) == Some(n)
  {
    var s := NatToString(n);
    assert IsDigit(s[0]);
    assert !IsJsSpace(s[0]);
    assert TrimStart(s) == s;
    assert |s| >= 2 ==> IsDigit(s[1]);
    LeadingDigitsOfDigits(s);
  }

  const Baht := "บาท"

  /** `s` ends with `suffix`. */
  predicate EndsWith(s: string, suffix: string) {
    |suffix| <= |s| && s[|s| - |suffix|..] == suffix
  }

  /**
    The wording of a non-zero amount: its largest unit (million, hundred
    thousand, ten thousand, thousand) with the count of that unit, followed
    by the next unit's digit only, or by the plain remainder when it is
    below a thousand; then "บาท".
  */
  function AmountWords(n: int): (r: string)
    ensures EndsWith(r, Baht)
  {
    AmountLead(n) + Baht
  }

  /** The wording of an amount up to the closing "บาท". */
  function AmountLead(n: int): string {
    if n >= 1000000 then
      var millions := n / 1000000;
      var rem := n % 1000000;
      if rem == 0 then NatToString(millions) + " ล้าน"
      else if rem >= 100000 then NatToString(millions) + " ล้าน " + NatToString(rem / 100000) + " แสน"
      else if rem >= 10000 then NatToString(millions) + " ล้าน " + NatToString(rem / 10000) + " หมื่น"
      else if rem >= 1000 then NatToString(millions) + " ล้าน " + NatToString(rem / 1000) + " พัน"
      else NatToString(millions) + " ล้าน " + NatToString(rem) + " "
    else if n >= 100000 then
      var hundredThousands := n / 100000;
      var rem := n % 100000;
      if rem == 0 then NatToString(hundredThousands) + " แสน"
      else if rem >= 10000 then NatToString(hundredThousands) + " แสน " + NatToString(rem / 10000) + " หมื่น"
      else if rem >= 1000 then NatToString(hundredThousands) + " แสน " + NatToString(rem / 1000) + " พัน"
      else NatToString(hundredThousands) + " แสน " + NatToString(rem) + " "
    else if n >= 10000 then
      var tenThousands := n / 10000;
      var rem := n % 10000;
      if rem == 0 then NatToString(tenThousands) + " หมื่น"
      else if rem >= 1000 then NatToString(tenThousands) + " หมื่น " + NatToString(rem / 1000) + " พัน"
      else NatToString(tenThousands) + " หมื่น " + NatToString(rem) + " "
    else if n >= 1000 then
      var thousands := n / 1000;
      var rem := n % 1000;
      if rem == 0 then NatToString(thousands) + " พัน"
      else NatToString(thousands) + " พัน " + NatToString(rem) + " "
    else IntToString(n) + " "
  }

  /**
    `numberToThaiText(numStr)`: nothing for an empty field, for "0", for
    text that does not read as a number and for zero; otherwise the
    wording of the amount read after removing the commas.
  */
  function ThaiText(numStr: string): (r: string)
    ensures var n := ParseInt(Without(numStr, ','));
      r == "" <==> numStr == "" || numStr == "0" || n.None? || n == Some(0)
    ensures r != "" ==> EndsWith(r, Baht)
  {
    if numStr == "" || numStr == "0" then ""
    else match ParseInt(Without(numStr, ','))
      case None => ""
      case Some(n) => if n == 0 then "" else AmountWords(n)
  }

  /** The price field after the user typed the amount `n`. */
  function TypedPrice(n: nat): (r: string)
    ensures r != ""
  {
    FormatPrice(NatToString(n))
  }

  /**
    What the form shows under a typed price: nothing for zero, "n บาท"
    below a thousand, "M ล้านบาท" for whole millions, and in general the
    wording of the amount.
  */
  lemma ThaiTextOfTypedPrice(n: nat)
    ensures n == 0 ==> ThaiText(TypedPrice(n)) == ""
    ensures n > 0 ==> ThaiText(TypedPrice(n)) == AmountWords(n)
    ensures 0 < n < 1000 ==> ThaiText(TypedPrice(n)) == NatToString(n) + " " + Baht
    ensures n >= 1000000 && n % 1000000 == 0 ==> ThaiText(TypedPrice(n)) == NatToString(n / 1000000) + " ล้าน" + Baht
  {
    var s := NatToString(n);
    DigitsOfAllDigits(s);
    ParseIntOfNumeral(n);
    var p := TypedPrice(n);
    assert Without(p, ',') == s;
    if n == 0 {
      assert s == "0";
    } else {
      assert p[0] == s[0] && s[0] != '0';
    }
  }

  lemma DivideByMillion(a: nat)
    ensures a / 1000000 == (a / 100000) / 10
    ensures (a % 1000000) / 100000 == (a / 100000) % 10
  {
    var q := a / 100000;
    var r := a % 100000;
    var big := q / 10;
    var digit := q % 10;
    assert a == 1000000 * big + (100000 * digit + r);
    assert 0 <= 100000 * digit + r < 1000000;
  }

  /**
    Only the leading unit of the remainder is spoken: above a million, two
    amounts that agree down to the hundred-thousands digit (and have a
    non-zero one) read the same, whatever their lower digits.
  */
  lemma AmountWordsKeepLeadingUnit(a: nat, b: nat)
    requires a >= 1000000 && b >= 1000000
    requires a / 100000 == b / 100000 && (a / 100000) % 10 != 0
    ensures AmountWords(a) == AmountWords(b)
    ensures AmountWords(a) == NatToString(a / 1000000) + " ล้าน " + NatToString((a / 100000) % 10) + " แสน" + Baht
  {
    DivideByMillion(a);
    DivideByMillion(b);
  }

  // ---------------------------------------------------------------------------
  // handleNumberChange

  datatype Counter = Bedrooms | Bathrooms | Floors | ParkingSpaces

  datatype Counts = Counts(bedrooms: int, bathrooms: int, floors: int, parkingSpaces: int) {
    function Get(c: Counter): int {
      match c
      case Bedrooms => bedrooms
      case Bathrooms => bathrooms
      case Floors => floors
      case ParkingSpaces => parkingSpaces
    }

    function Set(c: Counter, v: int): (r: Counts)
      ensures r.Get(c) == v
      ensures forall o :: o != c ==> r.Get(o) == Get(o)
    {
      match c
      case Bedrooms => this.(bedrooms := v)
      case Bathrooms => this.(bathrooms := v)
      case Floors => this.(floors := v)
      case ParkingSpaces => this.(parkingSpaces := v)
    }
  }

  const DefaultCounts := Counts(3, 2, 2, 2)

  /** A press of a counter's minus (`delta == -1`) or plus (`delta == 1`) button: `Math.max(0, value)`. */
  function Press(c: Counts, field: Counter, delta: int): (r: Counts)
    ensures r.Get(field) >= 0
    ensures c.Get(field) + delta >= 0 ==> r.Get(field) == c.Get(field) + delta
    ensures c.Get(field) + delta < 0 ==> r.Get(field) == 0
    ensures forall o :: o != field ==> r.Get(o) == c.Get(o)
  {
    var v := c.Get(field) + delta;
    c.Set(field, if v < 0 then 0 else v)
  }

  /** Counters of non-negative values stay non-negative under any press. */
  lemma PressKeepsNonNegative(c: Counts, field: Counter, delta: int)
    requires forall o :: c.Get(o) >= 0
    ensures forall o :: Press(c, field, delta).Get(o) >= 0
  {
  }

  /** The range the server accepts for each counter. */
  function Bounds(field: Counter): (int, int) {
    match field
    case Bedrooms => (1, 20)
    case Bathrooms => (1, 20)
    case Floors => (1, 10)
    case ParkingSpaces => (0, 10)
  }

  predicate InBounds(c: Counts) {
    forall o :: Bounds(o).0 <= c.Get(o) <= Bounds(o).1
  }

  /** The form's counters can leave the accepted range: three presses take the bedrooms to zero. */
  lemma CountersLeaveAcceptedRange()
    ensures InBounds(DefaultCounts)
    ensures Press(Press(Press(DefaultCounts, Bedrooms, -1), Bedrooms, -1), Bedrooms, -1).bedrooms == 0
    ensures !InBounds(Press(Press(Press(DefaultCounts, Bedrooms, -1), Bedrooms, -1), Bedrooms, -1))
  {
    var c := Press(Press(Press(DefaultCounts, Bedrooms, -1), Bedrooms, -1), Bedrooms, -1);
    assert c.Get(Bedrooms) == 0;
    assert Bounds(Bedrooms).0 == 1;
  }

  /** A press as intended: the value clamped into the range the server accepts. */
  function BoundedPress(c: Counts, field: Counter, delta: int): (r: Counts)
    ensures forall o :: o != field ==> r.Get(o) == c.Get(o)
    ensures Bounds(field).0 <= r.Get(field) <= Bounds(field).1
  {
    var v := c.Get(field) + delta;
    var (lo, hi) := Bounds(field);
    c.Set(field, if v < lo then lo else if v > hi then hi else v)
  }

  /** Counters that start in range stay in range under any bounded press, and move by the press when they can. */
  lemma BoundedPressStaysInBounds(c: Counts, field: Counter, delta: int)
    requires InBounds(c)
    ensures InBounds(BoundedPress(c, field, delta))
    ensures Bounds(field).0 <= c.Get(field) + delta <= Bounds(field).1 ==>
      BoundedPress(c, field, delta).Get(field) == c.Get(field) + delta
  {
    var r := BoundedPress(c, field, delta);
    forall o ensures Bounds(o).0 <= r.Get(o) <= Bounds(o).1 {
      if o != field {
        assert r.Get(o) == c.Get(o);
      }
    }
  }

  // ---------------------------------------------------------------------------
  // handleBadgeToggle

  /** Remove a present id, append an absent one. */
  function Toggle(selected: seq<string>, id: string): (r: seq<string>)
    ensures id in selected ==> id !in r && forall x :: x in r <==> x in selected && x != id
    ensures id !in selected ==> r == selected + [id]
  {
    if id in selected then Filter(selected, (x: string) => x != id) else selected + [id]
  }

  /** Toggling an id that is not selected twice gives the list back. */
  lemma ToggleTwiceRestores(selected: seq<string>, id: string)
    requires id !in selected
    ensures Toggle(Toggle(selected, id), id) == selected
  {
    var keep := (x: string) => x != id;
    FilterConcat(selected, [id], keep);
    FilterAll(selected, keep);
    assert Filter([id], keep) == [];
  }

  /** Toggling keeps the selection free of repeats. */
  lemma ToggleKeepsDistinct(selected: seq<string>, id: string)
    requires Distinct(selected)
    ensures Distinct(Toggle(selected, id))
  {
    if id in selected {
      FilterKeepsDistinct(selected, (x: string) => x != id);
    }
  }

  lemma {:induction false} FilterKeepsDistinct(s: seq<string>, keep: string -> bool)
    requires Distinct(s)
    ensures Distinct(Filter(s, keep))
  {
    if |s| > 0 {
      FilterKeepsDistinct(s[1..], keep);
      assert s[0] !in s[1..];
    }
  }

  const MaxSelectedBadges := 3

  /** The badge button: disabled for an unselected badge once three are selected. */
  function PressBadge(selected: seq<string>, id: string): (r: seq<string>)
    ensures |selected| <= MaxSelectedBadges ==> |r| <= MaxSelectedBadges
    ensures id in selected || |selected| < MaxSelectedBadges ==> r == Toggle(selected, id)
    ensures id !in selected && |selected| >= MaxSelectedBadges ==> r == selected
  {
    if id !in selected && |selected| >= MaxSelectedBadges then selected else Toggle(selected, id)
  }

  // ---------------------------------------------------------------------------
  // handleSubmit

  /** An entry of the badge catalogue. */
  datatype Badge = Badge(id: string, name: string)

  const Catalogue: seq<Badge> := [
    Badge("new", "รีโนเวทใหม่"),
    Badge("ready", "พร้อมอยู่"),
    Badge("urgent", "ขายด่วน"),
    Badge("negotiable", "ราคาต่อรองได้"),
    Badge("furnished", "เฟอร์นิเจอร์ครบ"),
    Badge("pool", "มีสระว่ายน้ำ"),
    Badge("security", "รักษาความปลอดภัย"),
    Badge("parking", "ที่จอดรถเยอะ"),
    Badge("garden", "มีสวน"),
    Badge("modern", "สไตล์โมเดิร์น"),
    Badge("quiet", "ย่านเงียบสงบ"),
    Badge("convenient", "ทำเลสะดวก"),
    Badge("investment", "เหมาะลงทุน"),
    Badge("family", "เหมาะครอบครัว"),
    Badge("luxury", "หรูหรา")]

  /** `catalogue.find(badge => badge.id === id)?.label` */
  function LabelIn(cat: seq<Badge>, id: string): (r: Option<string>)
    ensures r.Some? ==> exists i :: 0 <= i < |cat| && cat[i].id == id && cat[i].name == r.value
    ensures r.None? <==> forall i :: 0 <= i < |cat| ==> cat[i].id != id
  {
    if |cat| == 0 then None
    else if cat[0].id == id then Some(cat[0].name)
    else
      var r := LabelIn(cat[1..], id);
      assert r.Some? ==> exists i :: 1 <= i < |cat| && cat[i].id == id && cat[i].name == r.value by {
        if r.Some? {
          var i :| 0 <= i < |cat[1..]| && cat[1..][i].id == id && cat[1..][i].name == r.value;
          assert cat[i + 1] == cat[1..][i];
        }
      }
      r
  }

  /** The labels of the selected ids, in order; unknown ids are dropped (`filter(Boolean)`). */
  function SelectedLabels(ids: seq<string>): (r: seq<string>)
    ensures |r| <= |ids|
  {
    if |ids| == 0 then []
    else
      var rest := SelectedLabels(ids[1..]);
      match LabelIn(Catalogue, ids[0])
      case Some(l) => [l] + rest
      case None => rest
  }

  datatype Flags = Flags(
    urgentSale: bool,
    negotiable: bool,
    hasSwimmingPool: bool,
    hasSecurity: bool,
    titleDeed: bool,
    installmentAvailable: bool)

  /** The badges the form adds from its check boxes, in this order. */
  function AutoBadges(f: Flags): (r: seq<string>)
    ensures f.urgentSale <==> "ขายด่วน" in r
    ensures f.titleDeed <==> "มีโฉนด" in r
    ensures |r| <= 6
  {
    (if f.urgentSale then ["ขายด่วน"] else [])
    + (if f.negotiable then ["ราคาต่อรองได้"] else [])
    + (if f.hasSwimmingPool then ["มีสระว่ายน้ำ"] else [])
    + (if f.hasSecurity then ["รักษาความปลอดภัย"] else [])
    + (if f.titleDeed then ["มีโฉนด"] else [])
    + (if f.installmentAvailable then ["ผ่อนได้"] else [])
  }

  /** The form's state; the fields the handlers do not read are kept untyped in `rest`. */
  datatype Form = Form(
    title: string,
    description: string,
    price: string,
    location: string,
    houseType: string,
    counts: Counts,
    usableArea: string,
    landArea: string,
    sellerName: string,
    sellerPhone: string,
    flags: Flags,
    images: seq<string>,
    selectedBadges: seq<string>,
    rest: map<string, Json>)

  const DefaultForm := Form("", "", "", "", "บ้านเดี่ยว", DefaultCounts, "", "", "", "",
    Flags(false, false, false, false, true, false), [], [], map[])

  /** `[...new Set([...selectedBadgeLabels, ...autoBadges])]` */
  function SubmittedBadges(form: Form): (r: seq<string>)
    ensures Distinct(r)
    ensures forall b :: b in r <==> b in SelectedLabels(form.selectedBadges) || b in AutoBadges(form.flags)
  {
    Dedupe(SelectedLabels(form.selectedBadges) + AutoBadges(form.flags))
  }

  /** The check boxes as data properties. */
  function FlagFields(f: Flags): (m: map<string, Json>)
    ensures m.Keys == {"urgentSale", "negotiable", "hasSwimmingPool", "hasSecurity", "titleDeed", "installmentAvailable"}
    ensures m["urgentSale"] == JBool(f.urgentSale) && m["negotiable"] == JBool(f.negotiable)
    ensures m["hasSwimmingPool"] == JBool(f.hasSwimmingPool) && m["hasSecurity"] == JBool(f.hasSecurity)
    ensures m["titleDeed"] == JBool(f.titleDeed) && m["installmentAvailable"] == JBool(f.installmentAvailable)
  {
    map["urgentSale" := JBool(f.urgentSale), "negotiable" := JBool(f.negotiable),
        "hasSwimmingPool" := JBool(f.hasSwimmingPool), "hasSecurity" := JBool(f.hasSecurity),
        "titleDeed" := JBool(f.titleDeed), "installmentAvailable" := JBool(f.installmentAvailable)]
  }

  /**
    The form's remaining properties as sent: `selectedBadges` dropped, the
    check boxes as booleans, everything else passed through unchanged.
  */
  function SentProperties(form: Form): (o: map<string, Json>)
    ensures o.Keys == (form.rest.Keys - {"selectedBadges"}) + FlagFields(form.flags).Keys
    ensures "selectedBadges" !in o
    ensures forall k :: k in form.rest && k != "selectedBadges" && k !in FlagFields(form.flags) ==> o[k] == form.rest[k]
    ensures forall k :: k in FlagFields(form.flags) ==> o[k] == FlagFields(form.flags)[k]
  {
    (form.rest - {"selectedBadges"}) + FlagFields(form.flags)
  }

  /**
    `handleSubmit(e, action)`: nothing is submitted while the title, the
    price, the location or the seller's phone is empty; otherwise the
    form's data goes to the page with the merged badges, a placeholder
    image when there is none, the status the action asks for, and without
    the selected badge ids.
  */
  function Submit(form: Form, action: SellHouse.Action): (r: Option<HouseSaleData>)
    ensures r.None? <==> form.title == "" || form.price == "" || form.location == "" || form.sellerPhone == ""
    ensures r.Some? ==> var d := r.value;
      && d.status == Some(SellHouse.StatusFor(action))
      && d.badges == Some(SubmittedBadges(form))
      && d.images == Some(if |form.images| > 0 then form.images else [PlaceholderImage])
      && "selectedBadges" !in d.others
      && d.title == form.title && d.price == form.price && d.location == form.location
      && d.sellerPhone == form.sellerPhone
      && d.bedrooms == form.counts.bedrooms && d.bathrooms == form.counts.bathrooms
      && d.floors == Some(form.counts.floors) && d.parkingSpaces == Some(form.counts.parkingSpaces)
      && d.id == None && d.description == Some(form.description) && d.houseType == form.houseType
      && d.usableArea == Some(form.usableArea) && d.landArea == Some(form.landArea)
      && d.sellerName == form.sellerName
    ensures r.Some? ==> r.value.others == SentProperties(form)
  {
    if form.title == "" || form.price == "" || form.location == "" || form.sellerPhone == "" then None
    else
      Some(HouseSaleData(
        None,
        Some(SellHouse.StatusFor(action)),
        form.title,
        Some(form.description),
        form.price,
        form.location,
        form.houseType,
        form.counts.bedrooms,
        form.counts.bathrooms,
        Some(form.counts.floors),
        Some(form.counts.parkingSpaces),
        Some(form.usableArea),
        Some(form.landArea),
        form.sellerName,
        form.sellerPhone,
        Some(if |form.images| > 0 then form.images else [PlaceholderImage]),
        Some(SubmittedBadges(form)),
        SentProperties(form)))
  }

  lemma CatalogueNamesDistinct()
    ensures forall p, q :: 0 <= p < q < |Catalogue| ==> Catalogue[p].name != Catalogue[q].name
  {
    forall p, q | 0 <= p < q < |Catalogue| ensures Catalogue[p].name != Catalogue[q].name {
      var a := Catalogue[p].name;
      var b := Catalogue[q].name;
      assert |a| != |b| || a[0] != b[0];
    }
  }

  /** Different badge ids of the catalogue carry different labels. */
  lemma DistinctBadgesDistinctLabels(x: string, y: string)
    requires x != y
    ensures LabelIn(Catalogue, x).Some? && LabelIn(Catalogue, y).Some? ==> LabelIn(Catalogue, x) != LabelIn(Catalogue, y)
  {
    if LabelIn(Catalogue, x).Some? && LabelIn(Catalogue, y).Some? {
      var i :| 0 <= i < |Catalogue| && Catalogue[i].id == x && Catalogue[i].name == LabelIn(Catalogue, x).value;
      var j :| 0 <= j < |Catalogue| && Catalogue[j].id == y && Catalogue[j].name == LabelIn(Catalogue, y).value;
      assert i != j;
      CatalogueNamesDistinct();
    }
  }

  /** Every selected label is the label of one of the selected ids. */
  lemma {:induction false} SelectedLabelSource(ids: seq<string>, l: string) returns (i: nat)
    requires l in SelectedLabels(ids)
    ensures i < |ids| && LabelIn(Catalogue, ids[i]) == Some(l)
  {
    var rest := SelectedLabels(ids[1..]);
    if LabelIn(Catalogue, ids[0]) == Some(l) {
      i := 0;
    } else {
      var k := SelectedLabelSource(ids[1..], l);
      i := k + 1;
    }
  }

  /** Distinct selected ids give distinct labels. */
  lemma {:induction false} SelectedLabelsDistinct(ids: seq<string>)
    requires Distinct(ids)
    ensures Distinct(SelectedLabels(ids))
  {
    if |ids| > 0 {
      SelectedLabelsDistinct(ids[1..]);
      var rest := SelectedLabels(ids[1..]);
      match LabelIn(Catalogue, ids[0])
      case None =>
      case Some(l) =>
        forall k | 0 <= k < |rest| ensures rest[k] != l {
          var i := SelectedLabelSource(ids[1..], rest[k]);
          assert ids[1..][i] == ids[i + 1] != ids[0];
          DistinctBadgesDistinctLabels(ids[0], ids[i + 1]);
        }
    }
  }

  /**
    The submitted badges begin with the labels of the selected badges, in
    the order they were picked, and contain the automatic ones after them.
  */
  lemma SelectedLabelsLead(form: Form)
    requires Distinct(form.selectedBadges)
    ensures var labels := SelectedLabels(form.selectedBadges);
      |SubmittedBadges(form)| >= |labels| && SubmittedBadges(form)[..|labels|] == labels
    ensures form.flags.urgentSale ==> "ขายด่วน" in SubmittedBadges(form)
  {
    SelectedLabelsDistinct(form.selectedBadges);
    DedupeKeepsDistinctPrefix(SelectedLabels(form.selectedBadges), AutoBadges(form.flags));
  }

  /**
    A form whose bedroom counter was pressed down to zero is accepted by
    the form and published on the page, while the server refuses it.
  */
  lemma ZeroBedroomFormPublishedOnlyLocally(form: Form, p: SellHouse.Page, now: int, date: string, isEmail: string -> bool)
    requires form.title != "" && form.price != "" && form.location != "" && form.sellerPhone != ""
    requires form.counts == Press(Press(Press(DefaultCounts, Bedrooms, -1), Bedrooms, -1), Bedrooms, -1)
    ensures Submit(form, SellHouse.Publish).Some?
    ensures var d := Submit(form, SellHouse.Publish).value;
      var s := SellHouse.Submit(p, d, SellHouse.Publish, now, date, true);
      && d.bedrooms == 0
      && s.page.cache[0] == ProjectCard(d, now, date, SellHouse.SellBadges)
      && !HouseSaleDto.ValidCreate(ToWire(s.request), isEmail)
  {
    CountersLeaveAcceptedRange();
    var d := Submit(form, SellHouse.Publish).value;
    var s := SellHouse.Submit(p, d, SellHouse.Publish, now, date, true);
    HouseSaleDto.RoomCountOutOfRangeRejected(ToWire(s.request), isEmail, "bedrooms", d.bedrooms);
  }

  // ---------------------------------------------------------------------------
  // The upload box

  const MaxFormImages := 20

  /**
    The images after a selection in the upload box: refused while an
    upload runs or while the title is blank; otherwise the files in the
    free slots are converted, numbered after the images already there,
    and appended when at least one image was made.
  */
  function UploadImages(form: Form, uploading: bool, files: seq<File>, convert: (File, nat) -> Option<string>): (r: seq<string>)
    ensures uploading || IsBlank(form.title) ==> r == form.images
    ensures !uploading && !IsBlank(form.title) ==>
      r == form.images + Collect(Slots(files, |form.images|, MaxFormImages), |form.images|, convert)
    ensures |form.images| <= MaxFormImages ==> |r| <= MaxFormImages
  {
    TrimEmptyIffBlank(form.title);
    if uploading || Trim(form.title) == "" then form.images
    else
      var newImages := Collect(Slots(files, |form.images|, MaxFormImages), |form.images|, convert);
      if |newImages| > 0 then form.images + newImages else form.images
  }

  /** Files that are not images, or are too large, never reach the form. */
  lemma UploadSkipsRejectedFiles(form: Form, files: seq<File>, convert: (File, nat) -> Option<string>)
    requires !IsBlank(form.title)
    requires forall i :: 0 <= i < |files| ==> !Acceptable(files[i])
    ensures UploadImages(form, false, files, convert) == form.images
  {
    var slots := Slots(files, |form.images|, MaxFormImages);
    assert forall i :: 0 <= i < |slots| ==> slots[i] == files[i];
    NoAcceptableFileNoImage(slots, |form.images|, convert);
  }

  // ---------------------------------------------------------------------------
  // nextStep / prevStep

  const FirstStep := 1
  const LastStep := 4

  function NextStep(step: int): (r: int)
    ensures FirstStep <= step <= LastStep ==> FirstStep <= r <= LastStep
    ensures step < LastStep ==> r == step + 1
    ensures step >= LastStep ==> r == step
  {
    if step < LastStep then step + 1 else step
  }

  function PrevStep(step: int): (r: int)
    ensures FirstStep <= step <= LastStep ==> FirstStep <= r <= LastStep
    ensures step > FirstStep ==> r == step - 1
    ensures step <= FirstStep ==> r == step
  {
    if step > FirstStep then step - 1 else step
  }

  /** Going forward and back returns to the same step, except from the last step. */
  lemma NextThenPrev(step: int)
    requires FirstStep <= step < LastStep
    ensures PrevStep(NextStep(step)) == step
    ensures NextStep(PrevStep(step + 1)) == step + 1
  {
  }
}

=== FILE: image_carousel.dfy ===
/**
  The home page's picture carousel (`ImageCarousel`): a current slide that
  autoplay advances every four seconds while playing, previous and next
  buttons that wrap around, dots that jump to a slide, and swipe gestures
  (touch, or a mouse drag) that move one slide when the pointer travels
  more than 50 pixels, lighting an arrow once it has travelled 20.

  The slides are the mock picture list; only their number matters here.
  The four-second interval is a `Tick` the caller applies. Pointer
  positions are whole pixels.
*/
module ImageCarousel {
  import opened Options
  import AnimatedCards

  /** The carousel's state: the slide, autoplay, the gesture's two ends and the two arrows. */
  datatype Carousel = Carousel(
    index: int,
    playing: bool,
    touchStart: Option<int>,
    touchEnd: Option<int>,
    swipingLeft: bool,
    swipingRight: bool)

  const Initial := Carousel(0, true, None, None, false, false)
  const FeedbackDistance := 20
  const SwipeDistance := 50

  /** The slide shown exists and at most one swipe arrow is lit. */
  predicate Valid(c: Carousel, count: nat) {
    (count > 0 ==> 0 <= c.index < count) && !(c.swipingLeft && c.swipingRight)
  }

  /** A pointer position as a JavaScript condition: `null` and `0` both count as missing. */
  predicate Truthy(x: Option<int>) {
    x.Some? && x.value != 0
  }

  function Abs(x: int): nat {
    if x < 0 then -x else x
  }

  // ---------------------------------------------------------------------------
  // Buttons, dots and autoplay

  /** `goToNext`: one slide on, from the last back to the first. */
  function GoToNext(c: Carousel, count: nat): (r: Carousel)
    requires count >= 1
    ensures r.(index := c.index) == c
    ensures 0 <= c.index < count ==> r.index == (c.index + 1) % count
  {
    c.(index := AnimatedCards.NextImage(c.index, count))
  }

  /** `goToPrevious`: one slide back, from the first round to the last. */
  function GoToPrevious(c: Carousel, count: nat): (r: Carousel)
    requires count >= 1
    ensures r.(index := c.index) == c
    ensures 0 <= c.index < count ==> r.index == (c.index + count - 1) % count
  {
    c.(index := AnimatedCards.PreviousImage(c.index, count))
  }

  /** `goToSlide(index)`: a dot shows its slide. */
  function GoToSlide(c: Carousel, index: int): (r: Carousel)
    ensures r.index == index && r.(index := c.index) == c
  {
    c.(index := index)
  }

  /** `togglePlayPause` */
  function TogglePlayPause(c: Carousel): (r: Carousel)
    ensures r.playing == !c.playing && r.(playing := c.playing) == c
  {
    c.(playing := !c.playing)
  }

  /** One firing of the autoplay interval, which runs only while playing and there are slides. */
  function Tick(c: Carousel, count: nat): (r: Carousel)
    ensures !c.playing || count == 0 ==> r == c
    ensures c.playing && count > 0 ==> r == GoToNext(c, count)
  {
    if !c.playing || count == 0 then c else GoToNext(c, count)
  }

  /** A paused carousel stays on its slide; playing again resumes from it. */
  lemma PauseStopsAutoplay(c: Carousel, count: nat)
    requires c.playing && count > 0 && 0 <= c.index < count
    ensures Tick(TogglePlayPause(c), count) == TogglePlayPause(c)
    ensures Tick(TogglePlayPause(TogglePlayPause(c)), count).index == (c.index + 1) % count
  {
  }

  // ---------------------------------------------------------------------------
  // Gestures

  /** `handleTouchStart` and `handleMouseDown`: a new gesture starts at `x`. */
  function PointerDown(c: Carousel, x: int): (r: Carousel)
    ensures r.touchStart == Some(x) && r.touchEnd.None?
    ensures r.(touchStart := c.touchStart, touchEnd := c.touchEnd) == c
  {
    c.(touchStart := Some(x), touchEnd := None)
  }

  /**
    `handleTouchMove`: the gesture's end follows the finger, and once it is
    more than 20 pixels from the start the arrow of its direction lights
    and the other goes out.
  */
  function TouchMove(c: Carousel, x: int): (r: Carousel)
    ensures r.touchEnd == Some(x) && r.touchStart == c.touchStart
    ensures r.index == c.index && r.playing == c.playing
    ensures Truthy(c.touchStart) && Abs(c.touchStart.value - x) > FeedbackDistance ==>
      r.swipingLeft == (c.touchStart.value > x) && r.swipingRight == (c.touchStart.value < x)
    ensures !(Truthy(c.touchStart) && Abs(c.touchStart.value - x) > FeedbackDistance) ==>
      r.swipingLeft == c.swipingLeft && r.swipingRight == c.swipingRight
  {
    var moved := c.(touchEnd := Some(x));
    if Truthy(c.touchStart) && Abs(c.touchStart.value - x) > FeedbackDistance then
      var left := c.touchStart.value - x > 0;
      moved.(swipingLeft := left, swipingRight := !left)
    else moved
  }

  /** `handleMouseMove`: a drag only follows the mouse once a gesture has started. */
  function MouseMove(c: Carousel, x: int): (r: Carousel)
    ensures !Truthy(c.touchStart) ==> r == c
    ensures Truthy(c.touchStart) ==> r == c.(touchEnd := Some(x))
  {
    if !Truthy(c.touchStart) then c else c.(touchEnd := Some(x))
  }

  /** The gesture forgotten: no ends, no arrows (also `onMouseLeave`). */
  function Released(c: Carousel): (r: Carousel)
    ensures r.touchStart.None? && r.touchEnd.None? && !r.swipingLeft && !r.swipingRight
    ensures r.index == c.index && r.playing == c.playing
  {
    c.(touchStart := None, touchEnd := None, swipingLeft := false, swipingRight := false)
  }

  /** The slide a finished gesture from `start` to `end` leads to. */
  function Swiped(c: Carousel, count: nat, start: int, end: int): (r: Carousel)
    ensures r.(index := c.index) == c
    ensures count <= 1 || -SwipeDistance <= start - end <= SwipeDistance ==> r == c
    ensures count > 1 && start - end > SwipeDistance ==> r == GoToNext(c, count)
    ensures count > 1 && start - end < -SwipeDistance ==> r == GoToPrevious(c, count)
  {
    var distance := start - end;
    if distance > SwipeDistance && count > 1 then GoToNext(c, count)
    else if distance < -SwipeDistance && count > 1 then GoToPrevious(c, count)
    else c
  }

  /**
    `handleTouchEnd` and `handleMouseUp` as written: nothing at all unless
    both ends are truthy, so a gesture that starts or ends at pixel 0 is
    ignored and stays armed; otherwise the swipe is applied and the
    gesture forgotten.
  */
  function EndGesture(c: Carousel, count: nat): (r: Carousel)
    ensures !Truthy(c.touchStart) || !Truthy(c.touchEnd) ==> r == c
    ensures Truthy(c.touchStart) && Truthy(c.touchEnd) ==>
      r == Released(Swiped(c, count, c.touchStart.value, c.touchEnd.value))
  {
    if !Truthy(c.touchStart) || !Truthy(c.touchEnd) then c
    else Released(Swiped(c, count, c.touchStart.value, c.touchEnd.value))
  }

  /** A long swipe released on the screen's left edge (pixel 0) does not move the carousel. */
  lemma EdgeReleaseIgnored()
    ensures var c := TouchMove(PointerDown(Initial, 100), 0);
      && c.swipingLeft
      && EndGesture(c, 3).index == 0
      && EndGesture(c, 3).touchStart == Some(100)
      && EndGesture(c, 3).swipingLeft
  {
  }

  /** The gesture's end as intended: a missing end is `null`, not a zero coordinate. */
  function EndGestureChecked(c: Carousel, count: nat): (r: Carousel)
    ensures c.touchStart.None? || c.touchEnd.None? ==> r == Released(c)
    ensures c.touchStart.Some? && c.touchEnd.Some? ==>
      r == Released(Swiped(c, count, c.touchStart.value, c.touchEnd.value))
  {
    if c.touchStart.None? || c.touchEnd.None? then Released(c)
    else Released(Swiped(c, count, c.touchStart.value, c.touchEnd.value))
  }

  /**
    With the intended test every gesture ends forgotten, every swipe
    longer than 50 pixels moves exactly one slide wherever it is made, and
    away from pixel 0 it agrees with the handler as written.
  */
  lemma EveryLongSwipeMoves(c: Carousel, count: nat, start: int, end: int)
    requires count > 1 && 0 <= c.index < count
    ensures var e := EndGestureChecked(PointerDown(c, start).(touchEnd := Some(end)), count);
      && e.touchStart.None? && e.touchEnd.None? && !e.swipingLeft && !e.swipingRight
      && (start - end > SwipeDistance ==> e.index == (c.index + 1) % count)
      && (start - end < -SwipeDistance ==> e.index == (c.index + count - 1) % count)
      && (-SwipeDistance <= start - end <= SwipeDistance ==> e.index == c.index)
    ensures start != 0 && end != 0 ==>
      EndGestureChecked(PointerDown(c, start).(touchEnd := Some(end)), count) ==
      EndGesture(PointerDown(c, start).(touchEnd := Some(end)), count)
  {
  }

  /** A drag with the mouse from `a` to `b` away from pixel 0 moves like the touch swipe. */
  lemma MouseDragIsASwipe(c: Carousel, count: nat, a: int, b: int)
    requires count > 1 && a != 0 && b != 0
    ensures EndGesture(MouseMove(PointerDown(c, a), b), count) == EndGesture(TouchMove(PointerDown(c, a), b), count)
  {
  }

  /** Every handler keeps the slide in range and at most one arrow lit. */
  lemma HandlersKeepValid(c: Carousel, count: nat, x: int, slide: int)
    requires Valid(c, count)
    ensures count >= 1 ==> Valid(GoToNext(c, count), count) && Valid(GoToPrevious(c, count), count)
    ensures 0 <= slide < count ==> Valid(GoToSlide(c, slide), count)
    ensures Valid(TogglePlayPause(c), count) && Valid(Tick(c, count), count)
    ensures Valid(PointerDown(c, x), count) && Valid(TouchMove(c, x), count) && Valid(MouseMove(c, x), count)
    ensures Valid(EndGesture(c, count), count) && Valid(EndGestureChecked(c, count), count)
    ensures Valid(Released(c), count) && Valid(Initial, count)
  {
  }
}

=== FILE: image_storage.dfy ===
/**
  The image storage service: uploading a house image into the
  `house-images` bucket under a cleaned folder name, with a base64 data
  URL as the fallback whenever storage is unavailable or refuses the
  upload; uploading several images in turn; and deleting an image by its
  public URL, or a whole folder.

  Whether storage is configured, whether a client can be created, what
  each storage call answers, the clock and what the file reader produces
  are parameters. The public URL of a stored object is the storage
  library's business; the model takes it to be a base address followed by
  `/house-images/` and the object's path.
*/
module ImageStorage {
  import opened Options
  import opened Strings
  import opened Seqs
  import opened Uploads

  const Bucket := "house-images"
  const NotAnImageError := "กรุณาเลือกไฟล์รูปภาพเท่านั้น"
  const TooLargeError := "ขนาดไฟล์ต้องไม่เกิน 5MB"
  const ReadError := "ไม่สามารถอ่านไฟล์ได้"
  const FileErrorPrefix := "เกิดข้อผิดพลาดกับไฟล์ "

  // ---------------------------------------------------------------------------
  // Cleaning a folder name

  /** Characters `[\w\s-]`, the ones the first pass keeps. */
  predicate KeptByFirstPass(c: char) {
    IsWordChar(c) || IsJsSpace(c) || c == '-'
  }

  /** Characters a cleaned folder name is made of: `[a-z0-9_-]`. */
  predicate FolderChar(c: char) {
    IsAsciiLower(c) || IsDigit(c) || c == '_' || c == '-'
  }

  predicate NoDoubleUnderscore(s: string) {
    forall i :: 0 <= i < |s| - 1 ==> !(s[i] == '_' && s[i + 1] == '_')
  }

  /** No `_` at either end. */
  predicate UnderscoreFreeEnds(s: string) {
    |s| == 0 || (s[0] != '_' && s[|s| - 1] != '_')
  }

  /** What a cleaned folder name looks like. */
  predicate CleanFolder(s: string) {
    && (forall i :: 0 <= i < |s| ==> FolderChar(s[i]))
    && NoDoubleUnderscore(s)
    && UnderscoreFreeEnds(s)
  }

  /** `.replace(/[^\w\s-]/g, '')` */
  function StripDisallowed(s: string): (r: string)
    ensures forall i :: 0 <= i < |r| ==> KeptByFirstPass(r[i])
  {
    var r := Filter(s, KeptByFirstPass);
    assert forall i :: 0 <= i < |r| ==> r[i] in r;
    r
  }

  /** Characters `[\w-]`: what is left once white space is gone. */
  predicate WordOrDash(s: string) {
    forall i :: 0 <= i < |s| ==> IsWordChar(s[i]) || s[i] == '-'
  }

  /** `.replace(/\s+/g, '_')`; `afterSpace` says the previous character was white space. */
  function SpaceRunsToUnderscore(s: string, afterSpace: bool): (r: string)
    ensures (forall i :: 0 <= i < |s| ==> KeptByFirstPass(s[i])) ==> WordOrDash(r)
  {
    if |s| == 0 then ""
    else if IsJsSpace(s[0]) then (if afterSpace then "" else "_") + SpaceRunsToUnderscore(s[1..], true)
    else [s[0]] + SpaceRunsToUnderscore(s[1..], false)
  }

  /** `.replace(/_{2,}/g, '_')`; `afterUnderscore` says the previous character was `_`. */
  function CollapseUnderscores(s: string, afterUnderscore: bool): (r: string)
    ensures forall i :: 0 <= i < |r| ==> r[i] in s
    ensures NoDoubleUnderscore(r)
    ensures afterUnderscore ==> |r| == 0 || r[0] != '_'
  {
    if |s| == 0 then ""
    else
      var rest := CollapseUnderscores(s[1..], s[0] == '_');
      var r := if s[0] == '_' then (if afterUnderscore then "" else "_") + rest else [s[0]] + rest;
      assert forall i :: 1 <= i < |r| ==> r[i] == rest[i - 1] || (s[0] == '_' && afterUnderscore);
      r
  }

  /** `.replace(/^_|_$/g, '')`: one `_` off the front, then one off the back of what is left. */
  function TrimUnderscoreEnds(s: string): (r: string)
    ensures forall i :: 0 <= i < |r| ==> r[i] in s
    ensures NoDoubleUnderscore(s) ==> NoDoubleUnderscore(r) && UnderscoreFreeEnds(r)
  {
    var a := if |s| > 0 && s[0] == '_' then s[1..] else s;
    var r := if |a| > 0 && a[|a| - 1] == '_' then a[..|a| - 1] else a;
    assert forall i :: 0 <= i < |r| ==> r[i] == s[i + |s| - |a|];
    r
  }

  /**
    The folder-name cleaning of the upload and the folder deletion: drop
    everything but ASCII letters, digits, `_`, `-` and white space; turn
    each run of white space into `_`; collapse runs of `_`; drop `_` at
    the ends; lower-case.
  */
  function CleanFolderName(name: string): (r: string)
    ensures CleanFolder(r)
  {
    var a := StripDisallowed(name);
    var b := SpaceRunsToUnderscore(a, false);
    var c := CollapseUnderscores(b, false);
    CharsFrom(c, b);
    var d := TrimUnderscoreEnds(c);
    CharsFrom(d, c);
    LowerKeepsClean(d);
    AsciiLower(d)
  }

  /** A string made of characters of a `[\w-]` string is one too. */
  lemma CharsFrom(r: string, s: string)
    requires forall i :: 0 <= i < |r| ==> r[i] in s
    requires WordOrDash(s)
    ensures WordOrDash(r)
  {
    forall i | 0 <= i < |r|
      ensures IsWordChar(r[i]) || r[i] == '-'
    {
      var j :| 0 <= j < |s| && s[j] == r[i];
    }
  }

  /** Lower-casing a `[\w-]` name with no doubled or outer `_` gives a cleaned name. */
  lemma LowerKeepsClean(d: string)
    requires WordOrDash(d) && NoDoubleUnderscore(d) && UnderscoreFreeEnds(d)
    ensures CleanFolder(AsciiLower(d))
  {
    var r := AsciiLower(d);
    forall i | 0 <= i < |r|
      ensures FolderChar(r[i]) && (r[i] == '_' <==> d[i] == '_')
    {
      LowerWordChar(d[i]);
    }
  }

  lemma LowerWordChar(c: char)
    requires IsWordChar(c) || c == '-'
    ensures FolderChar(LowerChar(c)) && (LowerChar(c) == '_' <==> c == '_')
  {
  }

  lemma {:induction false} SpaceRunsWithoutSpaces(s: string, afterSpace: bool)
    requires forall i :: 0 <= i < |s| ==> !IsJsSpace(s[i])
    ensures SpaceRunsToUnderscore(s, afterSpace) == s
  {
    if |s| > 0 {
      SpaceRunsWithoutSpaces(s[1..], false);
    }
  }

  lemma {:induction false} CollapseWithoutDoubles(s: string, afterUnderscore: bool)
    requires NoDoubleUnderscore(s)
    requires afterUnderscore ==> |s| == 0 || s[0] != '_'
    ensures CollapseUnderscores(s, afterUnderscore) == s
  {
    if |s| > 0 {
      CollapseWithoutDoubles(s[1..], s[0] == '_');
    }
  }

  lemma FolderCharFacts(c: char)
    requires FolderChar(c)
    ensures KeptByFirstPass(c) && !IsJsSpace(c) && LowerChar(c) == c
  {
  }

  /** A cleaned name is left as it is by the cleaning. */
  lemma CleanFolderFixed(s: string)
    requires CleanFolder(s)
    ensures CleanFolderName(s) == s
  {
    assert StripDisallowed(s) == s by {
      forall i | 0 <= i < |s| ensures KeptByFirstPass(s[i]) {
        FolderCharFacts(s[i]);
      }
      FilterAll(s, KeptByFirstPass);
    }
    assert SpaceRunsToUnderscore(s, false) == s by {
      forall i | 0 <= i < |s| ensures !IsJsSpace(s[i]) {
        FolderCharFacts(s[i]);
      }
      SpaceRunsWithoutSpaces(s, false);
    }
    assert CollapseUnderscores(s, false) == s by {
      CollapseWithoutDoubles(s, false);
    }
    assert AsciiLower(s) == s by {
      forall i | 0 <= i < |s| ensures LowerChar(s[i]) == s[i] {
        FolderCharFacts(s[i]);
      }
    }
  }

  /** Cleaning a cleaned name changes nothing. */
  lemma CleanFolderNameIdempotent(name: string)
    ensures CleanFolderName(CleanFolderName(name)) == CleanFolderName(name)
  {
    CleanFolderFixed(CleanFolderName(name));
  }

  // ---------------------------------------------------------------------------
  // Paths

  /** `houses/<clean>`: the folder a listing's images go to. */
  function FolderPath(folderName: string): string {
    "houses/" + CleanFolderName(folderName)
  }

  /** `file.name.split('.').pop()`: the text after the last dot, or the whole name. */
  function Extension(fileName: string): (r: string)
    ensures '.' !in r
  {
    var parts := Split(fileName, '.');
    parts[|parts| - 1]
  }

  /** `${Date.now()}_${imageIndex}.${fileExtension}` */
  function StoredFileName(now: int, index: int, fileName: string): (r: string) {
    IntToString(now) + "_" + IntToString(index) + "." + Extension(fileName)
  }

  /** `houses/${cleanFolderName}/${fileName}` */
  function UploadPath(folderName: string, now: int, index: int, fileName: string): (r: string)
    ensures IsPrefix(FolderPath(folderName) + "/", r)
    ensures r[|FolderPath(folderName)| + 1..] == StoredFileName(now, index, fileName)
  {
    var r := FolderPath(folderName) + "/" + StoredFileName(now, index, fileName);
    assert r[..|FolderPath(folderName)| + 1] == FolderPath(folderName) + "/";
    r
  }

  /** The public URL of a stored object under the storage base address. */
  function PublicUrl(base: string, path: string): string {
    base + "/" + Bucket + "/" + path
  }

  // ---------------------------------------------------------------------------
  // uploadHouseImage

  /** What storage and the browser answer to one upload. */
  datatype Storage = Storage(
    configured: bool,         // the storage URL and key are set
    clientAvailable: bool,    // a client could be created
    uploadOk: bool,           // the bucket accepted the object
    base: string,             // the base of the public URLs
    encoded: Option<string>)  // the file as a data URL payload, None when the reader fails

  datatype UploadResult = UploadResult(success: bool, url: Option<string>, error: Option<string>)

  /** One upload: its result and the object path written, if any. */
  datatype Upload = Upload(result: UploadResult, stored: Option<string>)

  /** `uploadImageFallback`: the file as a base64 data URL. */
  function Fallback(encoded: Option<string>): (r: UploadResult)
    ensures r.success <==> encoded.Some?
    ensures r.success ==> r.url == Some("data:" + encoded.value) && r.error.None?
    ensures !r.success ==> r.url.None? && r.error == Some(ReadError)
  {
    if encoded.Some? then UploadResult(true, Some("data:" + encoded.value), None)
    else UploadResult(false, None, Some(ReadError))
  }

  /**
    `uploadHouseImage(file, folderName, imageIndex)`: a file that is not an
    image or is over 5 MB fails before storage is touched; when storage is
    not configured, no client is available or the upload fails, the image
    becomes a data URL; otherwise it is stored under the folder and its
    public URL returned.
  */
  function UploadHouseImage(file: File, folderName: string, index: int, now: int, env: Storage): (u: Upload)
    ensures !IsImage(file) ==> u == Upload(UploadResult(false, None, Some(NotAnImageError)), None)
    ensures IsImage(file) && !Acceptable(file) ==> u == Upload(UploadResult(false, None, Some(TooLargeError)), None)
    ensures u.stored.Some? <==> Acceptable(file) && env.configured && env.clientAvailable && env.uploadOk
    ensures u.stored.Some? ==>
      && u.stored.value == UploadPath(folderName, now, index, file.name)
      && u.result == UploadResult(true, Some(PublicUrl(env.base, u.stored.value)), None)
    ensures Acceptable(file) && u.stored.None? ==> u.result == Fallback(env.encoded)
  {
    if !IsImage(file) then Upload(UploadResult(false, None, Some(NotAnImageError)), None)
    else if file.size > MaxFileSize then Upload(UploadResult(false, None, Some(TooLargeError)), None)
    else if !env.configured || !env.clientAvailable || !env.uploadOk then Upload(Fallback(env.encoded), None)
    else
      var path := UploadPath(folderName, now, index, file.name);
      Upload(UploadResult(true, Some(PublicUrl(env.base, path)), None), Some(path))
  }

  // ---------------------------------------------------------------------------
  // uploadMultipleHouseImages

  /** `result.success && result.url`: a non-empty URL came back. */
  predicate Delivered(r: UploadResult) {
    r.success && r.url.Some? && r.url.value != ""
  }

  /** The error recorded for a file that was not delivered. */
  function ErrorFor(r: UploadResult, file: File): string {
    if r.error.Some? && r.error.value != "" then r.error.value else FileErrorPrefix + file.name
  }

  /** The results of uploading each file in turn, file `i` with index `i + 1`. */
  function Results(files: seq<File>, folderName: string, clock: nat -> int, env: nat -> Storage): (rs: seq<UploadResult>)
    ensures |rs| == |files|
    ensures forall i :: 0 <= i < |files| ==> rs[i] == UploadHouseImage(files[i], folderName, i + 1, clock(i), env(i)).result
  {
    seq(|files|, i requires 0 <= i < |files| => UploadHouseImage(files[i], folderName, i + 1, clock(i), env(i)).result)
  }

  /** The URLs of the delivered results, in order. */
  function UrlsOf(rs: seq<UploadResult>): (urls: seq<string>)
    ensures |urls| <= |rs|
  {
    if |rs| == 0 then []
    else UrlsOf(rs[..|rs| - 1]) + (if Delivered(rs[|rs| - 1]) then [rs[|rs| - 1].url.value] else [])
  }

  /** The errors of the other results, in order. */
  function ErrorsOf(rs: seq<UploadResult>, files: seq<File>): (errors: seq<string>)
    requires |rs| == |files|
    ensures |UrlsOf(rs)| + |errors| == |rs|
    ensures |errors| == 0 <==> forall i :: 0 <= i < |rs| ==> Delivered(rs[i])
  {
    if |rs| == 0 then []
    else
      var n := |rs| - 1;
      var errors := ErrorsOf(rs[..n], files[..n]) + (if Delivered(rs[n]) then [] else [ErrorFor(rs[n], files[n])]);
      assert forall i :: 0 <= i < n ==> rs[..n][i] == rs[i];
      errors
  }

  /**
    `uploadMultipleHouseImages(files, folderName)`: every file is tried;
    each is either a URL or an error, and the batch succeeds only when
    none failed.
  */
  method UploadMultipleHouseImages(files: seq<File>, folderName: string, clock: nat -> int, env: nat -> Storage)
    returns (success: bool, urls: seq<string>, errors: seq<string>)
    ensures |urls| + |errors| == |files|
    ensures success <==> forall i :: 0 <= i < |files| ==> Delivered(UploadHouseImage(files[i], folderName, i + 1, clock(i), env(i)).result)
    ensures urls == UrlsOf(Results(files, folderName, clock, env))
    ensures errors == ErrorsOf(Results(files, folderName, clock, env), files)
  {
    var rs := Results(files, folderName, clock, env);
    success, urls, errors := true, [], [];
    var i := 0;
    while i < |files|
      invariant 0 <= i <= |files|
      invariant urls == UrlsOf(rs[..i])
      invariant errors == ErrorsOf(rs[..i], files[..i])
      invariant success <==> |errors| == 0
    {
      var result := rs[i];
      ResultsStep(rs, files, i);
      if Delivered(result) {
        urls := urls + [result.url.value];
      } else {
        success := false;
        errors := errors + [ErrorFor(result, files[i])];
      }
      i := i + 1;
    }
    assert rs[..i] == rs && files[..i] == files;
  }

  /** One more result extends the URLs or the errors by what it gives. */
  lemma ResultsStep(rs: seq<UploadResult>, files: seq<File>, i: nat)
    requires |rs| == |files| && i < |rs|
    ensures UrlsOf(rs[..i + 1]) == UrlsOf(rs[..i]) + (if Delivered(rs[i]) then [rs[i].url.value] else [])
    ensures ErrorsOf(rs[..i + 1], files[..i + 1]) ==
      ErrorsOf(rs[..i], files[..i]) + (if Delivered(rs[i]) then [] else [ErrorFor(rs[i], files[i])])
  {
    assert rs[..i + 1][..i] == rs[..i];
    assert files[..i + 1][..i] == files[..i];
  }

  // ---------------------------------------------------------------------------
  // deleteHouseImage

  /** `parts.findIndex(part => part === x)` */
  function FirstIndexOf(parts: seq<string>, x: string): (r: Option<nat>)
    ensures r.None? <==> x !in parts
    ensures r.Some? ==> r.value < |parts| && parts[r.value] == x && x !in parts[..r.value]
  {
    if |parts| == 0 then None
    else if parts[0] == x then Some(0)
    else
      var r := FirstIndexOf(parts[1..], x);
      if r.None? then None
      else
        assert parts[..r.value + 1] == [parts[0]] + parts[1..][..r.value];
        Some(r.value + 1)
  }

  /** The object path in a URL: the segments after the first bucket segment, joined by `/`. */
  function ObjectPath(url: string): (r: Option<string>)
    ensures r.None? <==> Bucket !in Split(url, '/')
  {
    var parts := Split(url, '/');
    match FirstIndexOf(parts, Bucket)
    case None => None
    case Some(b) => Some(Join(parts[b + 1..], '/'))
  }

  /** The result of `deleteHouseImage` and the path it asked storage to remove. */
  datatype Deletion = Deletion(ok: bool, removed: Option<string>)

  /**
    `deleteHouseImage(imageUrl)`: a data URL or a missing client counts
    as deleted without any call; a URL without a bucket segment fails;
    otherwise the object path is removed and the answer is whether
    storage accepted the removal.
  */
  function DeleteHouseImage(url: string, clientAvailable: bool, removeOk: bool): (d: Deletion)
    ensures IsPrefix("data:", url) ==> d == Deletion(true, None)
    ensures !IsPrefix("data:", url) && !clientAvailable ==> d == Deletion(true, None)
    ensures !IsPrefix("data:", url) && clientAvailable && ObjectPath(url).None? ==> d == Deletion(false, None)
    ensures d.removed.Some? <==> !IsPrefix("data:", url) && clientAvailable && ObjectPath(url).Some?
    ensures d.removed.Some? ==> d.removed == ObjectPath(url) && d.ok == removeOk
  {
    if IsPrefix("data:", url) then Deletion(true, None)
    else if !clientAvailable then Deletion(true, None)
    else match ObjectPath(url)
      case None => Deletion(false, None)
      case Some(path) => Deletion(removeOk, Some(path))
  }

  /** Splitting at a separator splits each side. */
  lemma {:induction false} SplitConcat(a: string, b: string, sep: char)
    ensures Split(a + [sep] + b, sep) == Split(a, sep) + Split(b, sep)
  {
    var x := a + [sep] + b;
    if |a| == 0 {
      assert x == [sep] + b && x[0] == sep && x[1..] == b;
    } else {
      assert x[0] == a[0] && x[1..] == a[1..] + [sep] + b;
      SplitConcat(a[1..], b, sep);
      var ra := Split(a[1..], sep);
      if a[0] == sep {
        assert Split(x, sep) == [""] + (ra + Split(b, sep));
      } else {
        var rest := ra + Split(b, sep);
        assert rest[0] == ra[0] && rest[1..] == ra[1..] + Split(b, sep);
        assert Split(x, sep) == [[a[0]] + ra[0]] + (ra[1..] + Split(b, sep));
      }
    }
  }

  /** A text without the separator is a single part. */
  lemma {:induction false} SplitWithoutSeparator(s: string, sep: char)
    requires sep !in s
    ensures Split(s, sep) == [s]
  {
    if |s| > 0 {
      assert s == [s[0]] + s[1..];
      assert s[0] != sep && sep !in s[1..];
      SplitWithoutSeparator(s[1..], sep);
    }
  }

  /** The segments of a public URL: the base's, the bucket, the path's. */
  lemma SplitPublicUrl(base: string, path: string)
    ensures Split(PublicUrl(base, path), '/') == Split(base, '/') + [Bucket] + Split(path, '/')
  {
    BucketHasNoSlash();
    SplitAroundSegment(base, Bucket, path);
  }

  lemma BucketHasNoSlash()
    ensures '/' !in Bucket
  {
    forall i | 0 <= i < |Bucket| ensures Bucket[i] != '/' {
    }
  }

  /** A segment without the separator, between two separators, is one part. */
  lemma SplitAroundSegment(a: string, seg: string, b: string)
    requires '/' !in seg
    ensures Split(a + "/" + seg + "/" + b, '/') == Split(a, '/') + [seg] + Split(b, '/')
  {
    var tail := seg + ['/'] + b;
    assert a + "/" + seg + "/" + b == a + ['/'] + tail;
    SplitConcat(a, tail, '/');
    SplitConcat(seg, b, '/');
    SplitWithoutSeparator(seg, '/');
  }

  /** The first occurrence of `x` after a prefix without it is right after the prefix. */
  lemma {:induction false} FirstIndexAfter(xs: seq<string>, x: string, ys: seq<string>)
    requires x !in xs
    ensures FirstIndexOf(xs + [x] + ys, x) == Some(|xs|)
  {
    if |xs| > 0 {
      assert (xs + [x] + ys)[1..] == xs[1..] + [x] + ys;
      FirstIndexAfter(xs[1..], x, ys);
    }
  }

  /**
    Deleting by public URL removes exactly the stored path, provided the
    base address has no segment named like the bucket.
  */
  lemma ObjectPathOfPublicUrl(base: string, path: string)
    requires Bucket !in Split(base, '/')
    ensures ObjectPath(PublicUrl(base, path)) == Some(path)
  {
    var bs := Split(base, '/');
    SplitPublicUrl(base, path);
    FirstIndexAfter(bs, Bucket, Split(path, '/'));
    assert (bs + [Bucket] + Split(path, '/'))[|bs| + 1..] == Split(path, '/');
    JoinSplit(path, '/');
  }

  /**
    An image uploaded to storage and then deleted by its URL takes the
    object it created with it; an image that fell back to a data URL is
    deleted without a storage call.
  */
  lemma UploadThenDelete(file: File, folderName: string, index: int, now: int, env: Storage, clientAvailable: bool, removeOk: bool)
    requires Bucket !in Split(env.base, '/') && |env.base| >= 5 && env.base[..5] != "data:"
    requires UploadHouseImage(file, folderName, index, now, env).result.success
    ensures var u := UploadHouseImage(file, folderName, index, now, env);
      var d := DeleteHouseImage(u.result.url.value, clientAvailable, removeOk);
      && (u.stored.Some? && clientAvailable ==> d.removed == u.stored && d.ok == removeOk)
      && (u.stored.None? ==> d == Deletion(true, None))
  {
    var u := UploadHouseImage(file, folderName, index, now, env);
    if u.stored.Some? {
      DeleteStoredUrl(env.base, u.stored.value, clientAvailable, removeOk);
    } else {
      DeleteDataUrl(env.encoded.value, clientAvailable, removeOk);
    }
  }

  /** A public URL is deleted by removing its path. */
  lemma DeleteStoredUrl(base: string, path: string, clientAvailable: bool, removeOk: bool)
    requires Bucket !in Split(base, '/') && |base| >= 5 && base[..5] != "data:"
    ensures clientAvailable ==> DeleteHouseImage(PublicUrl(base, path), clientAvailable, removeOk) == Deletion(removeOk, Some(path))
  {
    var url := PublicUrl(base, path);
    PrefixOfConcat(base + "/" + Bucket + "/", path, 5);
    PrefixOfConcat(base + "/" + Bucket, "/", 5);
    PrefixOfConcat(base + "/", Bucket, 5);
    PrefixOfConcat(base, "/", 5);
    assert !IsPrefix("data:", url);
    ObjectPathOfPublicUrl(base, path);
    assert ObjectPath(url) == Some(path);
  }

  lemma PrefixOfConcat(a: string, b: string, n: nat)
    requires n <= |a|
    ensures (a + b)[..n] == a[..n]
  {
  }

  /** A data URL is deleted without any storage call. */
  lemma DeleteDataUrl(encoded: string, clientAvailable: bool, removeOk: bool)
    ensures DeleteHouseImage("data:" + encoded, clientAvailable, removeOk) == Deletion(true, None)
  {
    assert ("data:" + encoded)[..5] == "data:";
  }

  // ---------------------------------------------------------------------------
  // deleteHouseFolder

  /**
    `deleteHouseFolder(folderName)`: with a client, list the cleaned
    folder (`None` when listing fails) and remove every listed file; the
    answer is whether that all went through.
  */
  function DeleteHouseFolder(folderName: string, clientAvailable: bool, listing: Option<seq<string>>, removeOk: bool): (d: (bool, seq<string>))
    ensures !clientAvailable ==> d == (true, [])
    ensures clientAvailable && listing.None? ==> d == (false, [])
    ensures clientAvailable && listing.Some? ==>
      |d.1| == |listing.value| && forall i :: 0 <= i < |d.1| ==> d.1[i] == FolderPath(folderName) + "/" + listing.value[i]
    ensures clientAvailable && listing == Some([]) ==> d == (true, [])
    ensures clientAvailable && listing.Some? && |listing.value| > 0 ==> d.0 == removeOk
  {
    if !clientAvailable then (true, [])
    else if listing.None? then (false, [])
    else if |listing.value| == 0 then (true, [])
    else (removeOk, seq(|listing.value|, i requires 0 <= i < |listing.value| => FolderPath(folderName) + "/" + listing.value[i]))
  }

  /**
    Deleting a folder uses the same cleaning as uploading into it: a file
    uploaded for a folder name, once listed, is among the paths removed.
  */
  lemma FolderDeletionReachesUploads(folderName: string, now: int, index: int, fileName: string, listing: seq<string>, removeOk: bool)
    requires StoredFileName(now, index, fileName) in listing
    ensures UploadPath(folderName, now, index, fileName) in DeleteHouseFolder(folderName, true, Some(listing), removeOk).1
  {
    var i :| 0 <= i < |listing| && listing[i] == StoredFileName(now, index, fileName);
    var d := DeleteHouseFolder(folderName, true, Some(listing), removeOk);
    assert d.1[i] == UploadPath(folderName, now, index, fileName);
  }
}

=== FILE: image_uploader.dfy ===
/**
  The storage-backed picture picker (`ImageUploader`): the selected files
  that fit under the maximum (20 unless the parent says otherwise) are
  listed with a progress of 0, then uploaded one after another through
  `uploadHouseImage` under the house's folder ("temp" by default), file
  `i` of the batch numbered `images.length + i + 1`. A delivered file
  reaches 100 and its URL is reported to the parent; a failed one keeps
  the error it got. Removing a picture deletes a storage copy first.

  Each upload's clock and storage answer are parameters, as in
  `ImageStorage`. A listed file is found by its position in the list,
  which is what comparing `File` objects by identity amounts to.
*/
module ImageUploader {
  import opened Options
  import opened Strings
  import opened Seqs
  import opened Uploads
  import ImageStorage

  const DefaultMaxImages := 20
  const DefaultHouseId := "temp"
  const StartedProgress := 10
  const DoneProgress := 100

  /** A file in the uploading list: its progress in percent and the error it met, if any. */
  datatype Entry = Entry(file: File, progress: nat, error: Option<string>)

  /**
    The picker: its uploading list, the picture list the parent holds
    (the last list handed to `onImagesChange`) and the alerts shown.
  */
  datatype Picker = Picker(entries: seq<Entry>, parent: seq<string>, alerts: seq<string>)

  // ---------------------------------------------------------------------------
  // handleFileSelect

  function TooManyFilesAlert(max: int, remaining: int): string {
    "สามารถอัพโหลดได้สูงสุด " + IntToString(max) + " รูป (เหลือที่ว่าง " + IntToString(remaining) + " รูป)"
  }

  /** The files `handleFileSelect` passes on, and the alert it raises when some do not fit. */
  function Select(images: seq<string>, files: seq<File>, max: int): (r: (seq<File>, seq<string>))
    ensures r.0 == Slots(files, |images|, max)
    ensures |files| > max - |images| <==> r.1 == [TooManyFilesAlert(max, max - |images|)]
    ensures |files| <= max - |images| <==> r.1 == []
  {
    var alert := if |files| > max - |images| then [TooManyFilesAlert(max, max - |images|)] else [];
    (Slots(files, |images|, max), alert)
  }

  // ---------------------------------------------------------------------------
  // uploadFiles

  /** The answer `uploadHouseImage` gives file `i` of the batch. */
  function ResultOf(files: seq<File>, i: nat, images: seq<string>, houseId: string, clock: nat -> int, env: nat -> ImageStorage.Storage): ImageStorage.UploadResult
    requires i < |files|
  {
    ImageStorage.UploadHouseImage(files[i], houseId, |images| + i + 1, clock(i), env(i)).result
  }

  /** The answers for the whole batch, in order. */
  function ResultsOf(files: seq<File>, images: seq<string>, houseId: string, clock: nat -> int, env: nat -> ImageStorage.Storage): (rs: seq<ImageStorage.UploadResult>)
    ensures |rs| == |files|
    ensures forall i :: 0 <= i < |files| ==> rs[i] == ResultOf(files, i, images, houseId, clock, env)
  {
    seq(|files|, i requires 0 <= i < |files| => ResultOf(files, i, images, houseId, clock, env))
  }

  /** A listed file once its upload has answered: done, or stopped at 10 with the answer's error. */
  function Finished(f: File, r: ImageStorage.UploadResult): (e: Entry)
    ensures e.file == f
    ensures ImageStorage.Delivered(r) ==> e.progress == DoneProgress && e.error.None?
    ensures !ImageStorage.Delivered(r) ==> e.progress == StartedProgress && e.error == r.error
  {
    if ImageStorage.Delivered(r) then Entry(f, DoneProgress, None) else Entry(f, StartedProgress, r.error)
  }

  /** The batch's entries after the first `n` answers; the rest still wait at 0. */
  function BatchEntries(files: seq<File>, rs: seq<ImageStorage.UploadResult>, n: nat): (es: seq<Entry>)
    requires |rs| == |files| && n <= |files|
    ensures |es| == |files|
    ensures forall i :: 0 <= i < |files| ==> es[i].file == files[i]
  {
    seq(|files|, i requires 0 <= i < |files| => if i < n then Finished(files[i], rs[i]) else Entry(files[i], 0, None))
  }

  /** The URL of the last delivered answer, if any. */
  function LastUrl(rs: seq<ImageStorage.UploadResult>): (r: Option<string>)
    ensures r.None? <==> ImageStorage.UrlsOf(rs) == []
    ensures r.Some? ==> r.value == ImageStorage.UrlsOf(rs)[|ImageStorage.UrlsOf(rs)| - 1]
  {
    if |rs| == 0 then None
    else if ImageStorage.Delivered(rs[|rs| - 1]) then Some(rs[|rs| - 1].url.value)
    else LastUrl(rs[..|rs| - 1])
  }

  /**
    What the parent holds after the answers `rs`, as written: every
    delivered file calls `onImagesChange([...images, url])` with the
    `images` of the moment the batch started, so each call replaces the
    previous one and only the last URL survives.
  */
  function ParentAsWritten(parent: seq<string>, images: seq<string>, rs: seq<ImageStorage.UploadResult>): (r: seq<string>)
    ensures ImageStorage.UrlsOf(rs) == [] ==> r == parent
    ensures ImageStorage.UrlsOf(rs) != [] ==> r == images + [ImageStorage.UrlsOf(rs)[|ImageStorage.UrlsOf(rs)| - 1]]
  {
    match LastUrl(rs)
    case None => parent
    case Some(url) => images + [url]
  }

  /** What the parent holds after the answers as intended: every delivered URL appended in order. */
  function ParentIntended(images: seq<string>, rs: seq<ImageStorage.UploadResult>): (r: seq<string>)
    ensures |r| == |images| + |ImageStorage.UrlsOf(rs)|
    ensures r[..|images|] == images
  {
    var r := images + ImageStorage.UrlsOf(rs);
    assert r[..|images|] == images;
    r
  }

  /**
    `uploadFiles(files)` as written, file after file: the batch is listed
    at 0, each answer finishes its entry, and each delivered URL is
    reported with the batch's starting picture list.
  */
  method UploadFiles(p: Picker, images: seq<string>, files: seq<File>, houseId: string, clock: nat -> int, env: nat -> ImageStorage.Storage)
    returns (r: Picker)
    ensures r.entries == p.entries + BatchEntries(files, ResultsOf(files, images, houseId, clock, env), |files|)
    ensures r.parent == ParentAsWritten(p.parent, images, ResultsOf(files, images, houseId, clock, env))
    ensures r.alerts == p.alerts
  {
    var rs := ResultsOf(files, images, houseId, clock, env);
    r := p.(entries := p.entries + BatchEntries(files, rs, 0));
    var i := 0;
    while i < |files|
      invariant 0 <= i <= |files|
      invariant r.entries == p.entries + BatchEntries(files, rs, i)
      invariant r.parent == ParentAsWritten(p.parent, images, rs[..i])
      invariant r.alerts == p.alerts
    {
      var result := ImageStorage.UploadHouseImage(files[i], houseId, |images| + i + 1, clock(i), env(i)).result;
      assert result == rs[i];
      AnswerStep(p, images, files, rs, i, r);
      r := Answered(r, |p.entries| + i, files[i], images, result);
      i := i + 1;
    }
    assert rs[..i] == rs;
  }

  /** The picker once file `f`, listed at `at`, has its answer. */
  function Answered(r: Picker, at: nat, f: File, images: seq<string>, result: ImageStorage.UploadResult): Picker
    requires at < |r.entries|
  {
    var parent := if ImageStorage.Delivered(result) then images + [result.url.value] else r.parent;
    r.(entries := r.entries[at := Finished(f, result)], parent := parent)
  }

  /** Answering file `n` of the batch keeps the loop's account of the entries and the parent. */
  lemma AnswerStep(p: Picker, images: seq<string>, files: seq<File>, rs: seq<ImageStorage.UploadResult>, n: nat, r: Picker)
    requires |rs| == |files| && n < |files|
    requires r.entries == p.entries + BatchEntries(files, rs, n)
    requires r.parent == ParentAsWritten(p.parent, images, rs[..n])
    ensures var r' := Answered(r, |p.entries| + n, files[n], images, rs[n]);
      && r'.entries == p.entries + BatchEntries(files, rs, n + 1)
      && r'.parent == ParentAsWritten(p.parent, images, rs[..n + 1])
      && r'.alerts == r.alerts
  {
    ParentStep(p.parent, images, rs, n);
    BatchStep(p.entries, files, rs, n);
  }

  /** One more answer: a delivered URL replaces what the parent held by the starting list and that URL. */
  lemma ParentStep(parent: seq<string>, images: seq<string>, rs: seq<ImageStorage.UploadResult>, n: nat)
    requires n < |rs|
    ensures ImageStorage.Delivered(rs[n]) ==> ParentAsWritten(parent, images, rs[..n + 1]) == images + [rs[n].url.value]
    ensures !ImageStorage.Delivered(rs[n]) ==> ParentAsWritten(parent, images, rs[..n + 1]) == ParentAsWritten(parent, images, rs[..n])
  {
    assert rs[..n + 1][..n] == rs[..n];
    assert rs[..n + 1][n] == rs[n];
  }

  /** Answering file `n` finishes its entry and touches no other. */
  lemma BatchStep(before: seq<Entry>, files: seq<File>, rs: seq<ImageStorage.UploadResult>, n: nat)
    requires |rs| == |files| && n < |files|
    ensures (before + BatchEntries(files, rs, n))[|before| + n := Finished(files[n], rs[n])] == before + BatchEntries(files, rs, n + 1)
  {
    var a := (before + BatchEntries(files, rs, n))[|before| + n := Finished(files[n], rs[n])];
    var b := before + BatchEntries(files, rs, n + 1);
    assert |a| == |b|;
    forall k | 0 <= k < |a| ensures a[k] == b[k] {
      if k >= |before| {
        assert b[k] == BatchEntries(files, rs, n + 1)[k - |before|];
      }
    }
  }

  /** The parent's list as written and as intended agree while at most one file is delivered. */
  lemma ParentAgreesOnOneUpload(images: seq<string>, rs: seq<ImageStorage.UploadResult>)
    requires |ImageStorage.UrlsOf(rs)| == 1
    ensures ParentAsWritten(images, images, rs) == ParentIntended(images, rs)
  {
  }

  /** With two or more delivered files the parent as written loses every URL but the last. */
  lemma StaleListLosesUploads(parent: seq<string>, images: seq<string>, rs: seq<ImageStorage.UploadResult>)
    requires |ImageStorage.UrlsOf(rs)| >= 2
    ensures |ParentAsWritten(parent, images, rs)| == |images| + 1 < |ParentIntended(images, rs)|
  {
  }

  /** Two pictures whose upload falls back to data URLs: the parent ends up with only the second. */
  lemma TwoFallbackUploadsKeepOne()
    ensures var f := File("a.jpg", "image/jpeg", 1000);
      var env := (i: nat) => ImageStorage.Storage(false, false, false, "", Some(if i == 0 then "A" else "B"));
      var rs := ResultsOf([f, f], [], DefaultHouseId, (i: nat) => 0, env);
      && ImageStorage.UrlsOf(rs) == ["data:A", "data:B"]
      && ParentAsWritten([], [], rs) == ["data:B"]
      && ParentIntended([], rs) == ["data:A", "data:B"]
  {
    var f := File("a.jpg", "image/jpeg", 1000);
    assert IsPrefix("image/", f.mimeType);
    assert Acceptable(f);
    var env := (i: nat) => ImageStorage.Storage(false, false, false, "", Some(if i == 0 then "A" else "B"));
    var rs := ResultsOf([f, f], [], DefaultHouseId, (i: nat) => 0, env);
    assert env(0).encoded == Some("A") && !env(0).configured;
    assert env(1).encoded == Some("B") && !env(1).configured;
    assert "data:" + "A" == "data:A" by {
      assert forall k :: 0 <= k < 6 ==> ("data:" + "A")[k] == "data:A"[k];
    }
    assert "data:" + "B" == "data:B" by {
      assert forall k :: 0 <= k < 6 ==> ("data:" + "B")[k] == "data:B"[k];
    }
    assert rs[0] == ImageStorage.Fallback(Some("A"));
    assert rs[1] == ImageStorage.Fallback(Some("B"));
    assert rs[..1] == [rs[0]];
    assert rs[..1][..0] == [];
  }

  /**
    `uploadFiles` as intended: the same entries, with each URL appended to
    the parent's current list (`onImagesChange(prev => [...prev, url])`).
  */
  function UploadFilesIntended(p: Picker, files: seq<File>, houseId: string, clock: nat -> int, env: nat -> ImageStorage.Storage): (r: Picker)
    ensures r.entries == p.entries + BatchEntries(files, ResultsOf(files, p.parent, houseId, clock, env), |files|)
    ensures r.parent == ParentIntended(p.parent, ResultsOf(files, p.parent, houseId, clock, env))
    ensures r.alerts == p.alerts
  {
    var rs := ResultsOf(files, p.parent, houseId, clock, env);
    Picker(p.entries + BatchEntries(files, rs, |files|), ParentIntended(p.parent, rs), p.alerts)
  }

  /**
    Under the intended rule every delivered file's URL reaches the parent,
    the parent keeps its pictures in front, and a selection cut to the free
    places never takes it past the maximum.
  */
  lemma IntendedUploadKeepsEveryUrl(p: Picker, files: seq<File>, max: int, houseId: string, clock: nat -> int, env: nat -> ImageStorage.Storage)
    requires |p.parent| <= max
    ensures var batch := Select(p.parent, files, max).0;
      var r := UploadFilesIntended(p, batch, houseId, clock, env);
      && r.parent[..|p.parent|] == p.parent
      && r.parent[|p.parent|..] == ImageStorage.UrlsOf(ResultsOf(batch, p.parent, houseId, clock, env))
      && |r.parent| <= max
  {
    var batch := Select(p.parent, files, max).0;
    var r := UploadFilesIntended(p, batch, houseId, clock, env);
    assert |ImageStorage.UrlsOf(ResultsOf(batch, p.parent, houseId, clock, env))| <= |batch|;
  }

  // ---------------------------------------------------------------------------
  // Clearing entries and removing pictures

  /** `removeUploadingFile` and the one-second timer after a delivery: the entry leaves the list. */
  function ClearEntry(p: Picker, index: int): (r: Picker)
    ensures r.parent == p.parent && r.alerts == p.alerts
    ensures 0 <= index < |p.entries| ==> r.entries == p.entries[..index] + p.entries[index + 1..]
    ensures !(0 <= index < |p.entries|) ==> r == p
  {
    p.(entries := RemoveAt(p.entries, index))
  }

  /** The storage delete `removeImage` issues, and the parent's new list. */
  datatype Removal = Removal(deleted: Option<ImageStorage.Deletion>, images: seq<string>)

  /**
    `removeImage(index)`: a URL that mentions "supabase" is deleted from
    storage first (a failure is only logged); every picture but that one
    stays with the parent, in order.
  */
  function RemoveImage(images: seq<string>, index: nat, clientAvailable: bool, removeOk: bool): (r: Removal)
    requires index < |images|
    ensures r.deleted.Some? <==> Contains(images[index], "supabase")
    ensures r.deleted.Some? ==> r.deleted.value == ImageStorage.DeleteHouseImage(images[index], clientAvailable, removeOk)
    ensures r.images == images[..index] + images[index + 1..]
  {
    var deleted := if Contains(images[index], "supabase") then Some(ImageStorage.DeleteHouseImage(images[index], clientAvailable, removeOk)) else None;
    Removal(deleted, RemoveAt(images, index))
  }

  /**
    A picture stored under a storage address that mentions "supabase" is
    deleted from storage when it is removed, and the object removed is
    the one its upload wrote.
  */
  lemma StoredPictureLeavesStorage(base: string, path: string, images: seq<string>, index: nat, removeOk: bool)
    requires Contains(base, "supabase") && |base| >= 5 && base[..5] != "data:"
    requires ImageStorage.Bucket !in Split(base, '/')
    requires index < |images| && images[index] == ImageStorage.PublicUrl(base, path)
    ensures RemoveImage(images, index, true, removeOk).deleted == Some(ImageStorage.Deletion(removeOk, Some(path)))
  {
    PublicUrlKeepsBase(base, path, "supabase");
    ImageStorage.ObjectPathOfPublicUrl(base, path);
    var d := ImageStorage.DeleteHouseImage(images[index], true, removeOk);
    assert !IsPrefix("data:", images[index]);
    assert d == ImageStorage.Deletion(removeOk, Some(path));
  }

  /** A public URL begins with its base, so it mentions what the base mentions. */
  lemma PublicUrlKeepsBase(base: string, path: string, word: string)
    requires Contains(base, word) && |base| >= 5
    ensures Contains(ImageStorage.PublicUrl(base, path), word)
    ensures ImageStorage.PublicUrl(base, path)[..5] == base[..5]
  {
    var rest := "/" + ImageStorage.Bucket + "/" + path;
    ContainsInConcat("", base, rest, word);
    assert "" + base + rest == ImageStorage.PublicUrl(base, path);
  }
}

=== FILE: js_numbers.dfy ===
/**
  JavaScript's `parseFloat`, as section 19.2.4 of ECMA-262 defines it:
  leading white space is skipped, then the longest prefix that is a
  StrDecimalLiteral (an optional sign, then "Infinity" or digits with an
  optional fraction and exponent) is read; without such a prefix the
  answer is NaN.

  Values are exact reals: the rounding to the nearest double, and the
  overflow of a huge exponent to Infinity, are not modelled.
*/
module JsNumbers {
  import opened Strings

  /** A number as `parseFloat` can produce it. */
  datatype Float = NaN | Finite(value: real) | Infinite(negative: bool)

  /** Unary minus on such a number. */
  function Negate(f: Float): Float {
    match f
    case NaN => NaN
    case Finite(x) => Finite(-x)
    case Infinite(n) => Infinite(!n)
  }

  /**
    StrWhiteSpaceChar of section 7.1.4.1 of ECMA-262: the white space
    characters (tab, vertical tab, form feed, space, no-break space, the
    byte order mark and the other space separators) and the line
    terminators.
  */
  predicate IsStrWhiteSpace(c: char) {
    || c == '\t' || c == '\n' || c == '\r' || c == ' '
    || c == '\U{000B}' || c == '\U{000C}' || c == '\U{00A0}' || c == '\U{1680}'
    || ('\U{2000}' <= c <= '\U{200A}')
    || c == '\U{2028}' || c == '\U{2029}' || c == '\U{202F}' || c == '\U{205F}'
    || c == '\U{3000}' || c == '\U{FEFF}'
  }

  /** The text after its leading white space. */
  function TrimStart(s: string): (t: string)
    ensures |t| <= |s| && t == s[|s| - |t|..]
    ensures |t| > 0 ==> !IsStrWhiteSpace(t[0])
  {
    if |s| > 0 && IsStrWhiteSpace(s[0]) then TrimStart(s[1..]) else s
  }

  /** An optional leading sign and the text after it. */
  datatype Signed = Signed(negative: bool, rest: string)

  function SplitSign(t: string): (r: Signed)
    ensures r.negative <==> |t| > 0 && t[0] == '-'
    ensures |t| > 0 && (t[0] == '+' || t[0] == '-') ==> r.rest == t[1..]
    ensures !(|t| > 0 && (t[0] == '+' || t[0] == '-')) ==> r.rest == t
  {
    if |t| > 0 && (t[0] == '+' || t[0] == '-') then Signed(t[0] == '-', t[1..]) else Signed(false, t)
  }

  /** The text starts with "Infinity" (compared letter by letter). */
  predicate StartsInfinity(u: string) {
    && |u| >= 8 && u[0] == 'I' && u[1] == 'n' && u[2] == 'f' && u[3] == 'i'
    && u[4] == 'n' && u[5] == 'i' && u[6] == 't' && u[7] == 'y'
  }

  /** `m` times ten to the power `e`, one factor of ten at a time. */
  function Scale(m: real, e: int): (r: real)
    ensures m >= 0.0 ==> r >= 0.0
    ensures e == 0 ==> r == m
    decreases if e < 0 then -e else e
  {
    if e == 0 then m
    else if e > 0 then 10.0 * Scale(m, e - 1)
    else Scale(m, e + 1) / 10.0
  }

  /** The value of the digits after a decimal point. */
  function Fraction(d: string): (r: real)
    requires AllDigits(d)
    ensures r >= 0.0
    ensures |d| == 0 ==> r == 0.0
  {
    Scale(DigitsValue(d) as real, -|d|)
  }

  /**
    The exponent at the head of `s`: `e` or `E`, an optional sign and at
    least one digit. Without digits there is no exponent part, which reads
    as 0 and leaves the `e` unread.
  */
  function ExponentOf(s: string): int {
    if |s| < 2 || !(s[0] == 'e' || s[0] == 'E') then 0
    else
      var sg := SplitSign(s[1..]);
      var d := LeadingDigits(sg.rest);
      if |d| == 0 then 0
      else if sg.negative then -(DigitsValue(d) as int)
      else DigitsValue(d)
  }

  /** The text starts with a StrUnsignedDecimalLiteral. */
  predicate StartsNumeral(u: string) {
    || (|u| > 0 && IsDigit(u[0]))
    || (|u| > 1 && u[0] == '.' && IsDigit(u[1]))
    || StartsInfinity(u)
  }

  /**
    The pieces of a `digits[.digits][exponent]` numeral at the head of a
    text: the whole digits, the fraction digits, and the text after the
    fraction, where an exponent may start.
  */
  datatype Numeral = Numeral(whole: string, frac: string, tail: string)

  function SplitNumeral(u: string): (n: Numeral)
    ensures AllDigits(n.whole) && AllDigits(n.frac)
    ensures IsPrefix(n.whole, u)
    ensures |n.whole| == 0 <==> |u| == 0 || !IsDigit(u[0])
    ensures |n.whole| == 0 && |n.frac| > 0 ==> |u| > 1 && u[0] == '.' && IsDigit(u[1])
    ensures |u| > 1 && u[0] == '.' && IsDigit(u[1]) ==> |n.frac| > 0
  {
    var whole := LeadingDigits(u);
    var rest := u[|whole|..];
    if |rest| > 0 && rest[0] == '.' then
      var frac := LeadingDigits(rest[1..]);
      Numeral(whole, frac, rest[1 + |frac|..])
    else Numeral(whole, "", rest)
  }

  /** The value of a numeral's pieces, its exponent applied. */
  function ValueOf(n: Numeral): (r: real)
    requires AllDigits(n.whole) && AllDigits(n.frac)
    ensures r >= 0.0
  {
    Scale(DigitsValue(n.whole) as real + Fraction(n.frac), ExponentOf(n.tail))
  }

  /**
    The value of the longest StrUnsignedDecimalLiteral at the head of `u`:
    "Infinity", or `digits[.digits][exponent]` or `.digits[exponent]`.
  */
  function UnsignedPrefix(u: string): (r: Float)
    ensures r != NaN <==> StartsNumeral(u)
    ensures r.Infinite? <==> StartsInfinity(u)
    ensures r.Infinite? ==> !r.negative
    ensures r.Finite? ==> r.value >= 0.0
  {
    if StartsInfinity(u) then Infinite(false)
    else
      var n := SplitNumeral(u);
      if |n.whole| == 0 && |n.frac| == 0 then NaN
      else Finite(ValueOf(n))
  }

  /**
    `parseFloat(s)`: white space skipped, a sign applied, the numeral at the
    head read; NaN exactly when no numeral follows the white space and
    sign.
  */
  function ParseFloat(s: string): (r: Float)
    ensures r != NaN <==> StartsNumeral(SplitSign(TrimStart(s)).rest)
    ensures r.Infinite? <==> StartsInfinity(SplitSign(TrimStart(s)).rest)
    ensures r.Infinite? ==> (r.negative <==> SplitSign(TrimStart(s)).negative)
    ensures r.Finite? && !SplitSign(TrimStart(s)).negative ==> r.value >= 0.0
    ensures r.Finite? && SplitSign(TrimStart(s)).negative ==> r.value <= 0.0
  {
    var sg := SplitSign(TrimStart(s));
    var u := UnsignedPrefix(sg.rest);
    if sg.negative then Negate(u) else u
  }

  lemma {:induction false} TrimStartSkips(w: string, s: string)
    requires forall i :: 0 <= i < |w| ==> IsStrWhiteSpace(w[i])
    ensures TrimStart(w + s) == TrimStart(s)
  {
    if |w| > 0 {
      var ws := w + s;
      assert ws[0] == w[0];
      assert ws[1..] == w[1..] + s;
      assert TrimStart(ws) == TrimStart(ws[1..]);
      TrimStartSkips(w[1..], s);
    } else {
      assert w + s == s;
    }
  }

  /** Leading white space does not change what `parseFloat` reads. */
  lemma ParseFloatSkipsWhiteSpace(w: string, s: string)
    requires forall i :: 0 <= i < |w| ==> IsStrWhiteSpace(w[i])
    ensures ParseFloat(w + s) == ParseFloat(s)
  {
    TrimStartSkips(w, s);
  }

  /**
    A leading minus negates what the rest reads as, and a leading plus
    changes nothing.
  */
  lemma ParseFloatSigns(s: string)
    requires |s| > 0 && !IsStrWhiteSpace(s[0]) && s[0] != '+' && s[0] != '-'
    ensures ParseFloat("-" + s) == Negate(ParseFloat(s))
    ensures ParseFloat("+" + s) == ParseFloat(s)
  {
    assert ("-" + s)[1..] == s;
    assert ("+" + s)[1..] == s;
  }

  /** Digits stop at the first character that is not one. */
  lemma {:induction false} LeadingDigitsStop(d: string, t: string)
    requires AllDigits(d)
    requires |t| == 0 || !IsDigit(t[0])
    ensures LeadingDigits(d + t) == d
  {
    if |d| > 0 {
      assert (d + t)[1..] == d[1..] + t;
      LeadingDigitsStop(d[1..], t);
    }
  }

  /** A numeral of digits only is read as exactly its value. */
  lemma ParseFloatOfDigits(s: string)
    requires |s| > 0 && AllDigits(s)
    ensures ParseFloat(s) == Finite(DigitsValue(s) as real)
  {
    ReadsAsIs(s);
    DigitsUnsigned(s);
  }

  lemma DigitsUnsigned(s: string)
    requires |s| > 0 && AllDigits(s)
    ensures UnsignedPrefix(s) == Finite(DigitsValue(s) as real)
  {
    assert s + "" == s;
    WholeThenTail(s, "");
    assert !StartsInfinity(s);
    UnsignedOfNumeral(s, Numeral(s, "", ""));
    WholeValue(s);
  }

  /** A numeral of whole digits alone has their value. */
  lemma WholeValue(s: string)
    requires AllDigits(s)
    ensures ValueOf(Numeral(s, "", "")) == DigitsValue(s) as real
  {
    ValueWithoutExponent(Numeral(s, "", ""));
  }

  /** Without an exponent a numeral is its whole part plus its fraction. */
  lemma ValueWithoutExponent(n: Numeral)
    requires AllDigits(n.whole) && AllDigits(n.frac)
    requires |n.tail| == 0 || (n.tail[0] != 'e' && n.tail[0] != 'E') || (|n.tail| == 1)
    ensures ValueOf(n) == DigitsValue(n.whole) as real + Fraction(n.frac)
  {
    assert ExponentOf(n.tail) == 0;
  }

  /** Digits followed by neither a digit nor a point split into the digits and the rest. */
  lemma WholeThenTail(d: string, t: string)
    requires |d| > 0 && AllDigits(d)
    requires |t| == 0 || (!IsDigit(t[0]) && t[0] != '.')
    ensures SplitNumeral(d + t) == Numeral(d, "", t)
  {
    LeadingDigitsStop(d, t);
    assert (d + t)[|d|..] == t;
  }

  /** A text that is no "Infinity" and splits into a non-empty numeral reads as its value. */
  lemma UnsignedOfNumeral(u: string, n: Numeral)
    requires !StartsInfinity(u) && SplitNumeral(u) == n
    requires |n.whole| > 0 || |n.frac| > 0
    ensures UnsignedPrefix(u) == Finite(ValueOf(n))
  {
  }

  /** Text that starts with a digit is read from its first character, unsigned. */
  lemma ReadsAsIs(s: string)
    requires |s| > 0 && IsDigit(s[0])
    ensures ParseFloat(s) == UnsignedPrefix(s)
    ensures !StartsInfinity(s)
  {
    assert !IsStrWhiteSpace(s[0]);
    assert TrimStart(s) == s;
    assert SplitSign(s) == Signed(false, s);
  }

  /** `whole.frac` is read as the whole part plus the fraction. */
  lemma ParseFloatOfDecimal(whole: string, frac: string)
    requires |whole| > 0 && AllDigits(whole) && AllDigits(frac)
    ensures ParseFloat(whole + "." + frac) == Finite(DigitsValue(whole) as real + Fraction(frac))
  {
    var s := whole + "." + frac;
    assert s == whole + ("." + frac);
    assert s[0] == whole[0];
    ReadsAsIs(s);
    LeadingDigitsStop(whole, "." + frac);
    var rest := s[|whole|..];
    assert rest == "." + frac;
    assert rest[1..] == frac;
    LeadingDigitsStop(frac, "");
    assert frac + "" == frac;
    assert rest[1 + |frac|..] == "";
    assert SplitNumeral(s) == Numeral(whole, frac, "");
    assert ValueOf(Numeral(whole, frac, "")) == DigitsValue(whole) as real + Fraction(frac);
  }

  /** A fraction without a whole part is read. */
  lemma LeadingPointExample()
    ensures ParseFloat(".5") == Finite(0.5)
  {
    var s := ".5";
    assert TrimStart(s) == s;
    assert SplitSign(s) == Signed(false, s);
    assert !StartsInfinity(s);
    assert LeadingDigits(s) == "";
    assert LeadingDigits("5") == "5";
    assert SplitNumeral(s) == Numeral("", "5", "");
    assert Fraction("5") == 0.5;
  }

  /** `whole` followed by `e` and digits is scaled by that power of ten. */
  lemma ParseFloatWithExponent(whole: string, e: string)
    requires |whole| > 0 && AllDigits(whole) && |e| > 0 && AllDigits(e)
    ensures ParseFloat(whole + "e" + e) == Finite(Scale(DigitsValue(whole) as real, DigitsValue(e)))
  {
    var s := whole + "e" + e;
    assert s == whole + ("e" + e);
    assert s[0] == whole[0];
    ReadsAsIs(s);
    WholeThenTail(whole, "e" + e);
    UnsignedOfNumeral(s, Numeral(whole, "", "e" + e));
    ExponentDigits(e);
    WholeScaled(whole, "e" + e);
  }

  /** `e` and digits read as the value of the digits. */
  lemma ExponentDigits(e: string)
    requires |e| > 0 && AllDigits(e)
    ensures ExponentOf("e" + e) == DigitsValue(e)
  {
    assert ("e" + e)[1..] == e;
    assert SplitSign(e) == Signed(false, e);
    LeadingDigitsStop(e, "");
    assert e + "" == e;
  }

  lemma WholeScaled(whole: string, tail: string)
    requires AllDigits(whole)
    ensures ValueOf(Numeral(whole, "", tail)) == Scale(DigitsValue(whole) as real, ExponentOf(tail))
  {
    assert Fraction("") == 0.0;
  }

  /** An `e` without digits after it is not read. */
  lemma ParseFloatBareExponent(whole: string)
    requires |whole| > 0 && AllDigits(whole)
    ensures ParseFloat(whole + "e") == Finite(DigitsValue(whole) as real)
  {
    var s := whole + "e";
    assert s[0] == whole[0];
    ReadsAsIs(s);
    WholeThenTail(whole, "e");
    UnsignedOfNumeral(s, Numeral(whole, "", "e"));
    WholeScaled(whole, "e");
    assert ExponentOf("e") == 0;
  }

  /** "-Infinity" is read as negative infinity. */
  lemma InfinityExample(s: string)
    requires s == "-Infinity"
    ensures ParseFloat(s) == Infinite(true)
  {
    var w := s[1..];
    assert s == "-" + w;
    assert StartsInfinity(w);
    assert !IsStrWhiteSpace(w[0]);
    ParseFloatSigns(w);
    assert TrimStart(w) == w;
    assert SplitSign(w) == Signed(false, w);
  }

  /** A price that starts with a currency sign is NaN. */
  lemma CurrencySignExample()
    ensures ParseFloat("฿5") == NaN
  {
    assert TrimStart("฿5") == "฿5";
    assert SplitSign("฿5").rest == "฿5";
  }
}

=== FILE: json.dfy ===
/**
  JSON values as they travel between the browser and the server, with the
  JavaScript notions the application applies to them: truthiness (`x || d`,
  `if (x)`) and the lookups that read typed fields back out of an object.

  Numbers are integers: every numeric field of a listing (bedrooms,
  bathrooms, floors, parking spaces, view and contact counters, HTTP status
  codes) is integral.
*/
module Json {
  import opened Options

  datatype Json =
    | JNull
    | JStr(s: string)
    | JNum(n: int)
    | JBool(b: bool)
    | JArr(items: seq<Json>)
    | JObj(fields: map<string, Json>)

  /** JavaScript truthiness: `null`, `""`, `0` and `false` are falsy. */
  predicate Truthy(j: Json) {
    match j
    case JNull => false
    case JStr(s) => s != ""
    case JNum(n) => n != 0
    case JBool(b) => b
    case JArr(_) => true
    case JObj(_) => true
  }

  /** Looking a property up; an absent key reads as `undefined`. */
  function Get(obj: map<string, Json>, key: string): (r: Option<Json>)
    ensures r.Some? <==> key in obj
    ensures r.Some? ==> r.value == obj[key]
  {
    if key in obj then Some(obj[key]) else None
  }

  /** `obj.key` is neither `undefined` nor `null`. */
  predicate Present(obj: map<string, Json>, key: string) {
    key in obj && obj[key] != JNull
  }

  /** `obj.key` is truthy (an absent key is `undefined`, which is falsy). */
  predicate TruthyAt(obj: map<string, Json>, key: string) {
    key in obj && Truthy(obj[key])
  }

  /** `obj.key` holds a string, which is returned. */
  function StrAt(obj: map<string, Json>, key: string): (r: Option<string>)
    ensures r.Some? <==> key in obj && obj[key].JStr?
    ensures r.Some? ==> obj[key] == JStr(r.value)
  {
    if key in obj && obj[key].JStr? then Some(obj[key].s) else None
  }

  /** `obj.key` holds an array of strings, which are returned. */
  function StringsAt(obj: map<string, Json>, key: string): (r: Option<seq<string>>)
    ensures r.Some? <==> key in obj && obj[key].JArr? && forall i :: 0 <= i < |obj[key].items| ==> obj[key].items[i].JStr?
    ensures r.Some? ==> |r.value| == |obj[key].items|
    ensures r.Some? ==> forall i :: 0 <= i < |r.value| ==> obj[key].items[i] == JStr(r.value[i])
  {
    if key in obj && obj[key].JArr? && forall i :: 0 <= i < |obj[key].items| ==> obj[key].items[i].JStr? then
      var items := obj[key].items;
      Some(seq(|items|, i requires 0 <= i < |items| => items[i].s))
    else None
  }

  function StringArray(xs: seq<string>): (r: Json)
    ensures r.JArr? && |r.items| == |xs|
    ensures forall i :: 0 <= i < |xs| ==> r.items[i] == JStr(xs[i])
  {
    JArr(seq(|xs|, i requires 0 <= i < |xs| => JStr(xs[i])))
  }

  lemma StringArrayRoundTrip(key: string, xs: seq<string>, obj: map<string, Json>)
    requires key in obj && obj[key] == StringArray(xs)
    ensures StrAt(obj, key).None?
    ensures StringsAt(obj, key) == Some(xs)
  {
    var items := obj[key].items;
    assert forall i :: 0 <= i < |items| ==> items[i].JStr?;
    assert StringsAt(obj, key).value == xs;
  }
}

=== FILE: lifecycle.dfy ===
/**
  The write side of the listing service (`HouseSalesService`): `create`,
  `publish`, `update`, `remove`, `findOne`, `contactSeller` and
  `toggleFavorite`, each a pure step from a table state to an outcome and
  the next table state.

  The database is consulted and changed exactly as the service does it;
  the clock (`new Date()`) and the id the database assigns are parameters.
  The exceptions `NotFoundException` and `ForbiddenException` are the
  `NotFound` and `Forbidden` outcomes; on both the table is unchanged.
*/
module ListingLifecycle {
  import opened Options
  import opened Json
  import opened ListingStore

  /**
    What a service call ends with. `ServerError` is any other exception
    escaping the service (a `TypeError`, say), which Nest answers with 500.
  */
  datatype Outcome<T> = Ok(value: T) | NotFound | Forbidden | ServerError

  /** One service call: what it returns and the table state it leaves. */
  datatype Step<T> = Step(out: Outcome<T>, db: Db)

  /** The `{ success: true, data, message }` reply of the writing calls. */
  datatype Reply = Reply(data: Listing, message: string)

  const CreatedAndPublished := "House sale listing created and published successfully"
  const Saved := "House sale listing saved successfully"
  const AlreadyPublished := "House sale listing is already published"
  const PublishedNow := "House sale listing published successfully"
  const Updated := "House sale listing updated successfully"

  ghost predicate Consistent(db: Db) {
    DistinctIds(db.rows)
  }

  /** Every row of the new table that is not `id` is the row of the old one. */
  predicate OthersUnchanged(before: seq<Listing>, after: seq<Listing>, id: string) {
    |before| == |after| && forall i :: 0 <= i < |before| ==> before[i].id != id ==> after[i] == before[i]
  }

  // ---------------------------------------------------------------------------
  // create

  /** `dto.status || 'saved'` */
  function InitialStatus(body: map<string, Json>): (s: Json)
    ensures TruthyAt(body, "status") ==> s == body["status"]
    ensures !TruthyAt(body, "status") ==> s == JStr("saved")
    ensures Truthy(s)
  {
    if TruthyAt(body, "status") then body["status"] else JStr("saved")
  }

  /**
    `create(dto, userId)`: a new row holding the body's properties with
    `status` defaulted, `publishedAt` set exactly when the status is
    "published", owned by the caller. `newId` is the id the database
    assigns, fresh by the database's guarantee.
  */
  function Create(db: Db, body: map<string, Json>, userId: string, newId: string, now: int): (r: Step<Reply>)
    requires !HasId(db.rows, newId)
    ensures r.out.Ok?
    ensures r.db.rows == db.rows + [r.out.value.data] && r.db.favorites == db.favorites
    ensures r.out.value.data.id == newId && r.out.value.data.userId == userId
    ensures r.out.value.data.Status() == InitialStatus(body)
    ensures r.out.value.data.publishedAt.Some? <==> InitialStatus(body) == JStr("published")
    ensures r.out.value.data.publishedAt.Some? ==> r.out.value.data.publishedAt.value == now
    ensures forall k :: k in body && k != "status" ==> k in r.out.value.data.fields && r.out.value.data.fields[k] == body[k]
    ensures r.out.value.data.fields.Keys == body.Keys + {"status"}
    ensures r.out.value.data.views == 0 && r.out.value.data.contacts == 0
    ensures r.out.value.message == if r.out.value.data.Published() then CreatedAndPublished else Saved
  {
    var status := InitialStatus(body);
    var l := Listing(newId, userId, body["status" := status],
                     if status == JStr("published") then Some(now) else None,
                     now, now, 0, 0, None);
    Step(Ok(Reply(l, if status == JStr("published") then CreatedAndPublished else Saved)),
         Db(db.rows + [l], db.favorites))
  }

  lemma CreateKeepsInvariants(db: Db, body: map<string, Json>, userId: string, newId: string, now: int)
    requires Consistent(db) && AllPublishedAtConsistent(db.rows) && !HasId(db.rows, newId)
    ensures Consistent(Create(db, body, userId, newId, now).db)
    ensures AllPublishedAtConsistent(Create(db, body, userId, newId, now).db.rows)
  {
  }

  // ---------------------------------------------------------------------------
  // publish

  function MarkPublished(l: Listing, now: int): (p: Listing)
    ensures p.id == l.id && p.userId == l.userId
    ensures p.Published() && p.publishedAt == Some(now) && p.updatedAt == now
    ensures forall k :: k in l.fields && k != "status" ==> k in p.fields && p.fields[k] == l.fields[k]
    ensures p.fields.Keys == l.fields.Keys + {"status"}
    ensures p.createdAt == l.createdAt && p.views == l.views && p.contacts == l.contacts && p.priceNumeric == l.priceNumeric
  {
    l.(fields := l.fields["status" := JStr("published")], publishedAt := Some(now), updatedAt := now)
  }

  /**
    `publish(id, userId)`: NotFound, then Forbidden for someone else's row;
    an already published row is returned as it is; otherwise the row gets
    status "published" and a `publishedAt`, and nothing else changes.
  */
  function Publish(db: Db, id: string, userId: string, now: int): (r: Step<Reply>)
    ensures !HasId(db.rows, id) ==> r.out == NotFound && r.db == db
    ensures HasId(db.rows, id) && Find(db, id).value.userId != userId ==> r.out == Forbidden && r.db == db
    ensures r.out.Ok? <==> HasId(db.rows, id) && Find(db, id).value.userId == userId
    ensures r.out.Ok? ==> r.out.value.data.Published() && r.out.value.data.id == id
    ensures r.out.Ok? && Find(db, id).value.Published() ==> r.db == db && r.out.value == Reply(Find(db, id).value, AlreadyPublished)
    ensures r.out.Ok? && !Find(db, id).value.Published() ==>
      && r.out.value == Reply(MarkPublished(Find(db, id).value, now), PublishedNow)
      && r.db.favorites == db.favorites
      && OthersUnchanged(db.rows, r.db.rows, id)
    ensures r.out.Ok? && !Find(db, id).value.Published() ==> forall i :: 0 <= i < |db.rows| && db.rows[i].id == id ==>
      r.db.rows[i].Published() && r.db.rows[i].publishedAt == Some(now)
    ensures r.out.Ok? && Consistent(db) ==> forall i :: 0 <= i < |db.rows| && db.rows[i].id == id ==>
      r.db.rows[i] == r.out.value.data
  {
    match Find(db, id)
    case None => Step(NotFound, db)
    case Some(l) =>
      if l.userId != userId then Step(Forbidden, db)
      else if l.Published() then Step(Ok(Reply(l, AlreadyPublished)), db)
      else
        var p := MarkPublished(l, now);
        Step(Ok(Reply(p, PublishedNow)), Db(UpdateRow(db.rows, id, x => MarkPublished(x, now)), db.favorites))
  }

  lemma PublishKeepsInvariants(db: Db, id: string, userId: string, now: int)
    requires Consistent(db) && AllPublishedAtConsistent(db.rows)
    ensures Consistent(Publish(db, id, userId, now).db)
    ensures AllPublishedAtConsistent(Publish(db, id, userId, now).db.rows)
  {
    UpdateRowKeepsIds(db.rows, id, x => MarkPublished(x, now));
  }

  /** Publishing twice is publishing once: the second call changes nothing. */
  lemma {:induction false} PublishIdempotent(db: Db, id: string, userId: string, t1: int, t2: int)
    requires Consistent(db)
    requires Publish(db, id, userId, t1).out.Ok?
    ensures Publish(Publish(db, id, userId, t1).db, id, userId, t2).db == Publish(db, id, userId, t1).db
    ensures Publish(Publish(db, id, userId, t1).db, id, userId, t2).out.value.message == AlreadyPublished
  {
    var l := Find(db, id).value;
    var db1 := Publish(db, id, userId, t1).db;
    if !l.Published() {
      var k := IndexOf(db.rows, id).value;
      UpdateRowKeepsIds(db.rows, id, x => MarkPublished(x, t1));
      FindUnique(db1, k);
      assert Find(db1, id) == Some(MarkPublished(l, t1));
    }
  }

  // ---------------------------------------------------------------------------
  // update

  /** `{ ...row, ...patch, updatedAt }`: the patch's properties override. */
  function ApplyPatch(l: Listing, patch: map<string, Json>, now: int): (p: Listing)
    ensures p.id == l.id && p.userId == l.userId
    ensures p.fields.Keys == l.fields.Keys + patch.Keys
    ensures forall k :: k in patch ==> p.fields[k] == patch[k]
    ensures forall k :: k in l.fields && k !in patch ==> p.fields[k] == l.fields[k]
    ensures p.publishedAt == l.publishedAt && p.updatedAt == now
    ensures p.createdAt == l.createdAt && p.views == l.views && p.contacts == l.contacts && p.priceNumeric == l.priceNumeric
  {
    l.(fields := l.fields + patch, updatedAt := now)
  }

  /**
    `update(id, dto, userId)`: NotFound, then Forbidden for someone else's
    row; otherwise the supplied properties are merged into the row. The
    patch is a partial create body, so it may carry `status`; `publishedAt`
    is left as it was.
  */
  function Update(db: Db, id: string, patch: map<string, Json>, userId: string, now: int): (r: Step<Reply>)
    ensures !HasId(db.rows, id) ==> r.out == NotFound && r.db == db
    ensures HasId(db.rows, id) && Find(db, id).value.userId != userId ==> r.out == Forbidden && r.db == db
    ensures r.out.Ok? <==> HasId(db.rows, id) && Find(db, id).value.userId == userId
    ensures r.out.Ok? ==> r.out.value == Reply(ApplyPatch(Find(db, id).value, patch, now), Updated)
    ensures r.out.Ok? ==> r.db.favorites == db.favorites && OthersUnchanged(db.rows, r.db.rows, id)
    ensures r.out.Ok? ==> forall i, k :: 0 <= i < |db.rows| && db.rows[i].id == id && k in patch ==>
      k in r.db.rows[i].fields && r.db.rows[i].fields[k] == patch[k]
    ensures r.out.Ok? ==> forall i :: 0 <= i < |db.rows| && db.rows[i].id == id ==>
      r.db.rows[i].publishedAt == db.rows[i].publishedAt
    ensures r.out.Ok? && Consistent(db) ==> forall i :: 0 <= i < |db.rows| && db.rows[i].id == id ==>
      r.db.rows[i] == r.out.value.data
  {
    match Find(db, id)
    case None => Step(NotFound, db)
    case Some(l) =>
      if l.userId != userId then Step(Forbidden, db)
      else Step(Ok(Reply(ApplyPatch(l, patch, now), Updated)),
                Db(UpdateRow(db.rows, id, x => ApplyPatch(x, patch, now)), db.favorites))
  }

  /**
    The update as written breaks "publishedAt is set iff published": a
    saved row patched with status "published" is published without a
    publication time.
  */
  lemma UpdateBreaksPublishedAt(owner: string, now: int)
    ensures var row := Listing("h1", owner, map["status" := JStr("saved")], None, 0, 0, 0, 0, None);
            var db := Db([row], {});
            var r := Update(db, "h1", map["status" := JStr("published")], owner, now);
            && AllPublishedAtConsistent(db.rows)
            && r.out.Ok?
            && !PublishedAtConsistent(r.out.value.data)
            && !AllPublishedAtConsistent(r.db.rows)
  {
    var row := Listing("h1", owner, map["status" := JStr("saved")], None, 0, 0, 0, 0, None);
    var db := Db([row], {});
    assert Find(db, "h1") == Some(row);
    var r := Update(db, "h1", map["status" := JStr("published")], owner, now);
    assert !PublishedAtConsistent(r.db.rows[0]);
  }

  /**
    The update the rest of the service relies on: the same merge, but
    `status` only changes through `publish`, so a patch's `status` is
    dropped.
  */
  function UpdateKeepingStatus(db: Db, id: string, patch: map<string, Json>, userId: string, now: int): (r: Step<Reply>)
    ensures r.out.NotFound? <==> !HasId(db.rows, id)
    ensures r.out == Forbidden <==> HasId(db.rows, id) && Find(db, id).value.userId != userId
    ensures r.out.Ok? <==> HasId(db.rows, id) && Find(db, id).value.userId == userId
    ensures !r.out.Ok? ==> r.db == db
    ensures r.out.Ok? ==> r.out.value.data.Status() == Find(db, id).value.Status()
    ensures r.out.Ok? ==> forall k :: k in patch && k != "status" ==> k in r.out.value.data.fields && r.out.value.data.fields[k] == patch[k]
    ensures r.out.Ok? ==> r.db.favorites == db.favorites && OthersUnchanged(db.rows, r.db.rows, id)
    ensures r.out.Ok? ==> forall i :: 0 <= i < |db.rows| && db.rows[i].id == id ==>
      && r.db.rows[i].Status() == db.rows[i].Status()
      && r.db.rows[i].publishedAt == db.rows[i].publishedAt
    ensures r.out.Ok? ==> forall i, k :: 0 <= i < |db.rows| && db.rows[i].id == id && k in patch && k != "status" ==>
      k in r.db.rows[i].fields && r.db.rows[i].fields[k] == patch[k]
    ensures r.out.Ok? && Consistent(db) ==> forall i :: 0 <= i < |db.rows| && db.rows[i].id == id ==>
      r.db.rows[i] == r.out.value.data
  {
    Update(db, id, patch - {"status"}, userId, now)
  }

  lemma UpdateKeepingStatusKeepsInvariants(db: Db, id: string, patch: map<string, Json>, userId: string, now: int)
    requires Consistent(db) && AllPublishedAtConsistent(db.rows)
    ensures Consistent(UpdateKeepingStatus(db, id, patch, userId, now).db)
    ensures AllPublishedAtConsistent(UpdateKeepingStatus(db, id, patch, userId, now).db.rows)
  {
    UpdateRowKeepsIds(db.rows, id, x => ApplyPatch(x, patch - {"status"}, now));
    var rows := UpdateKeepingStatus(db, id, patch, userId, now).db.rows;
    forall i | 0 <= i < |rows|
      ensures PublishedAtConsistent(rows[i])
    {
      assert PublishedAtConsistent(db.rows[i]);
    }
  }

  // ---------------------------------------------------------------------------
  // remove

  /**
    `remove(id, userId)`: NotFound, then Forbidden for someone else's row;
    otherwise the row is deleted. The favourite table is left as it was:
    what the database does with favourites of a deleted listing is decided
    by its schema, which is not part of this model.
  */
  function Remove(db: Db, id: string, userId: string): (r: Step<string>)
    ensures !HasId(db.rows, id) ==> r.out == NotFound && r.db == db
    ensures HasId(db.rows, id) && Find(db, id).value.userId != userId ==> r.out == Forbidden && r.db == db
    ensures r.out.Ok? <==> HasId(db.rows, id) && Find(db, id).value.userId == userId
    ensures r.out.Ok? ==> !HasId(r.db.rows, id)
    ensures r.out.Ok? ==> forall l :: l in r.db.rows <==> l in db.rows && l.id != id
    ensures r.db.favorites == db.favorites
  {
    match Find(db, id)
    case None => Step(NotFound, db)
    case Some(l) =>
      if l.userId != userId then Step(Forbidden, db)
      else Step(Ok("House sale listing deleted successfully"), Db(DeleteRow(db.rows, id), db.favorites))
  }

  lemma {:induction false} DeleteRowKeepsIds(rows: seq<Listing>, id: string)
    requires DistinctIds(rows)
    ensures DistinctIds(DeleteRow(rows, id))
  {
    if |rows| > 0 {
      DeleteRowKeepsIds(rows[1..], id);
      var rest := DeleteRow(rows[1..], id);
      forall l | l in rest
        ensures l.id != rows[0].id
      {
        assert l in rows[1..];
      }
    }
  }

  lemma RemoveKeepsInvariants(db: Db, id: string, userId: string)
    requires Consistent(db) && AllPublishedAtConsistent(db.rows)
    ensures Consistent(Remove(db, id, userId).db)
    ensures AllPublishedAtConsistent(Remove(db, id, userId).db.rows)
  {
    DeleteRowKeepsIds(db.rows, id);
    var rows := Remove(db, id, userId).db.rows;
    forall i | 0 <= i < |rows|
      ensures PublishedAtConsistent(rows[i])
    {
      assert rows[i] in db.rows;
    }
  }

  // ---------------------------------------------------------------------------
  // findOne and contactSeller

  function CountView(l: Listing): Listing {
    l.(views := l.views + 1)
  }

  function CountContact(l: Listing): Listing {
    l.(contacts := l.contacts + 1)
  }

  /**
    `findOne(id)`: NotFound, or the row as read before its view counter is
    incremented by one.
  */
  function FindOne(db: Db, id: string): (r: Step<Listing>)
    ensures r.out.NotFound? <==> !HasId(db.rows, id)
    ensures r.out.Ok? <==> HasId(db.rows, id)
    ensures !r.out.Ok? ==> r.db == db
    ensures r.out.Ok? ==> Some(r.out.value) == Find(db, id)
    ensures r.out.Ok? ==> r.db.favorites == db.favorites && OthersUnchanged(db.rows, r.db.rows, id)
    ensures r.out.Ok? ==> forall i :: 0 <= i < |db.rows| && db.rows[i].id == id ==> r.db.rows[i].views == db.rows[i].views + 1
    ensures r.out.Ok? ==> forall i :: 0 <= i < |db.rows| && db.rows[i].id == id ==> r.db.rows[i].(views := db.rows[i].views) == db.rows[i]
  {
    match Find(db, id)
    case None => Step(NotFound, db)
    case Some(l) => Step(Ok(l), Db(UpdateRow(db.rows, id, CountView), db.favorites))
  }

  /** The `sellerContact` part of the `contactSeller` reply. */
  datatype SellerContact = SellerContact(phone: Json, email: Json)

  /**
    `contactSeller(id, data)`: NotFound, or the seller's phone and email, with
    the contact counter incremented by one. The enquiry itself is only
    logged.
  */
  function ContactSeller(db: Db, id: string): (r: Step<SellerContact>)
    ensures r.out.NotFound? <==> !HasId(db.rows, id)
    ensures r.out.Ok? <==> HasId(db.rows, id)
    ensures !r.out.Ok? ==> r.db == db
    ensures r.out.Ok? ==> r.out.value.phone == Find(db, id).value.Column("sellerPhone")
    ensures r.out.Ok? ==> r.out.value.email == Find(db, id).value.Column("sellerEmail")
    ensures r.out.Ok? ==> r.db.favorites == db.favorites && OthersUnchanged(db.rows, r.db.rows, id)
    ensures r.out.Ok? ==> forall i :: 0 <= i < |db.rows| && db.rows[i].id == id ==> r.db.rows[i].contacts == db.rows[i].contacts + 1
    ensures r.out.Ok? ==> forall i :: 0 <= i < |db.rows| && db.rows[i].id == id ==> r.db.rows[i].(contacts := db.rows[i].contacts) == db.rows[i]
  {
    match Find(db, id)
    case None => Step(NotFound, db)
    case Some(l) =>
      Step(Ok(SellerContact(l.Column("sellerPhone"), l.Column("sellerEmail"))),
           Db(UpdateRow(db.rows, id, CountContact), db.favorites))
  }

  // ---------------------------------------------------------------------------
  // toggleFavorite

  /**
    `toggleFavorite(id, userId)`: NotFound for an unknown listing; otherwise
    an existing favourite is removed (`favorited: false`) and a missing one
    is added (`favorited: true`). The listings do not change.
  */
  function ToggleFavorite(db: Db, id: string, userId: string): (r: Step<bool>)
    ensures r.out.NotFound? <==> !HasId(db.rows, id)
    ensures r.out.Ok? <==> HasId(db.rows, id)
    ensures r.db.rows == db.rows
    ensures !r.out.Ok? ==> r.db == db
    ensures r.out.Ok? ==> (r.out.value <==> Favorite(userId, id) in r.db.favorites)
    ensures r.out.Ok? ==> (r.out.value <==> Favorite(userId, id) !in db.favorites)
    ensures r.out.Ok? ==> r.db.favorites - {Favorite(userId, id)} == db.favorites - {Favorite(userId, id)}
  {
    if !HasId(db.rows, id) then Step(NotFound, db)
    else
      var fav := Favorite(userId, id);
      if fav in db.favorites then Step(Ok(false), Db(db.rows, db.favorites - {fav}))
      else Step(Ok(true), Db(db.rows, db.favorites + {fav}))
  }

  /** Two toggles by the same user on the same listing restore the favourites. */
  lemma ToggleTwiceRestores(db: Db, id: string, userId: string)
    ensures ToggleFavorite(ToggleFavorite(db, id, userId).db, id, userId).db == db
  {
  }
}

=== FILE: listing_queries.dfy ===
/**
  The read side of the listing service: `findAll` with its filters and
  pagination, `findByUserId`, `findSavedByUserId` and `findSimilar`.

  Every query orders by `createdAt` descending. The database leaves the
  order of rows with equal `createdAt` open, even between two queries. The
  model fixes one (a stable insertion sort). The paging lemma is about that
  one order, so it needs every page to be cut from the same order.
*/
module ListingQueries {
  import opened Options
  import opened Json
  import opened Strings
  import opened Seqs
  import opened ListingStore
  import opened ListingLifecycle
  import JsNumbers

  // ---------------------------------------------------------------------------
  // orderBy: { createdAt: 'desc' }

  predicate SortedNewestFirst(s: seq<Listing>) {
    forall i, j :: 0 <= i < j < |s| ==> s[i].createdAt >= s[j].createdAt
  }

  function Insert(x: Listing, s: seq<Listing>): (r: seq<Listing>)
    requires SortedNewestFirst(s)
    ensures SortedNewestFirst(r)
    ensures multiset(r) == multiset(s) + multiset{x}
    ensures |r| == |s| + 1
    ensures r[0] == x || (|s| > 0 && r[0] == s[0])
  {
    if |s| == 0 then [x]
    else if s[0].createdAt <= x.createdAt then [x] + s
    else
      var rest := Insert(x, s[1..]);
      assert s == [s[0]] + s[1..];
      assert rest[0].createdAt <= s[0].createdAt;
      assert forall j :: 0 <= j < |rest| ==> rest[0].createdAt >= rest[j].createdAt;
      [s[0]] + rest
  }

  /** The rows newest first: the same rows, in `createdAt`-descending order. */
  function NewestFirst(s: seq<Listing>): (r: seq<Listing>)
    ensures SortedNewestFirst(r)
    ensures multiset(r) == multiset(s)
    ensures |r| == |s|
  {
    if |s| == 0 then []
    else
      assert s == [s[0]] + s[1..];
      Insert(s[0], NewestFirst(s[1..]))
  }

  lemma SameElements(a: seq<Listing>, b: seq<Listing>)
    requires multiset(a) == multiset(b)
    ensures forall l :: l in a <==> l in b
  {
    forall l
      ensures l in a <==> l in b
    {
      assert l in a <==> l in multiset(a);
      assert l in b <==> l in multiset(b);
    }
  }

  /** `w` is a (possibly empty) run of `s` that starts at position `skip`. */
  predicate IsWindow(w: seq<Listing>, s: seq<Listing>, skip: nat) {
    w == [] || (skip + |w| <= |s| && w == s[skip..skip + |w|])
  }

  /** `skip`/`take`: the rows from position `skip`, at most `take` of them. */
  function Window(s: seq<Listing>, skip: nat, take: nat): (r: seq<Listing>)
    ensures |r| <= take
    ensures skip <= |s| ==> |r| == if skip + take <= |s| then take else |s| - skip
    ensures skip > |s| ==> r == []
    ensures IsWindow(r, s, skip)
  {
    if skip >= |s| then []
    else if skip + take <= |s| then s[skip..skip + take]
    else s[skip..]
  }

  // ---------------------------------------------------------------------------
  // findAll

  /** The `where` filters of the query; an absent one is `None`. */
  datatype Where = Where(
    province: Option<string>,
    houseType: Option<string>,
    minPrice: Option<real>,
    maxPrice: Option<real>,
    bedrooms: Option<int>,
    bathrooms: Option<int>)

  /** The query parameters of `findAll`. */
  datatype Query = Query(page: Option<nat>, limit: Option<nat>, where: Where)

  const NoFilters := Where(None, None, None, None, None, None)

  /** `filters.x` is truthy: present and neither 0 nor "". */
  predicate Given<T(==)>(x: Option<T>, falsy: T) {
    x.Some? && x.value != falsy
  }

  /** `filters.page || 1` */
  function PageOf(q: Query): (p: nat)
    ensures p >= 1
    ensures Given(q.page, 0) ==> p == q.page.value
    ensures !Given(q.page, 0) ==> p == 1
  {
    if Given(q.page, 0) then q.page.value else 1
  }

  /** `filters.limit || 10` */
  function LimitOf(q: Query): (n: nat)
    ensures n >= 1
    ensures Given(q.limit, 0) ==> n == q.limit.value
    ensures !Given(q.limit, 0) ==> n == 10
  {
    if Given(q.limit, 0) then q.limit.value else 10
  }

  /** Prisma's `{ contains, mode: 'insensitive' }` on a nullable string column. */
  predicate ContainsInsensitive(column: Json, needle: string) {
    column.JStr? && Contains(AsciiLower(column.s), AsciiLower(needle))
  }

  /** The `where` object of `findAll` holds for a row. */
  predicate Matches(w: Where, l: Listing) {
    && l.Published()
    && (Given(w.province, "") ==> ContainsInsensitive(l.Column("province"), w.province.value))
    && (Given(w.houseType, "") ==> ContainsInsensitive(l.Column("houseType"), w.houseType.value))
    && (Given(w.minPrice, 0.0) ==> l.priceNumeric.Some? && l.priceNumeric.value >= w.minPrice.value)
    && (Given(w.maxPrice, 0.0) ==> l.priceNumeric.Some? && l.priceNumeric.value <= w.maxPrice.value)
    && (Given(w.bedrooms, 0) ==> l.Column("bedrooms") == JNum(w.bedrooms.value))
    && (Given(w.bathrooms, 0) ==> l.Column("bathrooms") == JNum(w.bathrooms.value))
  }

  datatype Pagination = Pagination(page: nat, limit: nat, total: nat, totalPages: nat)

  datatype Page = Page(data: seq<Listing>, pagination: Pagination)

  /** `Math.ceil(total / limit)` */
  function CeilDiv(total: nat, limit: nat): (n: nat)
    requires limit >= 1
    ensures n * limit >= total
    ensures n == 0 || (n - 1) * limit < total
  {
    (total + limit - 1) / limit
  }

  /** `skip = (page - 1) * limit` */
  function Skip(q: Query): nat {
    (PageOf(q) - 1) * LimitOf(q)
  }

  /** The filters as the test `Filter` applies. */
  function MatchesOf(w: Where): Listing -> bool {
    l => Matches(w, l)
  }

  /** All matching rows, newest first (also what `count({ where })` counts). */
  function AllMatches(db: Db, w: Where): (r: seq<Listing>)
    ensures SortedNewestFirst(r)
    ensures forall l :: l in r <==> l in db.rows && Matches(w, l)
    ensures multiset(r) == multiset(Filter(db.rows, MatchesOf(w)))
  {
    var m := Filter(db.rows, MatchesOf(w));
    var r := NewestFirst(m);
    SameElements(r, m);
    r
  }

  /** The page of `all` that query `q` asks for, with the pagination numbers. */
  function Paginate(all: seq<Listing>, q: Query): (r: Page)
    ensures r.pagination.page == PageOf(q) && r.pagination.limit == LimitOf(q)
    ensures r.pagination.total == |all|
    ensures r.pagination.totalPages == CeilDiv(|all|, LimitOf(q))
    ensures |r.data| <= r.pagination.limit
    ensures IsWindow(r.data, all, Skip(q))
  {
    var data := Window(all, Skip(q), LimitOf(q));
    Page(data, Pagination(PageOf(q), LimitOf(q), |all|, CeilDiv(|all|, LimitOf(q))))
  }

  /**
    `findAll(filters)`: page `page` (size `limit`) of the published rows that
    pass every given filter, newest first, with the total count of such rows.
  */
  function FindAll(db: Db, q: Query): (r: Page)
    ensures r.pagination.page == PageOf(q) && r.pagination.limit == LimitOf(q)
    ensures r.pagination.total == |AllMatches(db, q.where)|
    ensures r.pagination.totalPages == CeilDiv(r.pagination.total, r.pagination.limit)
    ensures |r.data| <= r.pagination.limit
    ensures IsWindow(r.data, AllMatches(db, q.where), Skip(q))
  {
    Paginate(AllMatches(db, q.where), q)
  }

  /** What a page holds: published matching rows, newest first. */
  lemma FindAllPageRows(db: Db, q: Query)
    ensures SortedNewestFirst(FindAll(db, q).data)
    ensures forall l :: l in FindAll(db, q).data ==> l in db.rows && l.Published() && Matches(q.where, l)
  {
    var all := AllMatches(db, q.where);
    var data := FindAll(db, q).data;
    forall l | l in data
      ensures l in all
    {
      var k :| 0 <= k < |data| && data[k] == l;
      assert data[k] == all[Skip(q)..Skip(q) + |data|][k];
    }
  }

  /**
    Place `i` of page `page` holds the row of rank `(page - 1) * limit + i`,
    whenever that rank exists, and the page is counted in `totalPages`.
  */
  lemma PlaceOnPage(all: seq<Listing>, q: Query, page: nat, i: nat)
    requires page >= 1 && i < LimitOf(q)
    requires (page - 1) * LimitOf(q) + i < |all|
    ensures var r := Paginate(all, q.(page := Some(page)));
            && page <= r.pagination.totalPages
            && i < |r.data|
            && r.data[i] == all[(page - 1) * LimitOf(q) + i]
  {
    var limit := LimitOf(q);
    var q' := q.(page := Some(page));
    assert LimitOf(q') == limit && PageOf(q') == page;
    WindowIndex(all, Skip(q'), limit, i);
    var n := CeilDiv(|all|, limit);
    if page > n {
      MulMonotone(n, page - 1, limit);
      assert false;
    }
  }

  /**
    Paging is complete: the match of rank `(page - 1) * limit + i` is at
    place `i` of page `page`, and that page is counted. Every rank `k` has
    one such page and place: page `k / limit + 1`, place `k % limit`.
  */
  lemma EveryMatchOnItsPage(db: Db, q: Query, page: nat, i: nat)
    requires page >= 1 && i < LimitOf(q)
    requires (page - 1) * LimitOf(q) + i < |AllMatches(db, q.where)|
    ensures var r := FindAll(db, q.(page := Some(page)));
            && page <= r.pagination.totalPages
            && i < |r.data|
            && r.data[i] == AllMatches(db, q.where)[(page - 1) * LimitOf(q) + i]
  {
    var all := AllMatches(db, q.where);
    PlaceOnPage(all, q, page, i);
    assert FindAll(db, q.(page := Some(page))) == Paginate(all, q.(page := Some(page)));
  }

  /** Position `i` of a window is position `skip + i` of the rows. */
  lemma WindowIndex(s: seq<Listing>, skip: nat, take: nat, i: nat)
    requires skip + i < |s| && i < take
    ensures i < |Window(s, skip, take)| && Window(s, skip, take)[i] == s[skip + i]
  {
  }

  lemma MulMonotone(a: nat, b: nat, c: nat)
    requires a <= b
    ensures a * c <= b * c
  {
  }

  /** A falsy filter value is ignored: 0 and "" filter like an absent filter. */
  lemma ZeroFiltersIgnored(db: Db, w: Where)
    ensures var zero := w.(province := Some(""), houseType := Some(""), minPrice := Some(0.0), maxPrice := Some(0.0), bedrooms := Some(0), bathrooms := Some(0));
            var absent := w.(province := None, houseType := None, minPrice := None, maxPrice := None, bedrooms := None, bathrooms := None);
            AllMatches(db, zero) == AllMatches(db, absent)
  {
    var zero := w.(province := Some(""), houseType := Some(""), minPrice := Some(0.0), maxPrice := Some(0.0), bedrooms := Some(0), bathrooms := Some(0));
    var absent := w.(province := None, houseType := None, minPrice := None, maxPrice := None, bedrooms := None, bathrooms := None);
    FilterExtensional(db.rows, MatchesOf(zero), MatchesOf(absent));
  }

  // ---------------------------------------------------------------------------
  // findByUserId, findSavedByUserId

  /** `findByUserId(userId)`: every row of the user, whatever its status, newest first. */
  function FindByUserId(db: Db, userId: string): (r: seq<Listing>)
    ensures SortedNewestFirst(r)
    ensures forall l :: l in r <==> l in db.rows && l.userId == userId
    ensures multiset(r) == multiset(Filter(db.rows, (l: Listing) => l.userId == userId))
  {
    var m := Filter(db.rows, (l: Listing) => l.userId == userId);
    var r := NewestFirst(m);
    SameElements(r, m);
    r
  }

  /** `findSavedByUserId(userId)`: the user's rows with status "saved", newest first. */
  function FindSavedByUserId(db: Db, userId: string): (r: seq<Listing>)
    ensures SortedNewestFirst(r)
    ensures multiset(r) == multiset(Filter(db.rows, (l: Listing) => l.userId == userId && l.Status() == JStr("saved")))
    ensures forall l :: l in r <==> l in db.rows && l.userId == userId && l.Status() == JStr("saved")
  {
    var m := Filter(db.rows, (l: Listing) => l.userId == userId && l.Status() == JStr("saved"));
    var r := NewestFirst(m);
    SameElements(r, m);
    r
  }

  /**
    Saved and then published: a listing created with status "saved" is on
    its owner's saved list and not among the public matches; after
    `publish` it is among the public matches and off the saved list.
  */
  lemma SavedThenPublished(db: Db, body: map<string, Json>, userId: string, newId: string, t1: int, t2: int)
    requires Consistent(db) && !HasId(db.rows, newId)
    requires !TruthyAt(body, "status")
    ensures var c := Create(db, body, userId, newId, t1);
            var l := c.out.value.data;
            var p := Publish(c.db, newId, userId, t2);
            && l in FindSavedByUserId(c.db, userId)
            && l !in AllMatches(c.db, NoFilters)
            && p.out.Ok?
            && p.out.value.data in AllMatches(p.db, NoFilters)
            && forall x :: x in FindSavedByUserId(p.db, userId) ==> x.id != newId
  {
    var c := Create(db, body, userId, newId, t1);
    var l := c.out.value.data;
    CreatedRowIsSaved(db, body, userId, newId, t1);
    assert l in c.db.rows && l.userId == userId && l.Status() == JStr("saved");
    PublishSavedRow(c.db, newId, userId, t2);
    var p := Publish(c.db, newId, userId, t2);
    assert Matches(NoFilters, p.out.value.data);
  }

  /** The row `create` adds without a status is the caller's, saved, and the one its id finds. */
  lemma CreatedRowIsSaved(db: Db, body: map<string, Json>, userId: string, newId: string, now: int)
    requires Consistent(db) && !HasId(db.rows, newId)
    requires !TruthyAt(body, "status")
    ensures var c := Create(db, body, userId, newId, now);
            && c.out.value.data.Status() == JStr("saved")
            && c.out.value.data.userId == userId
            && Find(c.db, newId) == Some(c.out.value.data)
  {
    var c := Create(db, body, userId, newId, now);
    assert c.db.rows[|db.rows|] == c.out.value.data;
    assert DistinctIds(c.db.rows);
    FindUnique(c.db, |db.rows|);
  }

  /** Publishing one's own unpublished row succeeds and leaves every row of that id published. */
  lemma PublishSavedRow(db: Db, id: string, userId: string, now: int)
    requires Find(db, id).Some? && Find(db, id).value.userId == userId && !Find(db, id).value.Published()
    ensures var p := Publish(db, id, userId, now);
            && p.out.Ok?
            && p.out.value.data in p.db.rows
            && forall x :: x in p.db.rows && x.id == id ==> x.Published()
  {
    var l := Find(db, id).value;
    var rows := UpdateRow(db.rows, id, x => MarkPublished(x, now));
    assert Publish(db, id, userId, now).db.rows == rows;
    var k :| 0 <= k < |db.rows| && db.rows[k] == l;
    assert rows[k] == MarkPublished(l, now);
    forall x | x in rows && x.id == id
      ensures x.Published()
    {
      var i :| 0 <= i < |rows| && rows[i] == x;
      assert db.rows[i].id == id;
    }
  }

  // ---------------------------------------------------------------------------
  // findSimilar

  /**
    `parseFloat(houseSale.price.replace(/,/g, ''))`: `None` when the price
    is not a string, where `replace` throws a `TypeError`.
  */
  function SourcePrice(l: Listing): (r: Option<JsNumbers.Float>)
    ensures r.Some? <==> l.Column("price").JStr?
    ensures r.Some? ==> r.value == JsNumbers.ParseFloat(Without(l.Column("price").s, ','))
  {
    if l.Column("price").JStr? then Some(JsNumbers.ParseFloat(Without(l.Column("price").s, ','))) else None
  }

  /**
    `priceNumeric` within 30% either side of the source price. A NaN price
    makes both bounds NaN, and an infinite one makes them NaN too
    (`Infinity - Infinity`), so no candidate is in either band.
  */
  predicate InPriceBand(candidate: Option<real>, price: Option<JsNumbers.Float>) {
    candidate.Some? && price.Some? && price.value.Finite?
    && candidate.value >= price.value.value - price.value.value * 0.3
    && candidate.value <= price.value.value + price.value.value * 0.3
  }

  /**
    The `where` of `findSimilar`: another row that shares the province, or
    shares the house type, or is priced within the band. A `null` column
    equals a `null` column. Status is not looked at.
  */
  predicate Similar(src: Listing, c: Listing) {
    && c.id != src.id
    && (|| c.Column("province") == src.Column("province")
        || c.Column("houseType") == src.Column("houseType")
        || InPriceBand(c.priceNumeric, SourcePrice(src)))
  }

  function Take(s: seq<Listing>, n: nat): (r: seq<Listing>)
    ensures |r| == if |s| < n then |s| else n
    ensures r == s[..|r|]
  {
    if |s| <= n then s else s[..n]
  }

  /**
    `findSimilar(id)`: NotFound; a server error when the source's price is
    not a string; otherwise the six newest similar rows, or all of them
    when there are fewer, newest first, none more often than in the table.
  */
  function FindSimilar(db: Db, id: string): (r: Outcome<seq<Listing>>)
    ensures r.NotFound? <==> !HasId(db.rows, id)
    ensures r.ServerError? <==> HasId(db.rows, id) && SourcePrice(Find(db, id).value).None?
    ensures !r.Forbidden?
    ensures r.Ok? ==> |r.value| <= 6
    ensures r.Ok? ==> SortedNewestFirst(r.value)
    ensures r.Ok? ==> multiset(r.value) <= multiset(db.rows)
    ensures r.Ok? ==> forall l :: l in r.value ==> l in db.rows && l.id != id && Similar(Find(db, id).value, l)
    ensures r.Ok? && |r.value| < 6 ==> forall l :: l in db.rows && Similar(Find(db, id).value, l) ==> l in r.value
    ensures r.Ok? && |r.value| == 6 ==>
      forall l :: l in db.rows && Similar(Find(db, id).value, l) && l !in r.value ==> l.createdAt <= r.value[5].createdAt
  {
    match Find(db, id)
    case None => NotFound
    case Some(src) =>
      if SourcePrice(src).None? then ServerError
      else
        var all := SimilarRows(db, src);
        TakeOfSorted(all, 6);
        Ok(Take(all, 6))
  }

  /** Every row similar to `src`, newest first. */
  function SimilarRows(db: Db, src: Listing): (r: seq<Listing>)
    ensures SortedNewestFirst(r)
    ensures forall l :: l in r <==> l in db.rows && Similar(src, l)
    ensures multiset(r) <= multiset(db.rows)
  {
    var m := Filter(db.rows, l => Similar(src, l));
    var r := NewestFirst(m);
    SameElements(r, m);
    FilterMultiset(db.rows, l => Similar(src, l));
    r
  }

  /**
    A prefix of sorted rows is sorted, holds only those rows, is all of them
    when short, and when full no row left out is newer than its last.
  */
  lemma TakeOfSorted(s: seq<Listing>, n: nat)
    requires SortedNewestFirst(s)
    ensures SortedNewestFirst(Take(s, n))
    ensures forall l :: l in Take(s, n) ==> l in s
    ensures multiset(Take(s, n)) <= multiset(s)
    ensures |Take(s, n)| < n ==> Take(s, n) == s
    ensures 0 < n && |Take(s, n)| == n ==>
      forall l :: l in s && l !in Take(s, n) ==> l.createdAt <= Take(s, n)[n - 1].createdAt
  {
    var r := Take(s, n);
    assert forall k :: 0 <= k < |r| ==> r[k] == s[k];
    assert s == r + s[|r|..];
    assert multiset(s) == multiset(r) + multiset(s[|r|..]);
    if 0 < n && |r| == n {
      forall l | l in s && l !in r
        ensures l.createdAt <= r[n - 1].createdAt
      {
        var k :| 0 <= k < |s| && s[k] == l;
        assert k >= n;
      }
    }
  }

  /** On a table of distinct ids the suggestions repeat no row. */
  lemma FindSimilarRepeatsNothing(db: Db, id: string)
    requires Consistent(db)
    ensures FindSimilar(db, id).Ok? ==> Distinct(FindSimilar(db, id).value)
  {
    if FindSimilar(db, id).Ok? {
      assert Distinct(db.rows) by {
        forall i, j | 0 <= i < j < |db.rows| ensures db.rows[i] != db.rows[j] {
          assert db.rows[i].id != db.rows[j].id;
        }
      }
      SubMultisetDistinct(FindSimilar(db, id).value, db.rows);
    }
  }

  /**
    The worked example of the similarity rule: for a source whose price
    reads as 1,000,000 a row with `priceNumeric` 1,250,000 is similar and
    one with 1,400,000 is not, when neither shares province or house type.
  */
  lemma PriceBandExample(src: Listing, near: Listing, far: Listing)
    requires SourcePrice(src) == Some(JsNumbers.Finite(1000000.0))
    requires near.id != src.id && far.id != src.id
    requires near.priceNumeric == Some(1250000.0) && far.priceNumeric == Some(1400000.0)
    requires far.Column("province") != src.Column("province") && far.Column("houseType") != src.Column("houseType")
    ensures Similar(src, near) && !Similar(src, far)
  {
  }

  /** No status filter: a saved row of someone else can be suggested, whatever the source's price. */
  lemma FindSimilarIncludesSaved(price: string)
    ensures var src := Listing("a", "u", map["province" := JStr("Bangkok"), "price" := JStr(price), "status" := JStr("published")], None, 1, 1, 0, 0, None);
            var saved := Listing("b", "v", map["province" := JStr("Bangkok"), "status" := JStr("saved")], None, 2, 2, 0, 0, None);
            var r := FindSimilar(Db([src, saved], {}), "a");
            r.Ok? && r.value == [saved]
  {
    var src := Listing("a", "u", map["province" := JStr("Bangkok"), "price" := JStr(price), "status" := JStr("published")], None, 1, 1, 0, 0, None);
    var saved := Listing("b", "v", map["province" := JStr("Bangkok"), "status" := JStr("saved")], None, 2, 2, 0, 0, None);
    var db := Db([src, saved], {});
    assert Find(db, "a") == Some(src);
    assert SourcePrice(src).Some?;
    assert Similar(src, saved) && !Similar(src, src);
    assert db.rows[1..] == [saved];
    assert Filter(db.rows, l => Similar(src, l)) == [saved];
  }
}

=== FILE: listing_store.dfy ===
/**
  The server's persistent state as the listing service sees it: the
  `houseSale` table and the `favorite` table.

  A listing row keeps the properties of the request body it was created
  from (`fields`, including `status`) next to the columns the service itself
  writes. The table is a sequence in insertion order; row ids are distinct.
  A favourite is a `(userId, houseSaleId)` pair, unique by construction.
*/
module ListingStore {
  import opened Options
  import opened Json

  datatype Listing = Listing(
    id: string,
    userId: string,
    fields: map<string, Json>,
    publishedAt: Option<int>,
    createdAt: int,
    updatedAt: int,
    views: nat,
    contacts: nat,
    priceNumeric: Option<real>)
  {
    /** The `status` column; `null` when the row has none. */
    function Status(): (s: Json)
      ensures "status" in fields ==> s == fields["status"]
      ensures "status" !in fields ==> s == JNull
    {
      if "status" in fields then fields["status"] else JNull
    }

    predicate Published() {
      Status() == JStr("published")
    }

    /** A string column of the row, `null` when unset. */
    function Column(name: string): (v: Json)
      ensures name in fields ==> v == fields[name]
      ensures name !in fields ==> v == JNull
    {
      if name in fields then fields[name] else JNull
    }
  }

  datatype Favorite = Favorite(userId: string, houseSaleId: string)

  datatype Db = Db(rows: seq<Listing>, favorites: set<Favorite>)

  ghost predicate DistinctIds(rows: seq<Listing>) {
    forall i, j :: 0 <= i < j < |rows| ==> rows[i].id != rows[j].id
  }

  predicate HasId(rows: seq<Listing>, id: string) {
    exists i :: 0 <= i < |rows| && rows[i].id == id
  }

  /** `publishedAt` is set exactly on published rows. */
  predicate PublishedAtConsistent(l: Listing) {
    l.publishedAt.Some? <==> l.Published()
  }

  predicate AllPublishedAtConsistent(rows: seq<Listing>) {
    forall i :: 0 <= i < |rows| ==> PublishedAtConsistent(rows[i])
  }

  /** The position of the row with this id (`findUnique({ where: { id } })`). */
  function IndexOf(rows: seq<Listing>, id: string): (r: Option<nat>)
    ensures r.Some? ==> r.value < |rows| && rows[r.value].id == id
    ensures r.Some? ==> forall j :: 0 <= j < r.value ==> rows[j].id != id
    ensures r.None? <==> !HasId(rows, id)
  {
    if |rows| == 0 then None
    else if rows[0].id == id then Some(0)
    else
      match IndexOf(rows[1..], id)
      case None =>
        assert forall j :: 0 < j < |rows| ==> rows[j] == rows[1..][j - 1];
        None
      case Some(k) => Some(k + 1)
  }

  function Find(db: Db, id: string): (r: Option<Listing>)
    ensures r.Some? ==> r.value.id == id && r.value in db.rows
    ensures r.None? <==> !HasId(db.rows, id)
  {
    match IndexOf(db.rows, id)
    case None => None
    case Some(k) => Some(db.rows[k])
  }

  /** With distinct ids, the row found is the one and only row with that id. */
  lemma FindUnique(db: Db, i: nat)
    requires DistinctIds(db.rows) && i < |db.rows|
    ensures Find(db, db.rows[i].id) == Some(db.rows[i])
  {
    var k := IndexOf(db.rows, db.rows[i].id);
    assert k.Some?;
    assert k.value == i;
  }

  /** The table with the row of this id replaced by `f(row)`. */
  function UpdateRow(rows: seq<Listing>, id: string, f: Listing -> Listing): (r: seq<Listing>)
    ensures |r| == |rows|
    ensures forall i :: 0 <= i < |rows| ==> r[i] == if rows[i].id == id then f(rows[i]) else rows[i]
  {
    seq(|rows|, i requires 0 <= i < |rows| => if rows[i].id == id then f(rows[i]) else rows[i])
  }

  /** Updating a row without touching its id keeps the ids distinct. */
  lemma UpdateRowKeepsIds(rows: seq<Listing>, id: string, f: Listing -> Listing)
    requires DistinctIds(rows)
    requires forall l :: f(l).id == l.id
    ensures DistinctIds(UpdateRow(rows, id, f))
    ensures forall i :: 0 <= i < |rows| ==> UpdateRow(rows, id, f)[i].id == rows[i].id
  {
  }

  /** The table without the row of this id (`delete({ where: { id } })`). */
  function DeleteRow(rows: seq<Listing>, id: string): (r: seq<Listing>)
    ensures !HasId(r, id)
    ensures forall l :: l in r <==> l in rows && l.id != id
    ensures |r| <= |rows|
  {
    if |rows| == 0 then []
    else (if rows[0].id == id then [] else [rows[0]]) + DeleteRow(rows[1..], id)
  }
}

=== FILE: options.dfy ===
/** Optional values: the `undefined`/`null` of the original code, made explicit. */
module Options {

  datatype Option<T> = None | Some(value: T) {

    /** The value, or `default` when there is none (the `??` operator). */
    function GetOr(default: T): T {
      match this
      case Some(v) => v
      case None => default
    }
  }
}

=== FILE: post_form.dfy ===
/**
  The post form (`PostForm`): a title, a text and up to ten pictures. The
  picture picker takes as many of the selected files as there are free
  places, skips every file that is not an image or exceeds 5 MB with an
  alert naming it, and turns the others into URLs (a storage upload with
  a base64 fallback, the `convert` parameter of `Uploads`). The submit
  button refuses a blank title or a blank text.
*/
module PostForm {
  import opened Options
  import opened Strings
  import opened Seqs
  import opened Uploads

  datatype Post = Post(title: string, content: string, images: seq<string>)

  const MaxPostImages := 10
  const TitleMissing := "กรุณาใส่หัวข้อโพสต์"
  const ContentMissing := "กรุณาใส่เนื้อหาโพสต์"

  /** The post form's state after a selection, and the alerts shown during it. */
  datatype Upload = Upload(post: Post, alerts: seq<string>)

  /** The alert raised when more files are picked than there are free places. */
  function TooManyFilesAlert(current: nat): string {
    "สามารถอัพโหลดได้สูงสุด 10 รูป (เหลือที่ว่าง " + IntToString(MaxPostImages - current) + " รูป)"
  }

  /**
    `handleImageUpload`: the files within the free places are checked and
    converted in order, each numbered after the pictures before it; the
    pictures made are appended after the ones the form had. Title and text
    stay.
  */
  function HandleImageUpload(p: Post, files: seq<File>, convert: (File, nat) -> Option<string>): (r: Upload)
    ensures r.post.title == p.title && r.post.content == p.content
    ensures r.post.images == p.images + Collect(Slots(files, |p.images|, MaxPostImages), |p.images|, convert)
    ensures |p.images| <= MaxPostImages ==> |r.post.images| <= MaxPostImages
    ensures |r.alerts| == (if |files| > MaxPostImages - |p.images| then 1 else 0)
      + |Slots(files, |p.images|, MaxPostImages)| - |Filter(Slots(files, |p.images|, MaxPostImages), Acceptable)|
    ensures |files| > MaxPostImages - |p.images| ==> r.alerts[0] == TooManyFilesAlert(|p.images|)
  {
    var batch := Slots(files, |p.images|, MaxPostImages);
    var warning := if |files| > MaxPostImages - |p.images| then [TooManyFilesAlert(|p.images|)] else [];
    var made := Collect(batch, |p.images|, convert);
    var images := if |made| > 0 then p.images + made else p.images;
    Upload(p.(images := images), warning + Rejections(batch))
  }

  /**
    When no conversion fails and every picked file is acceptable, the form
    fills up to ten pictures and no further.
  */
  lemma UploadFillsFreePlaces(p: Post, files: seq<File>, convert: (File, nat) -> Option<string>)
    requires |p.images| <= MaxPostImages
    requires forall i :: 0 <= i < |files| ==> Acceptable(files[i])
    requires forall f: File, k: nat :: convert(f, k).Some?
    ensures |HandleImageUpload(p, files, convert).post.images| ==
      if |p.images| + |files| <= MaxPostImages then |p.images| + |files| else MaxPostImages
  {
    var batch := Slots(files, |p.images|, MaxPostImages);
    assert forall i :: 0 <= i < |batch| ==> batch[i] == files[i];
    FilterAll(batch, Acceptable);
    EveryAcceptedFileYieldsAnImage(batch, [], |p.images|, convert);
  }

  /** `removeImage(index)`: the picture at that place leaves, the others keep their order. */
  function RemoveImage(p: Post, index: int): (r: Post)
    ensures r.title == p.title && r.content == p.content
    ensures 0 <= index < |p.images| ==> r.images == p.images[..index] + p.images[index + 1..]
    ensures !(0 <= index < |p.images|) ==> r == p
  {
    p.(images := RemoveAt(p.images, index))
  }

  /** What the submit button does: send the post as it stands, or show an alert. */
  datatype Outcome = Sent(post: Post) | Refused(alert: string)

  /**
    `handleSubmit`: a title of nothing but white space is refused first,
    then such a text; otherwise the post goes out untrimmed.
  */
  function Submit(p: Post): (r: Outcome)
    ensures IsBlank(p.title) <==> r == Refused(TitleMissing)
    ensures !IsBlank(p.title) && IsBlank(p.content) <==> r == Refused(ContentMissing)
    ensures r.Sent? <==> !IsBlank(p.title) && !IsBlank(p.content)
    ensures r.Sent? ==> r.post == p
  {
    TrimEmptyIffBlank(p.title);
    TrimEmptyIffBlank(p.content);
    if Trim(p.title) == "" then Refused(TitleMissing)
    else if Trim(p.content) == "" then Refused(ContentMissing)
    else Sent(p)
  }

  /** Neither upload nor removal can make a sendable post unsendable. */
  lemma PicturesDoNotAffectSubmit(p: Post, files: seq<File>, convert: (File, nat) -> Option<string>, index: int)
    ensures Submit(HandleImageUpload(p, files, convert).post).Sent? == Submit(p).Sent?
    ensures Submit(RemoveImage(p, index)).Sent? == Submit(p).Sent?
  {
  }
}

=== FILE: posts_page.dfy ===
/**
  The posts page (`PostsPage`): a button opens the quick property form,
  and every form it sends becomes a card put in front of the page's
  `newCards`, with random view and like counts, after which the form
  closes and a success alert shows.

  `Math.random()` is a parameter in [0, 1) for each of the two counts;
  the random rating is left out. The clock is a parameter.
*/
module PostsPage {
  import opened PropertyForm
  import Cards

  datatype Page = Page(showForm: bool, newCards: seq<PostCard>, alerts: seq<string>)

  const PostedAlert := "เพิ่มประกาศสำเร็จ!"
  const MaxViewsRoll := 100
  const MaxLikesRoll := 50

  /** `Math.floor(Math.random() * n) + 1`: a whole number from 1 to n. */
  function Roll(random: real, n: nat): (k: int)
    requires 0.0 <= random < 1.0 && n >= 1
    ensures 1 <= k <= n
  {
    var k := (random * n as real).Floor + 1;
    assert random * n as real < n as real;
    k
  }

  /** A roll reaches every count: the draw `(k - 1) / n` gives `k`. */
  lemma RollCoversRange(n: nat, k: int)
    requires n >= 1 && 1 <= k <= n
    ensures Roll((k - 1) as real / n as real, n) == k
  {
    assert ((k - 1) as real / n as real) * n as real == (k - 1) as real;
  }

  /**
    The card built from sent form data: the data's own text, the first
    image (or the placeholder) as cover, the badges (or "ใหม่"), and the
    images (or the placeholder alone).
  */
  function CardOf(d: Data, now: int, date: string, viewRandom: real, likeRandom: real): (c: PostCard)
    requires 0.0 <= viewRandom < 1.0 && 0.0 <= likeRandom < 1.0
    ensures c.id == now && c.date == date
    ensures c.title == d.title && c.description == d.description && c.fullText == d.description
    ensures c.price == d.price && c.location == d.location && c.area == d.area && c.category == d.category
    ensures c.bedrooms == d.bedrooms && c.bathrooms == d.bathrooms
    ensures 1 <= c.views <= MaxViewsRoll && 1 <= c.likes <= MaxLikesRoll
    ensures |c.imageUrls| > 0 && |c.badges| > 0
    ensures d.images != [] ==> c.imageUrls == d.images
    ensures d.images == [] ==> c.imageUrls == [Cards.PlaceholderImage] && c.image == Cards.PlaceholderImage
    ensures d.badges != [] ==> c.badges == d.badges
  {
    PostCard(now, d.title, d.description, CoverImage(d.images), BadgesOrNew(d.badges),
      Roll(viewRandom, MaxViewsRoll), Roll(likeRandom, MaxLikesRoll), date, d.category,
      d.price, d.location, d.bedrooms, d.bathrooms, d.area, d.description,
      if |d.images| > 0 then d.images else [Cards.PlaceholderImage])
  }

  /** `setShowForm(true)` */
  function OpenForm(p: Page): (r: Page)
    ensures r.showForm && r.newCards == p.newCards && r.alerts == p.alerts
  {
    p.(showForm := true)
  }

  /**
    `handleFormSubmit`: the new card goes first, the earlier cards follow
    in order, the form closes and the success alert shows.
  */
  function HandleFormSubmit(p: Page, d: Data, now: int, date: string, viewRandom: real, likeRandom: real): (r: Page)
    requires 0.0 <= viewRandom < 1.0 && 0.0 <= likeRandom < 1.0
    ensures |r.newCards| == |p.newCards| + 1 && r.newCards[1..] == p.newCards
    ensures r.newCards[0] == CardOf(d, now, date, viewRandom, likeRandom)
    ensures !r.showForm && r.alerts == p.alerts + [PostedAlert]
  {
    Page(false, [CardOf(d, now, date, viewRandom, likeRandom)] + p.newCards, p.alerts + [PostedAlert])
  }

  /**
    Pressing the form's submit button on the posts page: the form's own
    check runs first, and only data it lets out reaches the page.
  */
  function SubmitForm(p: Page, e: Editor, now: int, date: string, viewRandom: real, likeRandom: real): (r: (Page, Editor))
    requires 0.0 <= viewRandom < 1.0 && 0.0 <= likeRandom < 1.0
    ensures !Ready(e.data) ==> r.0.newCards == p.newCards && r.0.showForm == p.showForm && r.1 == e
    ensures Ready(e.data) ==> |r.0.newCards| == |p.newCards| + 1 && r.0.newCards[1..] == p.newCards && r.1.data == Blank
  {
    var s := Submit(e);
    if |s.posted| == 0 then (p.(alerts := p.alerts + s.alert), s.editor)
    else (HandleFormSubmit(p, s.posted[0], now, date, viewRandom, likeRandom), s.editor)
  }

  /**
    The card a consistent, complete form produces shows what its preview
    showed: the same title, price, location, area, cover, badges and
    counters; only the image list differs, when there was none, by the
    placeholder the preview draws as cover.
  */
  lemma PostedCardMatchesPreview(p: Page, e: Editor, now: int, date: string, viewRandom: real, likeRandom: real)
    requires 0.0 <= viewRandom < 1.0 && 0.0 <= likeRandom < 1.0
    requires Consistent(e.data) && Ready(e.data)
    ensures var card := SubmitForm(p, e, now, date, viewRandom, likeRandom).0.newCards[0];
      var preview := Preview(e.data, now, date);
      && card.title == preview.title && card.price == preview.price
      && card.location == preview.location && card.area == preview.area
      && card.image == preview.image && card.badges == preview.badges
      && card.bedrooms == preview.bedrooms && card.bathrooms == preview.bathrooms
      && card.category == preview.category
      && (e.data.images != [] ==> card.imageUrls == preview.imageUrls)
      && card.image == card.imageUrls[0]
  {
    PostedDataConsistent(e);
  }
}

=== FILE: property_form.dfy ===
/**
  The quick property form (`PropertyForm`) the posts page opens: text
  fields, two counters that never go below one, up to five distinct
  badges and up to twenty distinct image URLs typed in by hand, a submit
  that insists on a title, a price, a location and an area, and a preview
  card that fills every empty field with a stand-in.

  The preview's `Date.now()` and ISO date are parameters; its rating (a
  float constant) is left out.
*/
module PropertyForm {
  import opened Seqs
  import Cards

  datatype Data = Data(
    title: string,
    description: string,
    price: string,
    location: string,
    bedrooms: int,
    bathrooms: int,
    area: string,
    category: string,
    badges: seq<string>,
    images: seq<string>)

  const DefaultCategory := "บ้านเดี่ยว"
  const MaxBadges := 5
  const MaxImages := 20
  const MissingFieldsAlert := "กรุณากรอกข้อมูลที่จำเป็นให้ครบถ้วน"

  /** The form as it opens and as it is reset after a submission. */
  const Blank := Data("", "", "", "", 1, 1, "", DefaultCategory, [], [])

  /** The form data and the two pending text boxes for a badge and an image URL. */
  datatype Editor = Editor(data: Data, newBadge: string, newImage: string)

  /**
    What every edit keeps: both counters at least one, the badges and the
    images distinct, non-empty and within their limits.
  */
  ghost predicate Consistent(d: Data) {
    && d.bedrooms >= 1 && d.bathrooms >= 1
    && |d.badges| <= MaxBadges && Distinct(d.badges) && "" !in d.badges
    && |d.images| <= MaxImages && Distinct(d.images) && "" !in d.images
  }

  lemma BlankIsConsistent()
    ensures Consistent(Blank)
  {
  }

  // ---------------------------------------------------------------------------
  // handleInputChange

  /** The inputs that carry a `name` attribute. */
  datatype TextField = Title | Description | Price | Location | Category | Area

  function Read(d: Data, f: TextField): string {
    match f
    case Title => d.title
    case Description => d.description
    case Price => d.price
    case Location => d.location
    case Category => d.category
    case Area => d.area
  }

  /** Typing into a text input sets that field and nothing else. */
  function InputChange(d: Data, f: TextField, value: string): (r: Data)
    ensures Read(r, f) == value
    ensures forall g: TextField :: g != f ==> Read(r, g) == Read(d, g)
    ensures r.bedrooms == d.bedrooms && r.bathrooms == d.bathrooms
    ensures r.badges == d.badges && r.images == d.images
  {
    match f
    case Title => d.(title := value)
    case Description => d.(description := value)
    case Price => d.(price := value)
    case Location => d.(location := value)
    case Category => d.(category := value)
    case Area => d.(area := value)
  }

  // ---------------------------------------------------------------------------
  // handleNumberChange

  datatype Counter = Bedrooms | Bathrooms

  function CountOf(d: Data, c: Counter): int {
    match c
    case Bedrooms => d.bedrooms
    case Bathrooms => d.bathrooms
  }

  /** `Math.max(1, value)` into one counter; the other counter stays. */
  function NumberChange(d: Data, c: Counter, value: int): (r: Data)
    ensures CountOf(r, c) >= 1
    ensures value >= 1 ==> CountOf(r, c) == value
    ensures value < 1 ==> CountOf(r, c) == 1
    ensures forall o: Counter :: o != c ==> CountOf(r, o) == CountOf(d, o)
    ensures r.(bedrooms := d.bedrooms, bathrooms := d.bathrooms) == d
  {
    var v := if value < 1 then 1 else value;
    match c
    case Bedrooms => d.(bedrooms := v)
    case Bathrooms => d.(bathrooms := v)
  }

  /** The "-" and "+" buttons: the counter minus or plus one. */
  function Step(d: Data, c: Counter, up: bool): (r: Data)
    ensures CountOf(r, c) >= 1
  {
    NumberChange(d, c, if up then CountOf(d, c) + 1 else CountOf(d, c) - 1)
  }

  /** "-" stops at one, and "+" followed by "-" gives back the form. */
  lemma StepsStayAboveZero(d: Data, c: Counter)
    requires Consistent(d)
    ensures CountOf(d, c) == 1 ==> Step(d, c, false) == d
    ensures Step(Step(d, c, true), c, false) == d
  {
  }

  // ---------------------------------------------------------------------------
  // Badges and image URLs

  /** The test `addBadge` and `addImage` apply before appending. */
  predicate CanAdd(s: seq<string>, x: string, max: nat) {
    x != "" && x !in s && |s| < max
  }

  /**
    `addBadge(badge)`: a new non-empty badge is appended while there are
    fewer than five, and the badge box is cleared; otherwise nothing changes.
  */
  function AddBadge(e: Editor, badge: string): (r: Editor)
    ensures CanAdd(e.data.badges, badge, MaxBadges) ==>
      r.data == e.data.(badges := e.data.badges + [badge]) && r.newBadge == "" && r.newImage == e.newImage
    ensures !CanAdd(e.data.badges, badge, MaxBadges) ==> r == e
  {
    if CanAdd(e.data.badges, badge, MaxBadges) then
      Editor(e.data.(badges := e.data.badges + [badge]), "", e.newImage)
    else e
  }

  /** `removeBadge(index)` */
  function RemoveBadge(d: Data, index: int): (r: Data)
    ensures r.(badges := d.badges) == d
    ensures 0 <= index < |d.badges| ==> |r.badges| == |d.badges| - 1
    ensures 0 <= index < |d.badges| && Distinct(d.badges) ==> d.badges[index] !in r.badges
    ensures forall b :: b in r.badges ==> b in d.badges
  {
    d.(badges := RemoveAt(d.badges, index))
  }

  /**
    `addImage()`: the URL typed in the image box is appended when it is
    non-empty, new and there are fewer than twenty; the box is cleared.
  */
  function AddImage(e: Editor): (r: Editor)
    ensures CanAdd(e.data.images, e.newImage, MaxImages) ==>
      r.data == e.data.(images := e.data.images + [e.newImage]) && r.newImage == "" && r.newBadge == e.newBadge
    ensures !CanAdd(e.data.images, e.newImage, MaxImages) ==> r == e
  {
    if CanAdd(e.data.images, e.newImage, MaxImages) then
      Editor(e.data.(images := e.data.images + [e.newImage]), e.newBadge, "")
    else e
  }

  /** `removeImage(index)` */
  function RemoveImage(d: Data, index: int): (r: Data)
    ensures r.(images := d.images) == d
    ensures 0 <= index < |d.images| ==> |r.images| == |d.images| - 1
    ensures 0 <= index < |d.images| && Distinct(d.images) ==> d.images[index] !in r.images
    ensures forall u :: u in r.images ==> u in d.images
  {
    d.(images := RemoveAt(d.images, index))
  }

  /** Appending a fresh element keeps a list distinct. */
  lemma AppendKeepsDistinct(s: seq<string>, x: string)
    requires Distinct(s) && x !in s
    ensures Distinct(s + [x])
  {
    var t := s + [x];
    forall i, j | 0 <= i < j < |t| ensures t[i] != t[j] {
      if j == |s| {
        assert t[i] == s[i];
      } else {
        assert t[i] == s[i] && t[j] == s[j];
      }
    }
  }

  /** Removing one position keeps a list distinct. */
  lemma RemoveKeepsDistinct(s: seq<string>, index: int)
    requires Distinct(s)
    ensures Distinct(RemoveAt(s, index))
  {
    if 0 <= index < |s| {
      var t := RemoveAt(s, index);
      forall i, j | 0 <= i < j < |t| ensures t[i] != t[j] {
        var i' := if i < index then i else i + 1;
        var j' := if j < index then j else j + 1;
        assert t[i] == s[i'] && t[j] == s[j'];
      }
    }
  }

  /** Every edit the form offers keeps the form consistent. */
  lemma EditsKeepConsistent(e: Editor, f: TextField, value: string, c: Counter, n: int, badge: string, index: int)
    requires Consistent(e.data)
    ensures Consistent(InputChange(e.data, f, value))
    ensures Consistent(NumberChange(e.data, c, n))
    ensures Consistent(AddBadge(e, badge).data)
    ensures Consistent(AddImage(e).data)
    ensures Consistent(RemoveBadge(e.data, index))
    ensures Consistent(RemoveImage(e.data, index))
  {
    if CanAdd(e.data.badges, badge, MaxBadges) {
      AppendKeepsDistinct(e.data.badges, badge);
    }
    if CanAdd(e.data.images, e.newImage, MaxImages) {
      AppendKeepsDistinct(e.data.images, e.newImage);
    }
    RemoveKeepsDistinct(e.data.badges, index);
    RemoveKeepsDistinct(e.data.images, index);
  }

  /** Adding a badge and removing the last one gives back the form. */
  lemma AddThenRemoveBadge(e: Editor, badge: string)
    requires CanAdd(e.data.badges, badge, MaxBadges)
    ensures RemoveBadge(AddBadge(e, badge).data, |e.data.badges|) == e.data
  {
    var s := e.data.badges + [badge];
    assert s[..|e.data.badges|] + s[|e.data.badges| + 1..] == e.data.badges;
  }

  // ---------------------------------------------------------------------------
  // handleSubmit

  /** The four fields the submit button insists on. */
  predicate Ready(d: Data) {
    d.title != "" && d.price != "" && d.location != "" && d.area != ""
  }

  /** The editor after a submit, the data handed to `onSubmit` (if any) and the alert (if any). */
  datatype Submission = Submission(editor: Editor, posted: seq<Data>, alert: seq<string>)

  /**
    `handleSubmit`: a form missing a title, a price, a location or an area
    only raises the alert. Otherwise the data goes out with the placeholder
    picture standing in for an empty image list, and the form is reset
    (the badge and image boxes keep their text).
  */
  function Submit(e: Editor): (r: Submission)
    ensures !Ready(e.data) ==> r == Submission(e, [], [MissingFieldsAlert])
    ensures Ready(e.data) ==> |r.posted| == 1 && r.alert == []
    ensures Ready(e.data) ==> r.posted[0].(images := e.data.images) == e.data
    ensures Ready(e.data) ==> |r.posted[0].images| > 0
    ensures Ready(e.data) && e.data.images != [] ==> r.posted[0].images == e.data.images
    ensures Ready(e.data) && e.data.images == [] ==> r.posted[0].images == [Cards.PlaceholderImage]
    ensures Ready(e.data) ==> r.editor == e.(data := Blank)
  {
    if !Ready(e.data) then Submission(e, [], [MissingFieldsAlert])
    else
      var images := if |e.data.images| > 0 then e.data.images else [Cards.PlaceholderImage];
      Submission(e.(data := Blank), [e.data.(images := images)], [])
  }

  /** The data a consistent form sends is consistent and ready. */
  lemma PostedDataConsistent(e: Editor)
    requires Consistent(e.data) && Ready(e.data)
    ensures var d := Submit(e).posted[0];
      Consistent(d) && Ready(d) && d.images != [] && d.images[0] != ""
  {
  }

  // ---------------------------------------------------------------------------
  // generatePreview and the card the posts page builds

  /** The card shape the preview and the posts page build (`CardData` of the posts page). */
  datatype PostCard = PostCard(
    id: int,
    title: string,
    description: string,
    image: string,
    badges: seq<string>,
    views: int,
    likes: int,
    date: string,
    category: string,
    price: string,
    location: string,
    bedrooms: int,
    bathrooms: int,
    area: string,
    fullText: string,
    imageUrls: seq<string>)

  const TitleStandIn := "ชื่อบ้าน"
  const DescriptionStandIn := "คำอธิบาย"
  const NewBadge := "ใหม่"
  const PriceStandIn := "0"
  const LocationStandIn := "ที่อยู่"
  const AreaStandIn := "0 ตร.ม."

  /** `x || fallback` for a string. */
  function Or(x: string, fallback: string): (r: string)
    ensures x != "" ==> r == x
    ensures x == "" ==> r == fallback
  {
    if x != "" then x else fallback
  }

  /** `images[0] || placeholder` */
  function CoverImage(images: seq<string>): (r: string)
    ensures |images| > 0 && images[0] != "" ==> r == images[0]
    ensures !(|images| > 0 && images[0] != "") ==> r == Cards.PlaceholderImage
  {
    if |images| > 0 && images[0] != "" then images[0] else Cards.PlaceholderImage
  }

  /** `badges.length > 0 ? badges : ["ใหม่"]` */
  function BadgesOrNew(badges: seq<string>): (r: seq<string>)
    ensures |r| > 0
    ensures |badges| > 0 ==> r == badges
    ensures |badges| == 0 ==> r == ["ใหม่"]
  {
    if |badges| > 0 then badges else [NewBadge]
  }

  /**
    `generatePreview`: the card as it would look, with every empty text
    field shown as its stand-in, no views or likes yet, and the form's
    own image list.
  */
  function Preview(d: Data, now: int, date: string): (c: PostCard)
    ensures c.title != "" && c.description != "" && c.image != "" && c.price != ""
    ensures c.location != "" && c.area != "" && c.fullText != "" && |c.badges| > 0
    ensures c.id == now && c.views == 0 && c.likes == 0 && c.imageUrls == d.images
    ensures d.title != "" ==> c.title == d.title
    ensures d.price != "" ==> c.price == d.price
    ensures d.location != "" ==> c.location == d.location
    ensures d.area != "" ==> c.area == d.area
    ensures d.description != "" ==> c.description == d.description && c.fullText == d.description
    ensures c.category == d.category && c.bedrooms == d.bedrooms && c.bathrooms == d.bathrooms
    ensures d.title == "" ==> c.title == "ชื่อบ้าน"
    ensures d.description == "" ==> c.description == "คำอธิบาย" && c.fullText == "คำอธิบาย"
    ensures d.price == "" ==> c.price == "0"
    ensures d.location == "" ==> c.location == "ที่อยู่"
    ensures d.area == "" ==> c.area == "0 ตร.ม."
    ensures c.image == CoverImage(d.images) && c.badges == BadgesOrNew(d.badges)
  {
    PostCard(now, Or(d.title, TitleStandIn), Or(d.description, DescriptionStandIn), CoverImage(d.images),
      BadgesOrNew(d.badges), 0, 0, date, d.category, Or(d.price, PriceStandIn), Or(d.location, LocationStandIn),
      d.bedrooms, d.bathrooms, Or(d.area, AreaStandIn), Or(d.description, DescriptionStandIn), d.images)
  }
}

=== FILE: saved_listings.dfy ===
/**
  The "my saved listings" page: the caller's unpublished listings, with a
  publish button that also puts a card for the listing in the browser's
  cached card list, and a delete button behind a confirmation.

  Server calls are given by their settled `ApiResult`; the clock, the
  user's answer to `confirm` and whether `localStorage` accepts the write
  are parameters. Alerts are recorded as the page's last message.
*/
module SavedListings {
  import opened Options
  import opened Json
  import opened Seqs
  import opened Cards
  import opened HouseSalesApi

  datatype Page = Page(
    saved: seq<HouseSaleData>,
    loading: bool,
    publishingId: Option<string>,
    cache: seq<Card>,
    events: nat,
    alert: Option<string>)

  const SavedBadges := ["โพสต์ใหม่"]
  const PublishedAlert := "โพสต์ประกาศสำเร็จ! ประกาศจะแสดงในหน้าหลักแล้ว"
  const PublishFailedAlert := "เกิดข้อผิดพลาดในการโพสต์ประกาศ"
  const DeletedAlert := "ลบประกาศสำเร็จ"
  const DeleteFailedAlert := "เกิดข้อผิดพลาดในการลบประกาศ"

  /** The reply of the list call: `success` and `data`, or a failure. */
  datatype FetchReply = Fetched(success: bool, data: seq<HouseSaleData>) | FetchFailed

  /** `fetchSavedListings`: a successful reply replaces the list; loading ends either way. */
  function Fetch(p: Page, reply: FetchReply): (r: Page)
    ensures !r.loading
    ensures reply.Fetched? && reply.success ==> r.saved == reply.data
    ensures !(reply.Fetched? && reply.success) ==> r.saved == p.saved
    ensures r.cache == p.cache && r.events == p.events
  {
    if reply.Fetched? && reply.success then p.(saved := reply.data, loading := false)
    else p.(loading := false)
  }

  /** `listing.id === id`: a listing without an id matches nothing. */
  predicate HasListingId(l: HouseSaleData, id: string) {
    l.id == Some(id)
  }

  /** `savedListings.find(listing => listing.id === id)` */
  function FindListing(saved: seq<HouseSaleData>, id: string): (r: Option<HouseSaleData>)
    ensures r.Some? ==> r.value in saved && HasListingId(r.value, id)
    ensures r.None? <==> forall l :: l in saved ==> !HasListingId(l, id)
  {
    if |saved| == 0 then None
    else if HasListingId(saved[0], id) then Some(saved[0])
    else FindListing(saved[1..], id)
  }

  /** `prev.filter(listing => listing.id !== id)` */
  function Without(saved: seq<HouseSaleData>, id: string): (r: seq<HouseSaleData>)
    ensures forall l :: l in r <==> l in saved && !HasListingId(l, id)
    ensures |r| <= |saved|
  {
    Filter(saved, (l: HouseSaleData) => !HasListingId(l, id))
  }

  /** The publish call succeeded: `response.success` is truthy. */
  predicate Succeeded(result: ApiResult) {
    result.Resolved? && result.value.JObj? && TruthyAt(result.value.fields, "success")
  }

  /**
    `handlePublish(id)`. On success the listing leaves the page and, when
    it was on the page, a card for it is cached (if storage accepts it); a
    reply without `success` changes nothing and says nothing; a failure
    (including a `null` reply, on which reading `success` throws) alerts.
    The spinner is cleared in every case.
  */
  function HandlePublish(p: Page, id: string, result: ApiResult, now: int, date: string, storageOk: bool): (r: Page)
    ensures id == "" ==> r == p
    ensures id != "" ==> r.publishingId.None? && r.loading == p.loading
    ensures id != "" && Succeeded(result) ==>
      r.saved == Without(p.saved, id) && r.alert == Some(PublishedAlert)
    ensures id != "" && Succeeded(result) && FindListing(p.saved, id).Some? && storageOk ==>
      r.cache == [ProjectCard(FindListing(p.saved, id).value, now, date, SavedBadges)] + p.cache && r.events == p.events + 1
    ensures id != "" && Succeeded(result) && (FindListing(p.saved, id).None? || !storageOk) ==>
      r.cache == p.cache && r.events == p.events
    ensures id != "" && !Succeeded(result) ==> r.saved == p.saved && r.cache == p.cache && r.events == p.events
    ensures id != "" && (result.Rejected? || result.value == JNull) ==> r.alert == Some(PublishFailedAlert)
    ensures id != "" && result.Resolved? && result.value != JNull && !Succeeded(result) ==> r.alert == p.alert
  {
    if id == "" then p
    else if Succeeded(result) then
      var found := FindListing(p.saved, id);
      var cache := if found.Some? && storageOk then [ProjectCard(found.value, now, date, SavedBadges)] + p.cache else p.cache;
      var events := if found.Some? && storageOk then p.events + 1 else p.events;
      p.(saved := Without(p.saved, id), publishingId := None, cache := cache, events := events, alert := Some(PublishedAlert))
    else if result.Rejected? || result.value == JNull then
      p.(publishingId := None, alert := Some(PublishFailedAlert))
    else
      p.(publishingId := None)
  }

  /**
    `handleDelete(id)`: after confirmation and a settled delete call the
    listing leaves the page; a refused call or a declined confirmation
    leaves the list as it is.
  */
  function HandleDelete(p: Page, id: string, confirmed: bool, result: ApiResult): (r: Page)
    ensures id == "" || !confirmed ==> r == p
    ensures id != "" && confirmed && result.Resolved? ==> r.saved == Without(p.saved, id) && r.alert == Some(DeletedAlert)
    ensures id != "" && confirmed && result.Rejected? ==> r.saved == p.saved && r.alert == Some(DeleteFailedAlert)
    ensures r.cache == p.cache && r.events == p.events && r.publishingId == p.publishingId
  {
    if id == "" || !confirmed then p
    else if result.Resolved? then p.(saved := Without(p.saved, id), alert := Some(DeletedAlert))
    else p.(alert := Some(DeleteFailedAlert))
  }

  /**
    A listing gets at most one card from this page: once published it is
    off the page, so a second successful publish of the same id caches
    nothing more.
  */
  lemma RepublishAddsNoCard(p: Page, id: string, r1: ApiResult, r2: ApiResult, t1: int, t2: int,
                            d1: string, d2: string, s1: bool, s2: bool)
    requires id != "" && Succeeded(r1)
    ensures var once := HandlePublish(p, id, r1, t1, d1, s1);
      var twice := HandlePublish(once, id, r2, t2, d2, s2);
      twice.cache == once.cache && twice.events == once.events && twice.saved == once.saved
  {
    var once := HandlePublish(p, id, r1, t1, d1, s1);
    assert FindListing(once.saved, id).None?;
    FilterIdempotent(p.saved, (l: HouseSaleData) => !HasListingId(l, id));
  }

  /** Publishing and deleting take the listing off the page in the same way. */
  lemma PublishAndDeleteAgreeOnList(p: Page, id: string, r1: ApiResult, r2: ApiResult, now: int, date: string, storageOk: bool)
    requires id != "" && Succeeded(r1) && r2.Resolved?
    ensures HandlePublish(p, id, r1, now, date, storageOk).saved == HandleDelete(p, id, true, r2).saved
    ensures forall l :: l in HandleDelete(p, id, true, r2).saved ==> !HasListingId(l, id)
  {
  }

  /** A listing that is on the page and published successfully is what the new card shows. */
  lemma PublishedCardShowsListing(p: Page, i: nat, result: ApiResult, now: int, date: string)
    requires i < |p.saved| && p.saved[i].id.Some? && p.saved[i].id.value != ""
    requires forall j :: 0 <= j < |p.saved| && j != i ==> p.saved[j].id != p.saved[i].id
    requires Succeeded(result)
    ensures var r := HandlePublish(p, p.saved[i].id.value, result, now, date, true);
      && |r.cache| > 0 && r.cache[0] == ProjectCard(p.saved[i], now, date, SavedBadges)
      && r.cache[0].title == p.saved[i].title
      && |r.saved| < |p.saved|
  {
    var id := p.saved[i].id.value;
    var f := FindListing(p.saved, id);
    assert p.saved[i] in p.saved && HasListingId(p.saved[i], id);
    assert f.Some?;
    assert f.value == p.saved[i] by {
      var k :| 0 <= k < |p.saved| && p.saved[k] == f.value;
      assert k == i;
    }
    var w := Without(p.saved, id);
    assert p.saved[i] !in w;
    FilterMultiset(p.saved, (l: HouseSaleData) => !HasListingId(l, id));
    assert multiset(w) <= multiset(p.saved);
    assert multiset(w)[p.saved[i]] == 0 < multiset(p.saved)[p.saved[i]];
    var gone := multiset(p.saved) - multiset(w);
    assert multiset(p.saved) == multiset(w) + gone;
    assert p.saved[i] in gone;
  }
}

=== FILE: sell_house.dfy ===
/**
  The sell page's submit handler (`handleFormSubmit`). The page answers
  optimistically: a published listing becomes a card in the browser's
  cached card list at once and the success view is shown before the server
  has been asked; the create request is sent afterwards, and its result
  only decides what is logged and whether the user is offered a new login.

  `localStorage` either accepts the write or throws (`storageOk`); the
  create request's result is the `CreateCall` of the API client; the
  user's answer to the login prompt is `confirmed`.
*/
module SellHouse {
  import opened Options
  import opened Json
  import opened Cards
  import opened HouseSalesApi
  import HouseSaleDto
  import ListingStore
  import ListingLifecycle

  datatype Action = Save | Publish

  /**
    What the page changes in the browser: the cached cards, how many
    `houseSaleAdded` events it has dispatched, and the data the success
    view shows (`None` while the form is shown).
  */
  datatype Page = Page(cache: seq<Card>, events: nat, submitted: Option<HouseSaleData>)

  /** The badges a card from this page gets when the data has none. */
  const SellBadges := ["ใหม่", "เพิ่มใหม่"]

  /** The status the background request asks for. */
  function StatusFor(action: Action): (s: string)
    ensures s == "published" <==> action == Publish
    ensures action == Save ==> s == "saved"
  {
    if action == Publish then "published" else "saved"
  }

  /** The page after submitting, and the data sent in the background. */
  datatype Submission = Submission(page: Page, request: HouseSaleData)

  function Submit(p: Page, d: HouseSaleData, action: Action, now: int, date: string, storageOk: bool): (s: Submission)
    ensures s.page.submitted == Some(d)
    ensures action == Publish && storageOk ==>
      s.page.cache == [ProjectCard(d, now, date, SellBadges)] + p.cache && s.page.events == p.events + 1
    ensures action == Save || !storageOk ==> s.page.cache == p.cache && s.page.events == p.events
    ensures s.request == d.(status := Some(StatusFor(action)))
  {
    var page :=
      if action == Publish && storageOk then
        Page([ProjectCard(d, now, date, SellBadges)] + p.cache, p.events + 1, Some(d))
      else
        Page(p.cache, p.events, Some(d));
    Submission(page, d.(status := Some(StatusFor(action))))
  }

  /** `resetForm`: back to the form, the cache kept. */
  function Reset(p: Page): (r: Page)
    ensures r.submitted.None? && r.cache == p.cache && r.events == p.events
  {
    p.(submitted := None)
  }

  /** What the page does once the background request settles. */
  datatype Reaction =
    | Synced          // `response.success`: logged
    | SyncWarned      // a reply without `success`: a warning is logged
    | SessionPrompt(toLogin: bool)  // an authentication failure: the user is asked, and maybe sent to the login page
    | FailureLogged   // any other failure: logged, nothing shown

  /**
    The reaction to a settled create call. Reading `success` off a `null`
    reply throws, and that error carries no session wording, so it is
    only logged.
  */
  function React(c: CreateCall, confirmed: bool): (r: Reaction)
    ensures r.SessionPrompt? <==> c.result.Rejected? && IsSessionProblem(c.result.message)
    ensures r.SessionPrompt? ==> r.toLogin == confirmed
    ensures r == Synced <==> c.result.Resolved? && c.result.value.JObj? && TruthyAt(c.result.value.fields, "success")
    ensures r == SyncWarned <==>
      (c.result.Resolved? && c.result.value != JNull && !(c.result.value.JObj? && TruthyAt(c.result.value.fields, "success")))
  {
    match c.result
    case Resolved(j) =>
      if j == JNull then FailureLogged
      else if j.JObj? && TruthyAt(j.fields, "success") then Synced
      else SyncWarned
    case Rejected(m) =>
      if IsSessionProblem(m) then SessionPrompt(confirmed) else FailureLogged
  }

  /** Without a token the request is never sent, and the user is offered a new login. */
  lemma NoTokenPromptsLogin(reply: HttpReply, confirmed: bool)
    ensures !CreateHouseSale(None, reply).requestSent
    ensures React(CreateHouseSale(None, reply), confirmed) == SessionPrompt(confirmed)
  {
    AuthFailuresAreSessionProblems();
  }

  /** A 401 clears the stored tokens and offers a new login. */
  lemma ExpiredSessionPromptsLogin(token: Option<string>, body: Body, confirmed: bool)
    requires HasToken(token)
    ensures CreateHouseSale(token, Response(401, body)).tokensCleared
    ensures React(CreateHouseSale(token, Response(401, body)), confirmed) == SessionPrompt(confirmed)
  {
    AuthFailuresAreSessionProblems();
  }

  /**
    The status the page asks for is the one the listing gets: a row
    created from the request is published exactly when the user chose to
    publish, and then it has a publication time.
  */
  lemma RequestedStatusIsKept(p: Page, d: HouseSaleData, action: Action, now: int, date: string, storageOk: bool,
                              db: ListingStore.Db, userId: string, newId: string, t: int)
    requires !ListingStore.HasId(db.rows, newId)
    ensures var row := ListingLifecycle.Create(db, ToWire(Submit(p, d, action, now, date, storageOk).request), userId, newId, t).out.value.data;
      && (row.Published() <==> action == Publish)
      && (row.publishedAt.Some? <==> action == Publish)
      && row.Status() == JStr(StatusFor(action))
  {
    var body := ToWire(Submit(p, d, action, now, date, storageOk).request);
    assert body["status"] == JStr(StatusFor(action));
    assert ListingLifecycle.InitialStatus(body) == JStr(StatusFor(action));
  }

  /**
    A listing with no bedroom is published on the page and refused by the
    server: the card is in the cache and the success view is shown, while
    the create body fails the server's checks and the refusal, whose
    message carries no session wording, is only logged.
  */
  lemma NoBedroomPublishedOnlyLocally(p: Page, d: HouseSaleData, now: int, date: string,
                                      token: Option<string>, status: int, body: Body,
                                      isEmail: string -> bool, confirmed: bool)
    requires d.bedrooms < 1
    requires HasToken(token) && !IsOk(status) && status != 401
    requires !IsSessionProblem(ErrorBodyMessage(status, body))
    ensures var s := Submit(p, d, Publish, now, date, true);
      && s.page.submitted == Some(d)
      && s.page.cache[0] == ProjectCard(d, now, date, SellBadges)
      && !HouseSaleDto.ValidCreate(ToWire(s.request), isEmail)
      && React(CreateHouseSale(token, Response(status, body)), confirmed) == FailureLogged
  {
    var s := Submit(p, d, Publish, now, date, true);
    HouseSaleDto.RoomCountOutOfRangeRejected(ToWire(s.request), isEmail, "bedrooms", d.bedrooms);
  }

  /**
    The refusal the server sends for a bedroom count below one, a 400 whose
    `message` lists the failed check, carries no session wording: the page
    only logs it.
  */
  lemma BedroomRefusalIsLogged(m: string, confirmed: bool)
    requires m == "bedrooms must not be less than 1"
    ensures var body := Parsed(JObj(map["message" := JArr([JStr(m)]), "error" := JStr("Bad Request"), "statusCode" := JNum(400)]));
      && ErrorBodyMessage(400, body) == m
      && !IsSessionProblem(m)
  {
    var body := Parsed(JObj(map["message" := JArr([JStr(m)]), "error" := JStr("Bad Request"), "statusCode" := JNum(400)]));
    assert TruthyAt(body.json.fields, "message");
    assert JsString(JArr([JStr(m)])) == m by {
      var parts := seq(1, i requires 0 <= i < 1 => if [JStr(m)][i] == JNull then "" else JsString([JStr(m)][i]));
      assert parts == [m];
    }
    FirstCharAbsent(m, SessionMarker);
    SecondCharMismatch(m, TokenMarker);
  }
}

=== FILE: seqs.dfy ===
/**
  Array operations of the JavaScript runtime used throughout the application:
  `filter`, `filter((_, i) => i !== index)`, `slice` with its clamping of
  negative and out-of-range bounds, `[...new Set(xs)]` and counting.
*/
module Seqs {

  ghost predicate Distinct<T>(s: seq<T>) {
    forall i, j :: 0 <= i < j < |s| ==> s[i] != s[j]
  }

  // ---------------------------------------------------------------------------
  // filter

  /** `s.filter(keep)` */
  function Filter<T(!new)>(s: seq<T>, keep: T -> bool): (r: seq<T>)
    ensures |r| <= |s|
    ensures forall x :: x in r <==> x in s && keep(x)
  {
    if |s| == 0 then []
    else (if keep(s[0]) then [s[0]] else []) + Filter(s[1..], keep)
  }

  /** Nothing is kept when no element passes. */
  lemma {:induction false} FilterNone<T(!new)>(s: seq<T>, keep: T -> bool)
    requires forall i :: 0 <= i < |s| ==> !keep(s[i])
    ensures Filter(s, keep) == []
  {
    if |s| > 0 {
      FilterNone(s[1..], keep);
    }
  }

  lemma {:induction false} FilterConcat<T(!new)>(a: seq<T>, b: seq<T>, keep: T -> bool)
    ensures Filter(a + b, keep) == Filter(a, keep) + Filter(b, keep)
  {
    if |a| == 0 {
      assert a + b == b;
    } else {
      assert (a + b)[1..] == a[1..] + b;
      FilterConcat(a[1..], b, keep);
    }
  }

  /** Filtering keeps everything when every element passes. */
  lemma {:induction false} FilterAll<T(!new)>(s: seq<T>, keep: T -> bool)
    requires forall i :: 0 <= i < |s| ==> keep(s[i])
    ensures Filter(s, keep) == s
  {
    if |s| > 0 {
      FilterAll(s[1..], keep);
    }
  }

  /** Filtering twice with the same test is filtering once. */
  lemma {:induction false} FilterIdempotent<T(!new)>(s: seq<T>, keep: T -> bool)
    ensures Filter(Filter(s, keep), keep) == Filter(s, keep)
  {
    var r := Filter(s, keep);
    forall i | 0 <= i < |r| ensures keep(r[i]) {
      assert r[i] in r;
    }
    FilterAll(r, keep);
  }

  /** Tests that agree everywhere filter alike. */
  lemma {:induction false} FilterExtensional<T(!new)>(s: seq<T>, p: T -> bool, q: T -> bool)
    requires forall x :: p(x) == q(x)
    ensures Filter(s, p) == Filter(s, q)
  {
    if |s| > 0 {
      FilterExtensional(s[1..], p, q);
    }
  }

  lemma {:induction false} FilterMultiset<T(!new)>(s: seq<T>, keep: T -> bool)
    ensures multiset(Filter(s, keep)) <= multiset(s)
  {
    if |s| > 0 {
      FilterMultiset(s[1..], keep);
      assert s == [s[0]] + s[1..];
    }
  }

  /** A sequence without repeats holds each value at most once. */
  lemma {:induction false} DistinctCountsOnce<T>(s: seq<T>, x: T)
    requires Distinct(s)
    ensures multiset(s)[x] <= 1
  {
    if |s| > 0 {
      assert s == [s[0]] + s[1..];
      DistinctCountsOnce(s[1..], x);
      if s[0] == x {
        assert x !in s[1..];
      }
    }
  }

  /** Taking no value more often than a sequence without repeats keeps none repeated. */
  lemma SubMultisetDistinct<T>(a: seq<T>, b: seq<T>)
    requires multiset(a) <= multiset(b) && Distinct(b)
    ensures Distinct(a)
  {
    forall i, j | 0 <= i < j < |a|
      ensures a[i] != a[j]
    {
      if a[i] == a[j] {
        var x := a[i];
        assert a == a[..j] + a[j..];
        assert x in a[..j] && x in a[j..];
        assert multiset(a)[x] >= 2;
        DistinctCountsOnce(b, x);
        assert false;
      }
    }
  }

  // ---------------------------------------------------------------------------
  // Removing one position

  /** `s.filter((_, i) => i !== index)` */
  function RemoveAt<T>(s: seq<T>, index: int): (r: seq<T>)
    ensures 0 <= index < |s| ==> r == s[..index] + s[index + 1..]
    ensures !(0 <= index < |s|) ==> r == s
  {
    if |s| == 0 then []
    else
      var rest := RemoveAt(s[1..], index - 1);
      if index == 0 then rest
      else
        assert 0 < index < |s| ==> s[..index] + s[index + 1..] == [s[0]] + (s[1..][..index - 1] + s[1..][index..]);
        [s[0]] + rest
  }

  // ---------------------------------------------------------------------------
  // slice

  /** Clamp a relative `slice` bound as the JavaScript specification does. */
  function SliceBound(k: int, len: nat): (b: nat)
    ensures b <= len
  {
    if k < 0 then (if len + k < 0 then 0 else len + k)
    else if k > len then len
    else k
  }

  /** `s.slice(start, end)` with negative and out-of-range bounds clamped. */
  function JsSlice<T>(s: seq<T>, start: int, end: int): (r: seq<T>)
    ensures |r| <= |s|
    ensures 0 <= start && 0 <= end ==> |r| <= if end - start < 0 then 0 else end - start
  {
    var from := SliceBound(start, |s|);
    var to := SliceBound(end, |s|);
    if to <= from then [] else s[from..to]
  }

  /** For bounds inside the array `slice` is the plain subsequence. */
  lemma JsSliceInRange<T>(s: seq<T>, start: nat, end: nat)
    requires start <= end <= |s|
    ensures JsSlice(s, start, end) == s[start..end]
  {
  }

  // ---------------------------------------------------------------------------
  // [...new Set(xs)]

  /** `[...new Set(s)]`: the first copy of every element, in order. */
  function Dedupe<T(==,!new)>(s: seq<T>): (r: seq<T>)
    ensures Distinct(r)
    ensures forall x :: x in r <==> x in s
    ensures |r| <= |s|
  {
    if |s| == 0 then []
    else
      var r := Dedupe(s[..|s| - 1]);
      if s[|s| - 1] in r then r else r + [s[|s| - 1]]
  }

  /** A list without repeats is its own deduplication. */
  lemma {:induction false} DedupeDistinct<T(!new)>(s: seq<T>)
    requires Distinct(s)
    ensures Dedupe(s) == s
  {
    if |s| > 0 {
      var p := s[..|s| - 1];
      DedupeDistinct(p);
      assert s[|s| - 1] !in p;
      assert s == p + [s[|s| - 1]];
    }
  }

  /** The first copies keep their order: a list without repeats leads its deduplicated extension. */
  lemma {:induction false} DedupeKeepsDistinctPrefix<T(!new)>(a: seq<T>, b: seq<T>)
    requires Distinct(a)
    ensures |Dedupe(a + b)| >= |a| && Dedupe(a + b)[..|a|] == a
    decreases |b|
  {
    if |b| == 0 {
      assert a + b == a;
      DedupeDistinct(a);
    } else {
      var b' := b[..|b| - 1];
      DedupeKeepsDistinctPrefix(a, b');
      assert (a + b)[..|a + b| - 1] == a + b';
    }
  }

  // ---------------------------------------------------------------------------
  // Counting

  /** `s.filter(p).length` */
  function Count<T>(s: seq<T>, p: T -> bool): (n: nat)
    ensures n <= |s|
  {
    if |s| == 0 then 0 else (if p(s[0]) then 1 else 0) + Count(s[1..], p)
  }

  lemma {:induction false} CountIsFilterLength<T(!new)>(s: seq<T>, p: T -> bool)
    ensures Count(s, p) == |Filter(s, p)|
  {
    if |s| > 0 {
      CountIsFilterLength(s[1..], p);
    }
  }

  /** When a list is split into disjoint cases the case counts add up. */
  lemma {:induction false} CountPartition<T>(s: seq<T>, a: T -> bool, b: T -> bool, c: T -> bool)
    requires forall i :: 0 <= i < |s| ==> (a(s[i]) || b(s[i]) || c(s[i]))
    requires forall x :: !(a(x) && b(x)) && !(a(x) && c(x)) && !(b(x) && c(x))
    ensures Count(s, a) + Count(s, b) + Count(s, c) == |s|
  {
    if |s| > 0 {
      CountPartition(s[1..], a, b, c);
    }
  }
}

=== FILE: simple_image_uploader.dfy ===
/**
  The browser-only picture picker (`SimpleImageUploader`): the selected
  files that fit under the maximum (20 unless the parent says otherwise)
  are checked like every picker's, each acceptable one is read as a data
  URL, and the pictures made are handed to the parent in one call after
  the ones it had. Nothing is stored anywhere but in the parent's list.

  Reading a file (`FileReader.readAsDataURL`) is the parameter `read`,
  `None` when the reader fails.
*/
module SimpleImageUploader {
  import opened Options
  import opened Seqs
  import opened Uploads
  import ImageUploader
  import PostForm

  /** The parent's picture list after a selection, and the alerts shown. */
  datatype Change = Change(images: seq<string>, alerts: seq<string>)

  /** The file reader as a conversion: a data URL does not depend on the picture's number. */
  function Reader(read: File -> Option<string>): (File, nat) -> Option<string> {
    (f: File, k: nat) => read(f)
  }

  /**
    `handleFileSelect` then `processFiles`: the pictures read from the
    files within the free places are appended in order; the alerts are
    the one about too many files, then one per turned-away file.
  */
  function HandleFileSelect(images: seq<string>, files: seq<File>, max: int, read: File -> Option<string>): (r: Change)
    ensures r.images == images + Collect(Slots(files, |images|, max), |images|, Reader(read))
    ensures |images| <= max ==> |r.images| <= max
    ensures r.alerts == ImageUploader.Select(images, files, max).1 + Rejections(Slots(files, |images|, max))
  {
    var selected := ImageUploader.Select(images, files, max);
    var made := Collect(selected.0, |images|, Reader(read));
    Change(if |made| > 0 then images + made else images, selected.1 + Rejections(selected.0))
  }

  /** `removeImage(index)`: the parent gets every other picture, in order. */
  function RemoveImage(images: seq<string>, index: int): (r: seq<string>)
    ensures 0 <= index < |images| ==> r == images[..index] + images[index + 1..]
    ensures !(0 <= index < |images|) ==> r == images
  {
    RemoveAt(images, index)
  }

  /**
    With a maximum of ten this picker adds exactly the pictures the post
    form adds when the post form's upload also reads the files locally.
  */
  lemma SameRuleAsPostForm(p: PostForm.Post, files: seq<File>, read: File -> Option<string>)
    ensures HandleFileSelect(p.images, files, PostForm.MaxPostImages, read).images ==
      PostForm.HandleImageUpload(p, files, Reader(read)).post.images
  {
  }

  /** Picking one readable picture and removing it again gives the parent back its list. */
  lemma RemoveUndoesSinglePick(images: seq<string>, f: File, max: int, read: File -> Option<string>)
    requires |images| < max && Acceptable(f) && read(f).Some?
    ensures RemoveImage(HandleFileSelect(images, [f], max, read).images, |images|) == images
  {
    var made := Collect([f], |images|, Reader(read));
    assert Slots([f], |images|, max) == [f];
    assert CollectFrom([f][1..], [read(f).value], |images|, Reader(read)) == [read(f).value];
    assert made == [read(f).value];
    var r := images + made;
    assert r[..|images|] + r[|images| + 1..] == images;
  }
}

=== FILE: strings.dfy ===
/**
  Character classes and string operations of the JavaScript runtime that the
  application relies on: the regular-expression classes `\d`, `\w` and `\s`,
  `includes`, `startsWith`, `toLowerCase` on ASCII, `trim`, `split`/`join`,
  number-to-decimal-string conversion and removing every copy of a character.
*/
module Strings {

  /** `\d` */
  predicate IsDigit(c: char) {
    '0' <= c <= '9'
  }

  predicate IsAsciiUpper(c: char) {
    'A' <= c <= 'Z'
  }

  predicate IsAsciiLower(c: char) {
    'a' <= c <= 'z'
  }

  /** `\w` (without the `u` flag): ASCII letters, digits and underscore. */
  predicate IsWordChar(c: char) {
    IsAsciiLower(c) || IsAsciiUpper(c) || IsDigit(c) || c == '_'
  }

  /** `\s`: the ECMAScript WhiteSpace and LineTerminator code points. */
  predicate IsJsSpace(c: char) {
    var n := c as int;
    n == 0x09 || n == 0x0A || n == 0x0B || n == 0x0C || n == 0x0D || n == 0x20
    || n == 0xA0 || n == 0x1680 || (0x2000 <= n <= 0x200A) || n == 0x2028
    || n == 0x2029 || n == 0x202F || n == 0x205F || n == 0x3000 || n == 0xFEFF
  }

  predicate AllDigits(s: string) {
    forall i :: 0 <= i < |s| ==> IsDigit(s[i])
  }

  // ---------------------------------------------------------------------------
  // Prefixes and substrings

  /** `s.startsWith(p)` */
  predicate IsPrefix(p: string, s: string) {
    |p| <= |s| && s[..|p|] == p
  }

  /** `sub` occurs in `s` starting at index `i`. */
  predicate OccursAt(s: string, sub: string, i: int) {
    0 <= i && i + |sub| <= |s| && s[i..i + |sub|] == sub
  }

  /** `s.includes(sub)` */
  predicate Contains(s: string, sub: string) {
    exists i | 0 <= i <= |s| :: OccursAt(s, sub, i)
  }

  /** An occurrence inside `s` is an occurrence inside any extension of `s`. */
  lemma ContainsInConcat(a: string, s: string, b: string, sub: string)
    requires Contains(s, sub)
    ensures Contains(a + s + b, sub)
  {
    var i :| 0 <= i <= |s| && OccursAt(s, sub, i);
    assert (a + s + b)[|a| + i..|a| + i + |sub|] == s[i..i + |sub|];
    assert OccursAt(a + s + b, sub, |a| + i);
  }

  // ---------------------------------------------------------------------------
  // Case

  function LowerChar(c: char): char {
    if IsAsciiUpper(c) then (c as int + 32) as char else c
  }

  /** `toLowerCase()` restricted to ASCII letters. */
  function AsciiLower(s: string): (r: string)
    ensures |r| == |s|
    ensures forall i :: 0 <= i < |s| ==> r[i] == LowerChar(s[i])
  {
    seq(|s|, i requires 0 <= i < |s| => LowerChar(s[i]))
  }

  // ---------------------------------------------------------------------------
  // Filtering characters

  /** `s.replace(/c/g, '')`: every copy of `c` removed. */
  function Without(s: string, c: char): (r: string)
    ensures c !in r
    ensures forall x :: x in r <==> x in s && x != c
    ensures |r| <= |s|
  {
    if |s| == 0 then ""
    else (if s[0] == c then "" else [s[0]]) + Without(s[1..], c)
  }

  /** `s.replace(/[^\d]/g, '')`: the digits of `s`, in order. */
  function DigitsOf(s: string): (r: string)
    ensures AllDigits(r)
    ensures |r| <= |s|
  {
    if |s| == 0 then ""
    else (if IsDigit(s[0]) then [s[0]] else "") + DigitsOf(s[1..])
  }

  lemma {:induction false} DigitsOfConcat(a: string, b: string)
    ensures DigitsOf(a + b) == DigitsOf(a) + DigitsOf(b)
  {
    if |a| == 0 {
      assert a + b == b;
    } else {
      assert (a + b)[1..] == a[1..] + b;
      DigitsOfConcat(a[1..], b);
    }
  }

  lemma {:induction false} DigitsOfAllDigits(s: string)
    requires AllDigits(s)
    ensures DigitsOf(s) == s
  {
    if |s| > 0 {
      DigitsOfAllDigits(s[1..]);
    }
  }

  // ---------------------------------------------------------------------------
  // Decimal numerals

  function DigitChar(d: nat): char
    requires d < 10
  {
    ('0' as int + d) as char
  }

  function DigitVal(c: char): nat
    requires IsDigit(c)
  {
    c as int - '0' as int
  }

  /** The value of a non-empty or empty run of decimal digits (0 for ""). */
  function DigitsValue(s: string): nat
    requires AllDigits(s)
  {
    if |s| == 0 then 0
    else 10 * DigitsValue(s[..|s| - 1]) + DigitVal(s[|s| - 1])
  }

  /** `String(n)` for a natural number: shortest decimal numeral. */
  function NatToString(n: nat): (r: string)
    ensures |r| > 0 && AllDigits(r)
    ensures DigitsValue(r) == n
    ensures r[0] == '0' ==> n == 0
  {
    if n < 10 then [DigitChar(n)]
    else
      var prefix := NatToString(n / 10);
      var r := prefix + [DigitChar(n % 10)];
      assert r[..|r| - 1] == prefix;
      r
  }

  /** Decimal numerals are unambiguous: different numbers print differently. */
  lemma NatToStringInjective(m: nat, n: nat)
    requires NatToString(m) == NatToString(n)
    ensures m == n
  {
  }

  /** `String(i)` for an integer. */
  function IntToString(i: int): (r: string)
    ensures |r| > 0
    ensures i >= 0 ==> r == NatToString(i)
    ensures i < 0 ==> r == "-" + NatToString(-i)
  {
    if i < 0 then "-" + NatToString(-i) else NatToString(i)
  }

  // ---------------------------------------------------------------------------
  // Whitespace

  predicate IsBlank(s: string) {
    forall i :: 0 <= i < |s| ==> IsJsSpace(s[i])
  }

  function TrimStart(s: string): (r: string)
    ensures |r| <= |s| && r == s[|s| - |r|..]
    ensures |r| > 0 ==> !IsJsSpace(r[0])
    ensures IsBlank(s[..|s| - |r|])
  {
    if |s| == 0 || !IsJsSpace(s[0]) then s
    else
      var r := TrimStart(s[1..]);
      assert s[..|s| - |r|] == [s[0]] + s[1..][..|s[1..]| - |r|];
      r
  }

  function TrimEnd(s: string): (r: string)
    ensures |r| <= |s| && r == s[..|r|]
    ensures |r| > 0 ==> !IsJsSpace(r[|r| - 1])
    ensures IsBlank(s[|r|..])
  {
    if |s| == 0 || !IsJsSpace(s[|s| - 1]) then s
    else
      var r := TrimEnd(s[..|s| - 1]);
      assert s[|r|..] == s[..|s| - 1][|r|..] + [s[|s| - 1]];
      r
  }

  /** `s.trim()` */
  function Trim(s: string): string {
    TrimEnd(TrimStart(s))
  }

  /** `!s.trim()` holds exactly for strings made only of whitespace. */
  lemma TrimEmptyIffBlank(s: string)
    ensures Trim(s) == "" <==> IsBlank(s)
  {
    var t := TrimStart(s);
    if Trim(s) == "" {
      assert IsBlank(t[0..]);
      assert |t| == 0;
      assert s[..|s| - |t|] == s;
    } else {
      var r := Trim(s);
      assert !IsJsSpace(r[0]);
      assert r[0] == t[0];
      assert t[0] == s[|s| - |t|];
    }
  }

  // ---------------------------------------------------------------------------
  // Splitting and joining

  /** `s.split(sep)` for a one-character separator. */
  function Split(s: string, sep: char): (parts: seq<string>)
    ensures |parts| > 0
    ensures forall k :: 0 <= k < |parts| ==> sep !in parts[k]
  {
    if |s| == 0 then [""]
    else
      var rest := Split(s[1..], sep);
      if s[0] == sep then [""] + rest
      else [[s[0]] + rest[0]] + rest[1..]
  }

  /** The first part is the text up to the first separator, or all of it. */
  lemma {:induction false} SplitFirstPart(s: string, sep: char)
    ensures var p := Split(s, sep)[0]; |p| <= |s| && p == s[..|p|]
    ensures var p := Split(s, sep)[0]; |p| == |s| || s[|p|] == sep
  {
    if |s| > 0 && s[0] != sep {
      SplitFirstPart(s[1..], sep);
    }
  }

  /** `parts.join(sep)` */
  function Join(parts: seq<string>, sep: char): string {
    if |parts| == 0 then ""
    else if |parts| == 1 then parts[0]
    else parts[0] + [sep] + Join(parts[1..], sep)
  }

  lemma {:induction false} JoinConsHead(c: char, parts: seq<string>, sep: char)
    requires |parts| > 0
    ensures Join([[c] + parts[0]] + parts[1..], sep) == [c] + Join(parts, sep)
  {
    var ps := [[c] + parts[0]] + parts[1..];
    if |parts| == 1 {
    } else {
      assert ps[1..] == parts[1..];
    }
  }

  /** Splitting and re-joining on the same separator gives the string back. */
  lemma {:induction false} JoinSplit(s: string, sep: char)
    ensures Join(Split(s, sep), sep) == s
  {
    if |s| > 0 {
      var rest := Split(s[1..], sep);
      JoinSplit(s[1..], sep);
      if s[0] == sep {
        assert ([""] + rest)[1..] == rest;
        assert s == [sep] + s[1..];
      } else {
        JoinConsHead(s[0], rest, sep);
        assert s == [s[0]] + s[1..];
      }
    }
  }

  // ---------------------------------------------------------------------------
  // Leading digits and character removal

  /** The longest prefix of `s` made of digits. */
  function LeadingDigits(s: string): (d: string)
    ensures AllDigits(d) && IsPrefix(d, s)
    ensures |d| < |s| ==> !IsDigit(s[|d|])
  {
    if |s| == 0 || !IsDigit(s[0]) then ""
    else [s[0]] + LeadingDigits(s[1..])
  }

  lemma {:induction false} LeadingDigitsOfDigits(s: string)
    requires AllDigits(s)
    ensures LeadingDigits(s) == s
  {
    if |s| > 0 {
      LeadingDigitsOfDigits(s[1..]);
    }
  }

  lemma {:induction false} WithoutConcat(a: string, b: string, c: char)
    ensures Without(a + b, c) == Without(a, c) + Without(b, c)
  {
    if |a| == 0 {
      assert a + b == b;
    } else {
      assert (a + b)[1..] == a[1..] + b;
      WithoutConcat(a[1..], b, c);
    }
  }

  lemma {:induction false} WithoutAbsent(s: string, c: char)
    requires c !in s
    ensures Without(s, c) == s
  {
    if |s| > 0 {
      WithoutAbsent(s[1..], c);
    }
  }
}

=== FILE: text_match.dfy ===
/**
  The one regular-expression shape the card parser uses: a number followed
  by optional white space and a keyword, `(\d+)\s*KEY` or, for prices and
  areas, `(\d+\.?\d*)\s*KEY`, searched for leftmost-first as
  `String.prototype.match` does.

  Every keyword the parser uses starts with a Thai letter, which is
  neither a digit, white space nor a dot, so at a given start the greedy
  match never needs to backtrack: the number is the longest run of digits
  (with, in decimal mode, a dot and the digits after it), the white space
  is the longest run of spaces, and the keyword must begin right there.
  A keyword with an optional character (`ตร\.?ม`) is given as its two
  spellings.
*/
module TextMatch {
  import opened Options
  import opened Strings

  /** The end of the run of digits starting at `i`. */
  function DigitRunEnd(s: string, i: nat): (j: nat)
    requires i <= |s|
    ensures i <= j <= |s|
    ensures forall k :: i <= k < j ==> IsDigit(s[k])
    ensures j < |s| ==> !IsDigit(s[j])
    decreases |s| - i
  {
    if i < |s| && IsDigit(s[i]) then DigitRunEnd(s, i + 1) else i
  }

  /** The end of the run of white space starting at `i`. */
  function SpaceRunEnd(s: string, i: nat): (j: nat)
    requires i <= |s|
    ensures i <= j <= |s|
    ensures forall k :: i <= k < j ==> IsJsSpace(s[k])
    ensures j < |s| ==> !IsJsSpace(s[j])
    decreases |s| - i
  {
    if i < |s| && IsJsSpace(s[i]) then SpaceRunEnd(s, i + 1) else i
  }

  /** The end of the number starting at `i`: digits, and in decimal mode an optional dot and digits. */
  function NumberEnd(s: string, i: nat, decimal: bool): (j: nat)
    requires i <= |s|
    ensures DigitRunEnd(s, i) <= j <= |s|
  {
    var d := DigitRunEnd(s, i);
    if decimal && d < |s| && s[d] == '.' then DigitRunEnd(s, d + 1) else d
  }

  /** One of the keywords begins at position `k`. */
  predicate KeywordAt(s: string, k: nat, keys: seq<string>)
    requires k <= |s|
  {
    exists key :: key in keys && IsPrefix(key, s[k..])
  }

  /** The pattern matches starting at `i`. */
  predicate MatchesAt(s: string, i: nat, keys: seq<string>, decimal: bool)
    requires i <= |s|
  {
    i < |s| && IsDigit(s[i]) && KeywordAt(s, SpaceRunEnd(s, NumberEnd(s, i, decimal)), keys)
  }

  /** The captured number of the leftmost match at or after `from`. */
  function FirstMatchFrom(s: string, from: nat, keys: seq<string>, decimal: bool): (r: Option<string>)
    requires from <= |s|
    ensures r.None? <==> forall i :: from <= i <= |s| ==> !MatchesAt(s, i, keys, decimal)
    ensures r.Some? ==> exists i :: from <= i < |s| && MatchesAt(s, i, keys, decimal) && r.value == s[i..NumberEnd(s, i, decimal)]
    ensures r.Some? ==> |r.value| > 0 && IsDigit(r.value[0])
    ensures r.Some? && !decimal ==> AllDigits(r.value)
    decreases |s| - from
  {
    if from == |s| then None
    else if MatchesAt(s, from, keys, decimal) then
      var t := s[from..NumberEnd(s, from, decimal)];
      assert forall k :: 0 <= k < |t| ==> t[k] == s[from + k];
      Some(t)
    else FirstMatchFrom(s, from + 1, keys, decimal)
  }

  /** `text.match(pattern)`, returning the captured number. */
  function FirstMatch(s: string, keys: seq<string>, decimal: bool): (r: Option<string>)
    ensures r.None? <==> forall i :: 0 <= i <= |s| ==> !MatchesAt(s, i, keys, decimal)
    ensures r.Some? ==> |r.value| > 0 && IsDigit(r.value[0])
    ensures r.Some? && !decimal ==> AllDigits(r.value)
  {
    FirstMatchFrom(s, 0, keys, decimal)
  }

  /** A run of digits ending at a non-digit ends where `DigitRunEnd` says. */
  lemma {:induction false} DigitRunEndAt(s: string, i: nat, e: nat)
    requires i <= e <= |s|
    requires forall k :: i <= k < e ==> IsDigit(s[k])
    requires e < |s| ==> !IsDigit(s[e])
    ensures DigitRunEnd(s, i) == e
    decreases e - i
  {
    if i < e {
      DigitRunEndAt(s, i + 1, e);
    }
  }

  /** A text that opens with a number and a keyword yields that number. */
  lemma NumberBeforeKeywordFound(digits: string, key: string, rest: string, decimal: bool)
    requires |digits| > 0 && AllDigits(digits) && |key| > 0 && !IsDigit(key[0]) && !IsJsSpace(key[0]) && key[0] != '.'
    ensures FirstMatch(digits + key + rest, [key], decimal) == Some(digits)
  {
    var s := digits + key + rest;
    assert s[|digits|] == key[0];
    assert forall k :: 0 <= k < |digits| ==> s[k] == digits[k];
    DigitRunEndAt(s, 0, |digits|);
    assert NumberEnd(s, 0, decimal) == |digits|;
    assert SpaceRunEnd(s, |digits|) == |digits|;
    assert s[|digits|..] == key + rest;
    assert IsPrefix(key, s[|digits|..]);
    assert MatchesAt(s, 0, [key], decimal);
    assert s[0..|digits|] == digits;
  }
}

=== FILE: uploads.dfy ===
/**
  The file-selection rule the three image pickers share (the house form's
  upload box, the post form and the simple uploader): take the first
  `max - current` selected files, skip every file that is not an image or
  is larger than 5 MB, and turn each remaining file into an image URL in
  order, numbering it after the images already collected. The pickers
  that check files themselves name every file they turn away in an alert.

  Turning a file into a URL (a storage upload with a base64 fallback, or
  base64 alone) is a parameter `convert`, given the file and its ordinal;
  it yields `None` when it throws, in which case the file is skipped.
*/
module Uploads {
  import opened Options
  import opened Strings
  import opened Seqs

  /** A selected browser `File`: its name, MIME type and size in bytes. */
  datatype File = File(name: string, mimeType: string, size: int)

  const MaxFileSize := 5 * 1024 * 1024

  /** `file.type.startsWith('image/')` */
  predicate IsImage(f: File) {
    IsPrefix("image/", f.mimeType)
  }

  /** The file passes both checks the pickers make before converting it. */
  predicate Acceptable(f: File) {
    IsImage(f) && f.size <= MaxFileSize
  }

  /** The alert for a file the checks turn away, or none for an acceptable file. */
  function RejectionOf(f: File): (r: seq<string>)
    ensures |r| == if Acceptable(f) then 0 else 1
  {
    if !IsImage(f) then ["ไฟล์ " + f.name + " ไม่ใช่รูปภาพ"]
    else if f.size > MaxFileSize then ["ไฟล์ " + f.name + " มีขนาดใหญ่เกิน 5MB"]
    else []
  }

  /** The alerts for the files the checks turn away, one per file, in order. */
  function Rejections(files: seq<File>): (r: seq<string>)
    ensures |r| + |Filter(files, Acceptable)| == |files|
  {
    if |files| == 0 then []
    else
      assert Filter(files, Acceptable) == (if Acceptable(files[0]) then [files[0]] else []) + Filter(files[1..], Acceptable);
      RejectionOf(files[0]) + Rejections(files[1..])
  }

  // ---------------------------------------------------------------------------
  // Free slots

  /**
    `fileArray.slice(0, max - current)`. A negative slot count is an
    offset from the end for `slice`, so a list already over its maximum
    still lets all but the last `current - max` files through.
  */
  function Slots(files: seq<File>, current: nat, max: int): (r: seq<File>)
    ensures |r| <= |files| && r == files[..|r|]
    ensures current <= max ==> |r| == if |files| <= max - current then |files| else max - current
    ensures current > max ==> |r| == if |files| <= current - max then 0 else |files| - (current - max)
  {
    JsSlice(files, 0, max - current)
  }

  /** A list already over its maximum lets a later selection through anyway. */
  lemma OverfullListStillTakesFiles(f: File)
    ensures |Slots([f, f, f], 21, 20)| == 2
  {
  }

  /** The free slots as intended: none once the list is full. */
  function FreeSlots(files: seq<File>, current: nat, max: int): (r: seq<File>)
    ensures |r| <= |files| && r == files[..|r|]
    ensures current + |r| <= max || r == []
    ensures |r| < |files| ==> current + |r| >= max
  {
    if current >= max then [] else JsSlice(files, 0, max - current)
  }

  /** The intended rule never fills a list beyond its maximum and agrees with `slice` below it. */
  lemma FreeSlotsNeverOverfill(files: seq<File>, current: nat, max: int)
    ensures current < max ==> FreeSlots(files, current, max) == Slots(files, current, max)
    ensures current >= max ==> FreeSlots(files, current, max) == []
    ensures current <= max ==> current + |FreeSlots(files, current, max)| <= max
  {
  }

  // ---------------------------------------------------------------------------
  // Converting the accepted files

  /**
    The loop over the files to process, with the images made so far in
    `acc`: a file that fails a check or whose conversion throws adds
    nothing, any other adds its URL; the ordinal of a file is one more
    than the number of images that precede it (`base` from earlier
    uploads plus those made in this loop).
  */
  function CollectFrom(files: seq<File>, acc: seq<string>, base: nat, convert: (File, nat) -> Option<string>): (r: seq<string>)
    ensures |acc| <= |r| <= |acc| + |Filter(files, Acceptable)|
    ensures r[..|acc|] == acc
    decreases |files|
  {
    if |files| == 0 then acc
    else
      var next := Take1(files[0], acc, base, convert);
      var r := CollectFrom(files[1..], next, base, convert);
      assert r[..|acc|] == r[..|next|][..|acc|];
      assert |Filter(files, Acceptable)| == (if Acceptable(files[0]) then 1 else 0) + |Filter(files[1..], Acceptable)|;
      r
  }

  /** One file of the loop: its URL appended when it passes the checks and converts. */
  function Take1(f: File, acc: seq<string>, base: nat, convert: (File, nat) -> Option<string>): (r: seq<string>)
    ensures Acceptable(f) && convert(f, base + |acc| + 1).Some? ==> r == acc + [convert(f, base + |acc| + 1).value]
    ensures !(Acceptable(f) && convert(f, base + |acc| + 1).Some?) ==> r == acc
  {
    if !Acceptable(f) then acc
    else match convert(f, base + |acc| + 1)
      case Some(url) => acc + [url]
      case None => acc
  }

  /** The images a selection produces, starting from none. */
  function Collect(files: seq<File>, base: nat, convert: (File, nat) -> Option<string>): (r: seq<string>)
    ensures |r| <= |Filter(files, Acceptable)|
  {
    CollectFrom(files, [], base, convert)
  }

  /** The picker's loop, one file at a time. */
  method CollectImages(files: seq<File>, base: nat, convert: (File, nat) -> Option<string>) returns (newImages: seq<string>)
    ensures newImages == Collect(files, base, convert)
    ensures |newImages| <= |Filter(files, Acceptable)|
  {
    newImages := [];
    var i := 0;
    while i < |files|
      invariant 0 <= i <= |files|
      invariant CollectFrom(files[i..], newImages, base, convert) == Collect(files, base, convert)
    {
      var f := files[i];
      assert files[i..][1..] == files[i + 1..];
      if Acceptable(f) {
        var made := convert(f, base + |newImages| + 1);
        if made.Some? {
          newImages := newImages + [made.value];
        }
      }
      i := i + 1;
    }
  }

  /**
    Skipped files leave no trace: converting only the acceptable files
    gives the same images, with the same ordinals.
  */
  lemma {:induction false} RejectedFilesLeaveNoTrace(files: seq<File>, acc: seq<string>, base: nat, convert: (File, nat) -> Option<string>)
    ensures CollectFrom(files, acc, base, convert) == CollectFrom(Filter(files, Acceptable), acc, base, convert)
    decreases |files|
  {
    if |files| > 0 {
      var f := files[0];
      var rest := Filter(files[1..], Acceptable);
      var next := Take1(f, acc, base, convert);
      assert CollectFrom(files, acc, base, convert) == CollectFrom(files[1..], next, base, convert);
      if Acceptable(f) {
        var kept := Filter(files, Acceptable);
        assert kept == [f] + rest;
        assert kept[0] == f && kept[1..] == rest;
        assert CollectFrom(kept, acc, base, convert) == CollectFrom(rest, next, base, convert);
      } else {
        assert Filter(files, Acceptable) == rest;
      }
      RejectedFilesLeaveNoTrace(files[1..], next, base, convert);
    }
  }

  /** When no conversion throws, every acceptable file yields exactly one image. */
  lemma {:induction false} EveryAcceptedFileYieldsAnImage(files: seq<File>, acc: seq<string>, base: nat, convert: (File, nat) -> Option<string>)
    requires forall f: File, k: nat :: convert(f, k).Some?
    ensures |CollectFrom(files, acc, base, convert)| == |acc| + |Filter(files, Acceptable)|
    decreases |files|
  {
    if |files| > 0 {
      var next := Take1(files[0], acc, base, convert);
      assert |Filter(files, Acceptable)| == (if Acceptable(files[0]) then 1 else 0) + |Filter(files[1..], Acceptable)|;
      EveryAcceptedFileYieldsAnImage(files[1..], next, base, convert);
    }
  }

  /** A selection made only of rejected files produces no image. */
  lemma NoAcceptableFileNoImage(files: seq<File>, base: nat, convert: (File, nat) -> Option<string>)
    requires forall i :: 0 <= i < |files| ==> !Acceptable(files[i])
    ensures Collect(files, base, convert) == []
  {
    FilterNone(files, Acceptable);
  }
}
